=== FILE: README.md ===
# Replit Telegram bridge: a Dafny model of its core

The bot forwards Telegram messages to the Replit agent. Each user gets a
**hybrid router**, which tries three transports in a fixed order: the
direct API client, the WebSocket API client, and browser automation. It
escalates within one call, keeps a failure counter per transport, and has a
circuit breaker that clears all counters once every transport has failed
too often.

This project models that router and the bookkeeping around it. Everything
is an immutable value, and every operation is a pure function from the old
state (plus the outcomes the outside world supplies) to the new state:

- **Router** (`hybrid_router.dfy`): strategy selection, escalation, counter
  updates, statistics and shutdown.
- **WebSocket client** (`websocket_client.dfy`): the connection state
  machine, the exponential backoff of `reconnect()`, and the per-message
  response table.
- **Direct API client** (`direct_api_client.dfy`): the callback registry
  lifecycle, message dispatch, the cookie filter and the header builder.
- **Legacy agent client** (`legacy_agent_api.dfy`): the message queue and
  the conversation-id rule.
- **Credential store** (`token_store.dfy`): userId → (data, stored_at)
  with an age-based validity test.
- **Configuration** (`config.dfy`): dotted-path `get`/`set` over nested
  JSON objects, and the built-in default configurations.
- **Telegram side** (`text_format.dfy`, `bot_sessions.dfy`): truncation,
  4000-character chunking, uptime formatting, nonces, and the per-user
  router registry behind `/reset` and the message handler.
- Shared pieces: `wrappers.dfy` (Option/Result), `strings.dfy` (joining,
  digits, substring search), `auth.dfy` (cookie jars as insertion-ordered
  dictionaries; the auth dictionary), and `streaming.dfy` (the
  `on_update`/`on_complete` callback log).

Inputs that the program obtains from the outside are parameters:

- the result of each socket open, send and handshake;
- the browser's start, reply and extracted credentials;
- the decoded inbound messages, grouped by 0.1-second poll interval;
- the current second;
- the generated ids and random draws.

Python truthiness is spelled out: a response of `None` or `""` is "no
answer". Integer division with a positive divisor matches Python's floor
division, which the uptime split relies on.

## Model

| member | source | states |
|---|---|---|
| HybridRouter.NewRouter | router/hybrid_router.py:31-63 | A new router has no clients and zero counters and statistics. It starts with whatever credentials the store holds for its user. |
| HybridRouter.DetermineMethod | router/hybrid_router.py:161-198 | A fixed method is returned unchanged and the router is untouched. In AUTO mode the chosen strategy is always below its threshold. A sticky direct client wins, then a sticky WebSocket client. Otherwise the first usable strategy in priority order wins, with every earlier strategy exhausted. The router changes exactly when all three counters are exhausted; then all three are cleared and the direct API is chosen. |
| HybridRouter.AutoAttemptsOnlyUsable | router/hybrid_router.py:193-198 | In AUTO mode the first strategy a call attempts is usable, whatever the counters were before. |
| HybridRouter.InitDirect | router/hybrid_router.py:65-90 | Initialization succeeds iff a client already exists or the connect succeeds. A failure adds one to the direct counter and drops the client. |
| HybridRouter.InitWebSocket | router/hybrid_router.py:92-119 | Initialization succeeds iff the existing client is alive or a fresh connect succeeds. A failure adds one to the WebSocket counter and drops the client. |
| HybridRouter.InitBrowser | router/hybrid_router.py:121-159 | Initialization succeeds iff a started browser exists or a new one starts. A failure adds one to the browser counter and leaves the store unchanged. Only the user's own stored record can change. |
| HybridRouter.InitDirectReuses | router/hybrid_router.py:72-74 | Once initialization has succeeded, a second one reuses the client: it succeeds and changes nothing, whatever a new connect would do. |
| HybridRouter.InitWebSocketReuses | router/hybrid_router.py:99-101 | Once initialization has succeeded, a second one with the client still alive succeeds and changes nothing. |
| HybridRouter.InitBrowserReuses | router/hybrid_router.py:128-130 | Once initialization has succeeded, a second one succeeds and changes neither the router nor the store, whatever the browser would do now. |
| HybridRouter.AdoptAuth | router/hybrid_router.py:142-147 | Truthy extracted credentials replace the router's credentials. They are also stored for the user, valid from that second. Anything else changes nothing. |
| HybridRouter.TryDirect | router/hybrid_router.py:221-241 | The direct leg answers iff initialization succeeds and a non-empty response comes back. An answer clears the direct counter and adds one success. An init failure or a raised exception adds one failure. No id, or an empty response, leaves the counter as it was. The other counters are untouched. |
| HybridRouter.TryWebSocket | router/hybrid_router.py:249-268 | The same as the direct leg, for the WebSocket counter. |
| HybridRouter.TryBrowser | router/hybrid_router.py:276-299 | Init failure gives "Error: Failed to initialize browser client" and one more browser failure. A raised send gives "Error: " + its message, with no counter change. A non-empty reply without "Error:" is returned, clears the browser counter and adopts fresh credentials. Any other reply gives "Error: Browser automation failed: …" and one more failure. The success count never changes. |
| Strings.ContainsMeansWindow | router/hybrid_router.py:286 | The substring test behind `"Error:" not in response` holds iff some window of the text equals the pattern. |
| HybridRouter.FromDirect | router/hybrid_router.py:221-246 | Starting at the direct API, the reply, the strategies tried and the three counters are exactly those of the reference escalation (`EscalateFromDirect`): the direct answer when the client exists or connects and answers truthily, otherwise the WebSocket escalation with the direct counter cleared, raised or kept. Tries go strictly forward, the last one is the recorded method, and a direct answer leaves the store alone. |
| HybridRouter.FromWebSocket | router/hybrid_router.py:249-273 | Starting at the WebSocket API, the outcome is exactly the reference escalation `EscalateFromWebSocket`: the WebSocket answer when a live or new client answers truthily, otherwise the browser outcome with the WebSocket counter updated. A WebSocket answer leaves the store alone. |
| HybridRouter.FromBrowser | router/hybrid_router.py:276-299 | The browser leg alone: exactly one strategy tried, no success counted, and the reply and browser counter are those of the reference `EscalateFromBrowser` (the answer, or the init, raised or failed-reply error). |
| HybridRouter.Send | router/hybrid_router.py:200-307 | Each call adds exactly one to the total. Its reply, the strategies tried and the final counters are the reference escalation from the strategy `_determine_method` picks, on the router that choice leaves. Tries go strictly forward without revisiting, and other users' stored credentials are untouched. |
| HybridRouter.Dispatch | router/hybrid_router.py:211-307 | For a concrete strategy, the call escalates from it and its outcome is the reference escalation. For AUTO it gives the fall-through reply and changes nothing. |
| HybridRouter.EscalationIgnoresBookkeeping | router/hybrid_router.py:210-211 | Recording the chosen method and counting the call do not change what the escalation produces. |
| HybridRouter.SendContinues | router/hybrid_router.py:200-307 | The router a call hands back has one more call, the counters of the reference escalation from the chosen strategy, the last strategy tried as its last method, and one more success unless the last strategy was the browser. |
| HybridRouter.StatsAfterSend | router/hybrid_router.py:309-331 | After a call the statistics report one more call, the last strategy tried as the last method, and the counters of the reference escalation. |
| HybridRouter.SendKeepsAccounted | router/hybrid_router.py:210-264 | A call adds at most one success, so successes ≤ total is preserved. |
| HybridRouter.SendAllAccounting | router/hybrid_router.py:210-264 | Over any run of calls the total grows by exactly the number of calls, and successes ≤ total holds throughout. |
| HybridRouter.AllFailOnce | router/hybrid_router.py:65-159 | A call in which every transport fails to initialize tries direct, WebSocket and browser in that order. It adds one to each counter, drops both API clients, counts no success and replies with the browser-init error. |
| HybridRouter.FailingRaisesCounters | router/hybrid_router.py:65-159 | While the direct counter stays within its threshold, each all-failing call raises all three counters by one. |
| HybridRouter.BreakerResetsOnFourthCall | router/hybrid_router.py:193-198 | From a new AUTO router with no clients, three all-failing calls bring every counter to 3, and the choice for the fourth call clears them and picks the direct API, so there is no permanent lockout. |
| HybridRouter.ExhaustedStartsOver | router/hybrid_router.py:193-198 | A call on a router with every strategy exhausted tries the direct API first, and its failure there leaves the direct counter at 1. |
| HybridRouter.DirectFailsWebSocketAnswers | router/hybrid_router.py:221-265 | If the direct connect fails and the WebSocket client answers "hello-response", that is the reply. The direct counter ends at 1 and the WebSocket counter at 0, with one success out of one call. The next call sticks to the WebSocket strategy. |
| HybridRouter.SuccessRate | router/hybrid_router.py:315-317 | The rate is the floor of successes·100/total, characterized by `rate·total ≤ successes·100 < (rate+1)·total`. It is 0 before any call, at most 100, and exactly 100 when every call succeeded. |
| HybridRouter.GetStats | router/hybrid_router.py:309-331 | The report carries the totals, the success rate as `SuccessRate` defines it (within 0..100, 100 when every call succeeded), the three failure counters, and the name of the last method exactly when there is one. It also reports truthy credentials and which client references exist. |
| HybridRouter.MethodName | router/hybrid_router.py:21-26 | Every method has a non-empty reported name, and the names of the four methods start with D, W, B and A. |
| HybridRouter.MethodNamesDistinct | router/hybrid_router.py:326 | Two methods report the same name iff they are the same method. |
| HybridRouter.Close | router/hybrid_router.py:333-372 | All three client references are dropped. The counters, the totals, the last method, the mode, the user and the credentials are kept. |
| HybridRouter.StatsAfterClose | router/hybrid_router.py:309-372 | After `close`, `get_stats` reports the same figures as before, with every client marked inactive. |
| WebSocketClient.NewClient | api/websocket_client.py:26-46 | A new client is DISCONNECTED. It has no socket, no listener, empty tables and no reconnect attempts. |
| WebSocketClient.Connect | api/websocket_client.py:99-147 | CONNECTING or CONNECTED is a no-op returning true. Otherwise the call returns true exactly when the client ends CONNECTED, and then the reconnect attempts are 0 and the listener runs. Ids that cannot be extracted end in ERROR. A failed open or handshake ends in NO_CONNECTION. A failure starts no listener and leaves the attempt counter alone. The response tables are untouched. |
| WebSocketClient.Backoff | api/websocket_client.py:159-160 | The delay before any attempt is between the initial 1 second and the 30-second cap. |
| WebSocketClient.BackoffMonotone | api/websocket_client.py:160 | The delay never decreases as attempts grow. |
| WebSocketClient.BackoffSchedule | api/websocket_client.py:43-46 | With the default settings the delays `reconnect()` computes for attempts 1..5 are 1, 2, 4, 8, 16, and from attempt 6 on they are 30. |
| WebSocketClient.Reconnect | api/websocket_client.py:149-164 | `reconnect()` on its own: below the attempt limit, one more attempt is counted, the delay is the backoff for that attempt, and the call succeeds iff the client ends CONNECTED, which resets the count and starts the listener. At the limit the client enters ERROR and reports failure without counting or sleeping. |
| WebSocketClient.ReconnectGivesUp | api/websocket_client.py:151-154 | `reconnect()` on its own, once the counter is at the limit of 5, always fails and leaves ERROR. |
| WebSocketClient.ConnectIdempotent | api/websocket_client.py:99-103 | After a connect that answered yes, a second connect changes nothing and answers yes again. |
| WebSocketClient.RefusedReconnect | api/websocket_client.py:149-164 | One call of `reconnect()` against a refused socket never succeeds. Below the limit it counts one attempt and sleeps the scheduled delay; at the limit it gives up. |
| WebSocketClient.RefusedRetriesCount | api/websocket_client.py:149-164 | Calling `reconnect()` repeatedly against a refused socket yields the delays of the counter-only schedule, and the counter climbs to the limit of 5 and stays there. |
| WebSocketClient.ScheduleAt | api/websocket_client.py:151-160 | The i-th delay of that schedule is the backoff for the count reached by then, and none once the limit is reached. |
| WebSocketClient.RefusedRetriesBackOff | api/websocket_client.py:149-164 | n calls of `reconnect()` against a refused socket give n delays, the i-th being the backoff for attempt count + i, or no delay at the limit. |
| WebSocketClient.RefusedFromZero | api/websocket_client.py:43-46 | From a fresh counter, six calls of `reconnect()` against a refused socket sleep 1, 2, 4, 8 and 16 seconds, and the sixth gives up. |
| WebSocketClient.Step | api/websocket_client.py:166-227 | A chunk for a registered id is appended to its buffer. A completion for a registered id marks it complete and hands the whole buffer to `on_complete`. Unregistered ids and other message types change nothing. Every other row keeps its content, a message keeps a running listener running, and the table's keys and handlers never change. An error other than a dropped connection sets ERROR and ends the listener. A clean close by the server ends the listener and leaves the state as it was. |
| WebSocketClient.RunAppend | api/websocket_client.py:166-215 | Processing two stretches of traffic in turn equals processing their concatenation, for both state and callbacks. |
| WebSocketClient.RunAccumulates | api/websocket_client.py:176-187 | While the listener runs, a registered id's buffer is its old content followed by every chunk addressed to it, in arrival order. |
| WebSocketClient.UpdatesMirrorBuffer | api/websocket_client.py:181-187 | The chunks handed to `on_update` for an id, concatenated in order, are exactly the chunks added to its buffer. |
| WebSocketClient.UnregisteredStayAbsent | api/websocket_client.py:181-193 | No traffic ever adds an unregistered id to the table. |
| WebSocketClient.CompletionCarriesAllChunks | api/websocket_client.py:189-198 | The completion callback receives the old buffer plus every chunk of the run, and the row is complete. |
| WebSocketClient.SendMessage | api/websocket_client.py:229-286 | The row is registered (empty, incomplete) before connecting. Handlers are stored only when a callback is given. A client not CONNECTED goes through `connect()`: the id is returned exactly when that connect answered yes and the send succeeded, and the client is the connected (or failed) one apart from the new row and handlers. A CONNECTED client returns the id exactly when the send succeeded and is otherwise unchanged. On None the row stays. |
| WebSocketClient.ConnectIgnoresTables | api/websocket_client.py:99-147 | `connect()` neither reads nor writes the response and handler tables: connecting with other tables gives the same client and answer with those tables. |
| WebSocketClient.SentRowCollectsAnswer | api/websocket_client.py:176-198 | If the client listens after the send, the registered row ends holding exactly the chunks addressed to the id, marked complete by the completion message. |
| WebSocketClient.WaitForResponse | api/websocket_client.py:288-315 | An unknown id gives None. Otherwise the wait consumes at most `timeout`·10 + 1 poll intervals, and the final state is the listener run over exactly their traffic. At every earlier poll the row was incomplete and the state was neither ERROR nor CLOSED. A result is the complete row's content. None means the timeout or an ERROR/CLOSED state. No row is ever removed. |
| WebSocketClient.Close | api/websocket_client.py:317-335 | With a socket the client ends CLOSED and stops listening; without one nothing changes. |
| WebSocketClient.ConnectionLost | api/websocket_client.py:217-227 | Called from the running listener, a closed connection keeps the response table and reconnects once. Below the attempt limit it backs off by the next delay, and succeeds iff it ends CONNECTED. At the limit it ends in ERROR. Either way the listener stops. |
| WebSocketClient.ListenerFreshKept | api/websocket_client.py:133-139 | A listening client has a zero attempt counter. A new client has this property, and connecting, closing and losing the connection keep it. |
| WebSocketClient.ListenerFreshSend | api/websocket_client.py:229-286 | Sending a message keeps that property. |
| WebSocketClient.ListenerFreshRun | api/websocket_client.py:166-227 | Processing any traffic keeps that property. |
| WebSocketClient.LostConnectionRetriesOnce | api/websocket_client.py:217-222 | A lost connection is retried exactly once, after 1 second. A failure leaves the counter at 1 and nothing listening, so no second `reconnect()` follows. |
| WebSocketClient.GetHeaders | api/websocket_client.py:80-97 | The three base headers are always present. `Cookie` is present iff the jar is non-empty, and it is then the "; "-join of `name=value` pairs. |
| Auth.CookieHeaderRoundTrip | api/websocket_client.py:88-95 | Parsing a `Cookie` header back gives the jar it was built from, in order, when names hold no '=' or ';' and values no ';'. |
| WebSocketClient.GetHeadersCarryJar | api/websocket_client.py:88-95 | Parsing the `Cookie` header gives back the client's jar, in order, when names and values hold no separators. |
| DirectApiClient.FilterCookiesUnique | api/direct_api_client.py:49-54 | The filtered jar never repeats a name. |
| DirectApiClient.FilterCookiesContents | api/direct_api_client.py:49-54 | A name's value in the jar is the value of its last kept cookie. A cookie is kept when its domain is `replit.com` or ends in `.replit.com` and its name and value are non-empty. |
| DirectApiClient.LoadAuthFromCookies | api/direct_api_client.py:33-71 | Credentials load iff the file exists and the filtered jar holds at least one of the four important names. They are then the jar with the current second. |
| DirectApiClient.LoadedCookiesFollowFile | api/direct_api_client.py:33-71 | A file is accepted iff one of the four important names has a kept cookie, and every name then carries the value of its last kept cookie. |
| DirectApiClient.PrepareHeaders | api/direct_api_client.py:73-88 | The four base headers are always present. `Cookie` is present iff truthy auth data has a `cookies` entry, even an empty one, and it is the "; "-join of the pairs. |
| DirectApiClient.PrepareHeadersCarryJar | api/direct_api_client.py:82-85 | Parsing the `Cookie` header gives back the credentials' jar, in order, when names and values hold no separators. |
| DirectApiClient.NewClient | api/direct_api_client.py:18-31 | A new client is uninitialized, without a socket, with an empty callback registry. |
| DirectApiClient.Connect | api/direct_api_client.py:101-155 | Without truthy auth data the cookie file is loaded first, and failing that the call raises. With credentials in hand the call answers, and it answers yes iff the service confirms the connection. The client then holds its own credentials, or the loaded ones. It is initialized on a yes and closed on a no. |
| DirectApiClient.ConnectThenClose | api/direct_api_client.py:101-155 | With credentials in hand, connecting and then closing gives the client closed straight away. |
| DirectApiClient.Step | api/direct_api_client.py:157-207 | `connection:established` sets the established flag. A stream chunk for a registered id with `on_update` is forwarded. A final response for a registered id with `on_complete` is delivered and the entry is dropped. Unregistered ids are ignored. The listener's end clears `initialized` and the established flag. |
| DirectApiClient.SendMessage | api/direct_api_client.py:209-254 | A connect happens first when uninitialized or without a socket, and a failed connect raises. The client afterwards is the one that connect left (or the unchanged client when none was needed), apart from the registry. A success leaves the client initialized with a socket, and listening when it has just connected, and registers the callbacks under the fresh id. A failed send leaves the registry as it was. |
| DirectApiClient.AnswerEndsRegistration | api/direct_api_client.py:189-192 | After a successful send with `on_complete`, the final response for the id is delivered to it once and the registry is back to what it was before the send. |
| DirectApiClient.AwaitFindsFirstAnswer | api/direct_api_client.py:276-285 | The awaited answer is the content of the first final response for the id in the traffic, if any. |
| DirectApiClient.AwaitAfterEnd | api/direct_api_client.py:205-207 | Once the listener has ended, no further traffic is processed and no answer comes. |
| DirectApiClient.WaitForResponse | api/direct_api_client.py:256-292 | An unregistered id gives None and changes nothing. Otherwise the id's entry is gone on exit, answered or not, and no entry is added. |
| DirectApiClient.WaitReturnsFirstAnswer | api/direct_api_client.py:283-292 | The returned answer is the first final response for the id. |
| DirectApiClient.Close | api/direct_api_client.py:294-315 | The socket is dropped and the client is uninitialized and not established. |
| LegacyAgentApi.NewApi | replit_api.py:17-24 | A new client is disconnected, with no conversation id and an empty queue. |
| LegacyAgentApi.Connect | replit_api.py:26-50 | A conversation id is generated only while unset and is kept otherwise. The result and the `connected` flag are whether the socket opened. The queue is untouched. |
| LegacyAgentApi.ConversationIdStable | replit_api.py:30-32 | Once set, the conversation id survives any sequence of reconnects. |
| LegacyAgentApi.Step | replit_api.py:52-92 | For a known id, content is appended and `done` completes the row. Messages with no id or an unknown id change nothing. The end of the listener marks the client disconnected. |
| LegacyAgentApi.Run | replit_api.py:58-61 | Processing traffic never adds or removes queue rows. |
| LegacyAgentApi.RunAppend | replit_api.py:58-61 | Processing two stretches of traffic in turn equals processing their concatenation. |
| LegacyAgentApi.RunAccumulates | replit_api.py:75-82 | While the listener runs, a known id's response is its old content followed by every content addressed to it, in arrival order. |
| LegacyAgentApi.RunCompletes | replit_api.py:75-82 | While the listener runs, a known id's row is complete iff it already was or a message for it carried `done`. |
| LegacyAgentApi.WaitLoop | replit_api.py:124-133 | The loop makes at most 601 polls: the timeout is seen at the 601st, once more than 60 seconds (600 ticks) have passed. The final state is the listener run over exactly the traffic of the elapsed poll intervals. A result is the complete row's response. The only failure is the timeout on an incomplete row. |
| LegacyAgentApi.WaitLoopPending | replit_api.py:124-133 | The loop stops at the first poll that finds the row complete: at every earlier poll the row existed and was incomplete. |
| LegacyAgentApi.SendMessage | replit_api.py:94-137 | If still disconnected after a connect, the call raises with the queue unchanged. Otherwise the nonce is registered with an empty, incomplete row before sending. A failed send raises and keeps that row. A result is the completed row's response; what that response is, on both the connected and the connect path, is stated by `SendReturnsStreamedContent`. |
| LegacyAgentApi.Registered | replit_api.py:105-110 | Registering adds the nonce with an empty, incomplete row and keeps every other row. |
| LegacyAgentApi.SendReturnsStreamedContent | replit_api.py:75-133 | For a client already connected and listening, and for a disconnected client whose connect opens the socket (the path every first call takes), with the listener up throughout, the call stops at the first tick whose traffic flagged the nonce done, and answers with exactly the content streamed to it up to then. It times out exactly when no such flag arrives within the 60 seconds. |
| LegacyAgentApi.Close | replit_api.py:143-148 | With a socket the client is disconnected and every further message leaves it unchanged. Without one nothing changes. |
| TokenStore.Load | auth/token_manager.py:67-82 | A missing file, or one that cannot be read, leaves the map empty. A decoded file becomes the map. |
| TokenStore.StoreUserTokens | auth/token_manager.py:99-115 | The user's record becomes (data, now). The key set gains the user, and every other record is untouched. |
| TokenStore.GetUserTokens | auth/token_manager.py:117-131 | None iff the user has no record, otherwise the stored data. |
| TokenStore.IsTokenValid | auth/token_manager.py:133-150 | Valid iff the user has a record stored less than `maxAge` seconds ago. |
| TokenStore.DeleteUserTokens | auth/token_manager.py:152-164 | Reports true iff the user had a record. Only that record is removed. An absent user changes nothing. |
| TokenStore.StoreThenGet | auth/token_manager.py:108-131 | What is stored is what is read back. |
| TokenStore.DeleteThenGet | auth/token_manager.py:143-162 | After a delete the user has no data and no valid credentials. |
| TokenStore.ValidityWindow | auth/token_manager.py:133-150 | Fresh credentials are valid exactly for the next `maxAge` seconds. |
| TokenStore.StoreIsolatesUsers | auth/token_manager.py:108 | Storing for one user never changes what another user reads. |
| Config.Split | config.py:72 | Splitting at dots gives at least one segment, none of which contains a dot. |
| Config.SplitJoin | config.py:72 | Joining the segments with dots gives back the key. |
| Config.GetPath | config.py:68-83 | The walk returns the default as soon as a segment is missing, holds null, or meets a non-object, and never returns null otherwise. |
| Config.GetPathReadsHeld | config.py:76-81 | Any value the path reaches through objects, without null, is what the walk returns. A result other than the default is reached by the path. |
| Config.SetPath | config.py:85-109 | Setting succeeds iff the root and every existing value above the leaf are objects (missing ones become empty objects). A success keeps the root's keys and adds the first segment. |
| Config.Set | config.py:85-109 | A set succeeds iff the path is walkable. A failed one leaves the configuration unchanged, and a successful one writes an object over an object. |
| Config.GetAfterSet | config.py:89-99 | After a successful set of a non-null value, get of the same key returns it. |
| Config.SetFrame | config.py:93-99 | A set leaves unchanged every key whose path diverges from the one written. |
| Config.IsFeatureEnabled | config.py:111-113 | Without a `features` entry every feature reads as false. |
| Config.FeatureLookup | config.py:111-113 | For a dot-free feature name the flag is the `features` object's non-null entry. |
| Config.FeatureMissing | config.py:111-113 | A feature missing from the `features` object reads as false. |
| Config.DefaultApiResponseTimeout | config.py:33-38 | The default configuration has `timeouts.api_response` = 60. |
| Config.DefaultMaxRetries | config.py:39-42 | The default configuration has `retry.max_retries` = 3. |
| Config.DefaultDirectApiEnabled | config.py:27-32 | The default configuration enables `use_direct_api`. |
| Config.FallbackApiResponseTimeout | config.py:59-62 | The fallback configuration has `timeouts.api_response` = 60. |
| Config.FallbackMaxRetries | config.py:63-65 | The fallback configuration has `retry.max_retries` = 3. |
| Config.FallbackStreamingDisabled | config.py:55-58 | The fallback configuration has no `streaming_responses` flag, so that feature reads as disabled. |
| TextFormat.FormatForTelegram | telegram_bot.py:289-302 | The output is at most 4000 characters. Empty or None gives "". Text of up to 4000 characters is unchanged. Longer text is exactly 4000 characters: its 3997-character prefix followed by "...". |
| TextFormat.FormatIdempotent | telegram_bot.py:289-302 | Formatting a formatted text changes nothing. |
| TextFormat.TruncationKeepsPrefix | utils.py:43-56 | Two texts format alike iff both are over the limit and share the 3997-character prefix, or both fit and are equal, or one fits and equals the other's prefix followed by "...". |
| TextFormat.SplitIntoChunks | telegram_bot.py:226-232 | The chunks concatenate back to the text. Each is non-empty and at most 4000 characters, all but the last are exactly 4000, and there are ⌈n/4000⌉ of them. |
| TextFormat.UptimeFields | telegram_bot.py:271-276 | Hours < 24, minutes < 60 and seconds < 60, with d·86400 + h·3600 + m·60 + s equal to the input. |
| TextFormat.UptimeFieldsUnique | telegram_bot.py:271-276 | Those bounds determine the split uniquely. |
| TextFormat.UptimeParts | telegram_bot.py:278-287 | The seconds part is always last. A positive days part comes first, a positive hours part comes right after it (or first), and a positive minutes part sits just before the seconds. Each of d, h, m appears only when positive. |
| Strings.ParseNatToString | telegram_bot.py:280-286 | The decimal rendering used for the uptime parts loses nothing: parsing it gives the number back. |
| TextFormat.FormatUptimeShape | telegram_bot.py:271-287 | The text ends with the seconds part. It starts with the days part from one day on, and is the seconds part alone under a minute. |
| TextFormat.GenerateNonce | utils.py:11-14 | The nonce has one character per draw, each a lowercase letter or digit. |
| TextFormat.DefaultNonceShape | utils.py:11-14 | With the default length the nonce has 16 characters, each a lowercase letter or digit. |
| TextFormat.EveryAlphabetStringIsANonce | utils.py:11-14 | Every string over that alphabet is some nonce, so the alphabet is exactly the one drawn from. |
| BotSessions.Reset | telegram_bot.py:95-122 | An active user's router is dropped and their stored credentials deleted, other users untouched. A user without a session gets a notice and nothing changes. |
| BotSessions.ResetTwice | telegram_bot.py:99-122 | A second reset in a row finds no session. |
| BotSessions.FinalReply | telegram_bot.py:205-208 | The reply is never empty and at most 4000 characters. A non-blank response within the limit is sent as is. A blank one is replaced by the empty-response notice. A longer one, even all whitespace, is sent as its 3997-character prefix followed by "...". |
| BotSessions.TruncatedNotBlank | utils.py:55-56 | A truncated response ends in "...", so it is never blank. |
| BotSessions.FinalReplyStable | telegram_bot.py:205-208 | A final reply passed through again goes out unchanged. |
| BotSessions.RouterFor | telegram_bot.py:142-158 | The user's registered router, or a new AUTO router for a first-time user. |
| BotSessions.RegistryKeepsSentRouter | telegram_bot.py:143-199 | The registry holds the very router and store the call produced, so the user's next message starts from its clients, counters, statistics and credentials. |
| BotSessions.HandleMessage | telegram_bot.py:124-208 | A blank message is refused and nothing changes. Otherwise the reply is the final-reply text of the router's answer, which is the reference escalation from the strategy `_determine_method` picks. The router stored for the user continues the one the call went through: one more call, the counters the reference escalation prescribes, the last strategy tried as the last method, and one more success unless the browser leg had the last word. The processed count rises by one, and the reply fits one Telegram message. Other users' routers, and (in a registry keyed by user) their credentials, are untouched. |
| BotSessions.HandlingKeepsWellKeyed | telegram_bot.py:142-158 | Handling messages and resets keeps every router registered under its own user. |
| BotSessions.ResetThenMessage | telegram_bot.py:99-158 | After a reset, the next message starts a fresh router with no credentials, and that router counts one call. |

## Left out

- I/O and concurrency: sockets, `asyncio` tasks, sleeps, futures and threads. Each socket step is an outcome parameter, inbound traffic is a sequence of decoded messages, and time is an integer (seconds, or 0.1-second poll ticks).
- JSON encoding and decoding of wire messages, and `_extract_connection_params`. Whether ids can be extracted is a parameter.
- Id generation by `uuid`, `hash` and `random`: generated ids are parameters. `GenerateNonce` takes the random draws as input.
- Browser automation (`browser/`, `auth/browser_auth.py`, `browser_automation.py`). Starting, replying and extracting credentials are outcome parameters of the router.
- Encryption and persistence of the credential store: Fernet, key derivation, and reading and writing `tokens.enc`. The root `token_manager.py` is not part of this model.
- TokenStore.StoreUserTokens: always succeeds, because a failed file write (which makes the source return False) is not modelled.
- TokenStore.DeleteUserTokens: reports true for a present user, because the result of the file write is not modelled.
- Writing `config.json` from `Config.set` and `_load_config`. JSON values other than null, booleans, integers, strings, arrays and objects are not modelled either.
- `created_at`, `updated_at` and `timestamp` bookkeeping fields, which nothing reads.
- HybridRouter.SuccessRate: the source computes a float and truncates it, which can come out one lower than the exact floor (for example 29 of 100). The model uses the exact integer floor.
- HybridRouter.Send: the `on_update` forwarding wrapper is not modelled in the router. Streaming is modelled in the client modules.
- HybridRouter.InitWebSocket: an exception raised while closing a dead client has the same effect as a failed connect, so it is not a separate outcome.
- HybridRouter.TryBrowser: an exception from the credential extraction after a browser success is not modelled.
- Environment settings (`COOKIES_FILE`, `USE_PLAYWRIGHT`) and the choice between the Selenium and Playwright clients, which do not affect the router's state.
- `utils.parse_websocket_url`, `generate_uuid`, `current_timestamp` and `ensure_directory_exists`, which are thin library wrappers.
- `routes.py`, `models.py`, `logger.py`, the other bot commands and `get_bot_status`. The Telegram API calls in `telegram_bot.py` are not modelled either; only the text they would send is.
- Auth.CookieHeaderRoundTrip: covers only cookies whose names have no '=' or ';' and whose values have no ';', because the `"; "`-joined header cannot separate any others.
- TextFormat.FormatUptime: the input is an integer number of seconds; the source first truncates a float.
- BotSessions.IsSpace: follows the code points of Python's `str.isspace`, with no Unicode database behind it.

## Quirks of the code, modelled as written

- **Repeated completions:** the WebSocket listener hands the whole buffer to `on_complete` for every `agentResponseComplete` message for a registered id (api/websocket_client.py:193-198). Nothing marks a row as delivered, so a repeated completion calls it again.
- **WebSocket rows are never removed:** the WebSocket `wait_for_response` returns the content and keeps the row (api/websocket_client.py:301-315). The direct client, by contrast, deletes the callback after the answer ("Remove the callback after completion", api/direct_api_client.py:191-192).
- **Empty cookie header:** the direct client's `_prepare_headers` sets `Cookie` whenever a `cookies` entry exists, so an empty dictionary gives an empty header (api/direct_api_client.py:83-85). The WebSocket client leaves the header out when there are no pairs (api/websocket_client.py:93-95).
- **Browser successes are not counted:** a browser answer clears the browser counter but does not add to `successful_api_calls` (router/hybrid_router.py:286-296). The direct and WebSocket answers do add to it (:237, :264). So the stickiness test is driven only by direct and WebSocket successes.
- **Empty answers are not failures:** a missing message id or an empty response from the direct or WebSocket client falls through to the next strategy without touching the failure counter (router/hybrid_router.py:233-245, 260-273). Only a raised exception counts (:239-241, :266-268).
- **Raised browser sends are not counted:** an exception from the browser's `send_message` (router/hybrid_router.py:284) goes straight to the handler at :304-307 and leaves the browser counter alone.
- **Unreachable fall-through:** `_determine_method` never returns AUTO (router/hybrid_router.py:161-198), so the "any method" reply at :302 cannot occur.
- **A clean close leaves the state CONNECTED:** the listener's `async for message in self.ws` (api/websocket_client.py:168) ends without an exception when the server closes the socket cleanly, because that is how the `websockets` library ends the iteration. Neither handler at :217-227 runs. The state stays CONNECTED while nothing listens, so `is_connected()` keeps answering yes and `send_message` skips `connect()`. `Step` models this as the `ServerClosed` input.
- **Only one reconnection is ever made:** the running listener is the only caller of `reconnect()` (api/websocket_client.py:217-222). A successful `connect()` zeroes the counter before it starts the listener (:133-139), so `reconnect()` always starts from 0 attempts. That call is still inside the old listener task, so `connect()` starts no new one, and the task then ends. One retry after 1 second is therefore all that happens. The attempt limit and the 2, 4, 8, 16 and 30-second delays are reached only by calling `reconnect()` directly, which the program never does. `ListenerFreshKept`, `ListenerFreshSend`, `ListenerFreshRun` and `LostConnectionRetriesOnce` state this; the `Refused*` and `Backoff*` members describe `reconnect()` on its own.

=== FILE: auth.dfy ===
/** The authentication bundle the transports share: a dictionary whose
    `cookies` entry is itself an insertion-ordered name -> value dictionary. */
module Auth {
  import opened Wrappers
  import Strings

  /** A Python dict of cookies: (name, value) pairs in insertion order. */
  type CookieJar = seq<(string, string)>

  /** No name occurs twice, as in any dict. */
  predicate UniqueNames(jar: CookieJar) {
    forall i, k :: 0 <= i < k < |jar| ==> jar[i].0 != jar[k].0
  }

  /** `jar.get(name)` */
  function Lookup(jar: CookieJar, name: string): (r: Option<string>)
    ensures r.Some? ==> (name, r.value) in jar
    decreases |jar|
  {
    if |jar| == 0 then None
    else if jar[0].0 == name then Some(jar[0].1)
    else Lookup(jar[1..], name)
  }

  /** `jar[name] = value`: an existing name keeps its position and takes
      the new value; a new name is appended at the end. */
  function Put(jar: CookieJar, name: string, value: string): (r: CookieJar)
    ensures Lookup(r, name) == Some(value)
    ensures forall n :: n != name ==> Lookup(r, n) == Lookup(jar, n)
    ensures Lookup(jar, name).None? ==> r == jar + [(name, value)]
    ensures Lookup(jar, name).Some? ==> |r| == |jar|
    decreases |jar|
  {
    if |jar| == 0 then [(name, value)]
    else if jar[0].0 == name then [(name, value)] + jar[1..]
    else [jar[0]] + Put(jar[1..], name, value)
  }

  /** Every name of the jar after `Put` was already there or is `name`. */
  lemma {:induction false} PutNames(jar: CookieJar, name: string, value: string)
    ensures forall p :: p in Put(jar, name, value) ==> p.0 == name || p in jar
    decreases |jar|
  {
    if |jar| > 0 && jar[0].0 != name {
      PutNames(jar[1..], name, value);
    }
  }

  /** `Put` keeps the dict property: names stay unique. */
  lemma {:induction false} PutKeepsUniqueNames(jar: CookieJar, name: string, value: string)
    requires UniqueNames(jar)
    ensures UniqueNames(Put(jar, name, value))
    decreases |jar|
  {
    if |jar| > 0 && jar[0].0 != name {
      var tail := jar[1..];
      PutKeepsUniqueNames(tail, name, value);
      PutNames(tail, name, value);
      var r := Put(jar, name, value);
      forall k | 0 < k < |r|
        ensures r[0].0 != r[k].0
      {
        assert r[k] in Put(tail, name, value);
      }
    }
  }

  /** The `name=value` strings of a jar, in order. */
  function CookiePairs(jar: CookieJar): (r: seq<string>)
    ensures |r| == |jar|
    ensures forall i :: 0 <= i < |jar| ==> r[i] == jar[i].0 + "=" + jar[i].1
  {
    seq(|jar|, i requires 0 <= i < |jar| => jar[i].0 + "=" + jar[i].1)
  }

  /** The value of a `Cookie` header: `"; ".join(name=value ...)`. */
  function CookieHeader(jar: CookieJar): string {
    Strings.Join(CookiePairs(jar), "; ")
  }

  /** Adding a cookie to a non-empty jar extends the header by `"; "` and
      the new pair, and leaves what was there before as its prefix. */
  lemma CookieHeaderSnoc(jar: CookieJar, name: string, value: string)
    requires |jar| > 0
    ensures CookieHeader(jar + [(name, value)]) == CookieHeader(jar) + "; " + name + "=" + value
  {
    assert CookiePairs(jar + [(name, value)]) == CookiePairs(jar) + [name + "=" + value];
    Strings.JoinSnoc(CookiePairs(jar), name + "=" + value, "; ");
  }

  /** Names free of '=' and ';' and values free of ';': the cookies a
      header carries unambiguously. */
  predicate Plain(jar: CookieJar) {
    forall i :: 0 <= i < |jar| ==> '=' !in jar[i].0 && ';' !in jar[i].0 && ';' !in jar[i].1
  }

  /** Reads one `name=value` pair back, splitting at the first '='. */
  function ParsePair(p: string): (string, string) {
    if '=' in p then
      var k := Strings.IndexOf(p, '=');
      (p[..k], p[k + 1..])
    else (p, "")
  }

  /** Reads a `Cookie` header back into a jar: each pair ends at the next
      ';', and the space after it is dropped. */
  function ParseCookieHeader(h: string): CookieJar
    decreases |h|
  {
    if h == "" then []
    else if ';' in h then
      var k := Strings.IndexOf(h, ';');
      [ParsePair(h[..k])] + ParseCookieHeader(if k + 2 <= |h| then h[k + 2..] else "")
    else [ParsePair(h)]
  }

  /** The first `c` of `a + [c] + b` is the one after `a` when `a` has none. */
  lemma {:induction false} IndexOfAfter(a: string, c: char, b: string)
    requires c !in a
    ensures c in a + [c] + b && Strings.IndexOf(a + [c] + b, c) == |a|
    decreases |a|
  {
    if |a| > 0 {
      IndexOfAfter(a[1..], c, b);
      assert (a + [c] + b)[1..] == a[1..] + [c] + b;
    }
  }

  /** A pair reads back as the cookie it was written from. */
  lemma ParsePairOfPair(name: string, value: string)
    requires '=' !in name
    ensures ParsePair(name + "=" + value) == (name, value)
  {
    IndexOfAfter(name, '=', value);
    var p := name + "=" + value;
    assert p == name + ['='] + value;
    assert p[..|name|] == name && p[|name| + 1..] == value;
  }

  /** The `Cookie` header loses nothing: read back, it gives the jar it
      was built from, in order. */
  lemma {:induction false} CookieHeaderRoundTrip(jar: CookieJar)
    requires Plain(jar)
    ensures ParseCookieHeader(CookieHeader(jar)) == jar
    decreases |jar|
  {
    if |jar| > 0 {
      var p0 := jar[0].0 + "=" + jar[0].1;
      ParsePairOfPair(jar[0].0, jar[0].1);
      assert ';' !in p0;
      assert CookiePairs(jar)[0] == p0;
      if |jar| == 1 {
        assert CookieHeader(jar) == p0;
      } else {
        var rest := CookieHeader(jar[1..]);
        assert CookiePairs(jar)[1..] == CookiePairs(jar[1..]);
        var h := CookieHeader(jar);
        assert h == p0 + "; " + rest;
        assert h == p0 + [';'] + (" " + rest);
        IndexOfAfter(p0, ';', " " + rest);
        assert h[..|p0|] == p0 && h[|p0| + 2..] == rest;
        assert Plain(jar[1..]) by {
          forall i | 0 <= i < |jar[1..]|
            ensures '=' !in jar[1..][i].0 && ';' !in jar[1..][i].0 && ';' !in jar[1..][i].1
          {
            assert jar[1..][i] == jar[i + 1];
          }
        }
        CookieHeaderRoundTrip(jar[1..]);
      }
    }
  }

  /** An authentication dictionary. `cookies` and `timestamp` are its two
      structured entries; `fields` holds the other string-valued entries
      (such as `client_id` and `session_id`). */
  datatype AuthData = AuthData(
    cookies: Option<CookieJar>,
    timestamp: Option<int>,
    fields: map<string, string>)

  /** Python truthiness of the dictionary: it has at least one entry. */
  predicate Truthy(a: AuthData) {
    a.cookies.Some? || a.timestamp.Some? || |a.fields| > 0
  }

  /** Truthiness of an optional dictionary (`None` is falsy). */
  predicate Present(a: Option<AuthData>) {
    a.Some? && Truthy(a.value)
  }

  /** `auth_data.get(key, '')` for a string-valued entry. */
  function Field(a: AuthData, key: string): string {
    if key in a.fields then a.fields[key] else ""
  }
}

=== FILE: bot_sessions.dfy ===
/** `telegram_bot.py`: the registry of per-user routers behind the message
    handler and the `/reset` command. Telegram calls, threads and event
    loops are not modelled; a handled message yields the text of the final
    reply. */
module BotSessions {
  import opened Wrappers
  import opened TokenStore
  import HybridRouter
  import TextFormat

  datatype Bot = Bot(
    routers: map<UserId, HybridRouter.Router>,
    store: Store,
    processed: nat)

  const ResetDone := "Your session has been reset. All connection data has been cleared.\nYou can continue with a fresh session now!"
  const NoSession := "You don't have an active session to reset."
  const EmptyMessageNotice := "I received an empty message. Please send me some text to process."
  const EmptyResponseNotice := "I received an empty response from Replit AI. Please try again or reset your session with /reset."

  /** The characters for which Python's `str.isspace` holds. */
  predicate IsSpaceChar(c: char) {
    var n := c as int;
    (9 <= n <= 13) || (28 <= n <= 32) || n == 0x85 || n == 0xA0 || n == 0x1680
    || (0x2000 <= n <= 0x200A) || n == 0x2028 || n == 0x2029 || n == 0x202F
    || n == 0x205F || n == 0x3000
  }

  /** `str.isspace`: non-empty and whitespace throughout. */
  predicate IsSpace(s: string) {
    |s| > 0 && forall i :: 0 <= i < |s| ==> IsSpaceChar(s[i])
  }

  /** A text the handler refuses: empty or all whitespace. */
  predicate Blank(s: string) {
    s == "" || IsSpace(s)
  }

  /** `reset_command`: an active user's router is dropped and their stored
      credentials deleted; anyone else only gets a notice. */
  function Reset(bot: Bot, user: UserId): (res: (Bot, string))
    ensures user in bot.routers ==>
      (res.1 == ResetDone
       && res.0.routers == bot.routers - {user}
       && GetUserTokens(res.0.store, user).None?
       && res.0.store.tokens.Keys == bot.store.tokens.Keys - {user})
    ensures user !in bot.routers ==> res == (bot, NoSession)
    ensures forall u :: u != user && u in bot.store.tokens ==> u in res.0.store.tokens && res.0.store.tokens[u] == bot.store.tokens[u]
    ensures res.0.processed == bot.processed
  {
    if user in bot.routers then
      var (store, _) := DeleteUserTokens(bot.store, user);
      (bot.(routers := bot.routers - {user}, store := store), ResetDone)
    else (bot, NoSession)
  }

  /** A second reset in a row finds no session. */
  lemma ResetTwice(bot: Bot, user: UserId)
    ensures Reset(Reset(bot, user).0, user) == (Reset(bot, user).0, NoSession)
  {
  }

  /** The text of the final reply for a router response: the response
      formatted for Telegram, or a notice when that comes out blank. */
  function FinalReply(response: string): (reply: string)
    ensures 0 < |reply| <= TextFormat.MaxMessageLength
    ensures !Blank(response) && |response| <= TextFormat.MaxMessageLength ==> reply == response
    ensures Blank(response) && |response| <= TextFormat.MaxMessageLength ==> reply == EmptyResponseNotice
    ensures |response| > TextFormat.MaxMessageLength ==>
      reply == response[..TextFormat.MaxMessageLength - 3] + TextFormat.Ellipsis
  {
    var formatted := TextFormat.FormatForTelegram(Some(response));
    TruncatedNotBlank(response);
    if Blank(formatted) then EmptyResponseNotice else formatted
  }

  /** A truncated response ends in dots, so it is never blank, even when
      the response itself was all whitespace. */
  lemma TruncatedNotBlank(response: string)
    ensures |response| > TextFormat.MaxMessageLength ==>
      TextFormat.FormatForTelegram(Some(response)) == response[..TextFormat.MaxMessageLength - 3] + TextFormat.Ellipsis
      && !Blank(TextFormat.FormatForTelegram(Some(response)))
  {
    if |response| > TextFormat.MaxMessageLength {
      var f := TextFormat.FormatForTelegram(Some(response));
      assert f[|f| - 1] == '.';
    }
  }

  lemma NoticeNotBlank()
    ensures !Blank(EmptyResponseNotice)
  {
    var s := EmptyResponseNotice;
    assert s[|s| - 1] == '.';
  }

  /** A final reply goes out unchanged when passed through again: it is
      never blank and always fits one message. */
  lemma FinalReplyStable(response: string)
    ensures FinalReply(FinalReply(response)) == FinalReply(response)
  {
    TruncatedNotBlank(response);
    NoticeNotBlank();
    assert !Blank(FinalReply(response));
  }

  /** The user's router, created on first contact. */
  function RouterFor(bot: Bot, user: UserId): (r: HybridRouter.Router)
    ensures user in bot.routers ==> r == bot.routers[user]
    ensures user !in bot.routers ==> r == HybridRouter.NewRouter(user, bot.store, HybridRouter.Auto)
  {
    if user in bot.routers then bot.routers[user] else HybridRouter.NewRouter(user, bot.store, HybridRouter.Auto)
  }

  /** The registry only holds routers created for their own user. */
  predicate WellKeyed(bot: Bot) {
    forall u :: u in bot.routers ==> bot.routers[u].userId == u
  }

  /** `handle_message`: a blank text is refused without touching the
      registry; otherwise the user's router is created on first contact,
      the message goes through it, and the updated router, credentials and
      count are kept. */
  function HandleMessage(bot: Bot, user: UserId, text: string, env: HybridRouter.Env): (res: (Bot, string))
    ensures Blank(text) ==> res == (bot, EmptyMessageNotice)
    ensures !Blank(text) ==>
      (res.0.routers.Keys == bot.routers.Keys + {user}
       && res.0.processed == bot.processed + 1
       && 0 < |res.1| <= TextFormat.MaxMessageLength
       && res.1 == FinalReply(HybridRouter.Escalation(HybridRouter.DetermineMethod(RouterFor(bot, user)).0, env,
                                                       HybridRouter.DetermineMethod(RouterFor(bot, user)).1).reply)
       && res.0.routers[user].total == RouterFor(bot, user).total + 1
       && HybridRouter.Continues(RouterFor(bot, user), env, res.0.routers[user])
       && (user in bot.routers ==> res.0.routers[user].userId == bot.routers[user].userId)
       && (user !in bot.routers ==> res.0.routers[user].userId == user))
    ensures forall u :: u != user && u in bot.routers ==> u in res.0.routers && res.0.routers[u] == bot.routers[u]
    ensures WellKeyed(bot) ==>
      forall u :: u != user && u in bot.store.tokens ==> u in res.0.store.tokens && res.0.store.tokens[u] == bot.store.tokens[u]
  {
    if Blank(text) then (bot, EmptyMessageNotice)
    else
      var sent := HybridRouter.Send(RouterFor(bot, user), bot.store, env);
      HybridRouter.SendContinues(RouterFor(bot, user), bot.store, env);
      (bot.(routers := bot.routers[user := sent.router], store := sent.store, processed := bot.processed + 1),
       FinalReply(sent.reply))
  }

  /** The registry keeps the very router the call went through: the next
      message of the user continues from its clients, counters, statistics
      and credentials, and the store is the one the call left behind. */
  lemma RegistryKeepsSentRouter(bot: Bot, user: UserId, text: string, env: HybridRouter.Env)
    requires !Blank(text)
    ensures var sent := HybridRouter.Send(RouterFor(bot, user), bot.store, env);
      var b := HandleMessage(bot, user, text, env).0;
      b.routers[user] == sent.router && b.store == sent.store
      && RouterFor(b, user) == sent.router
  {
  }

  /** Handling messages and resets keeps every router under its own user,
      so each router's calls can only touch its own user's credentials. */
  lemma HandlingKeepsWellKeyed(bot: Bot, user: UserId, text: string, env: HybridRouter.Env)
    requires WellKeyed(bot)
    ensures WellKeyed(HandleMessage(bot, user, text, env).0)
    ensures WellKeyed(Reset(bot, user).0)
  {
  }

  /** After a reset, the next message starts over with a fresh router built
      from whatever credentials remain, which for that user is none. */
  lemma ResetThenMessage(bot: Bot, user: UserId, text: string, env: HybridRouter.Env)
    requires user in bot.routers && !Blank(text)
    ensures var b := Reset(bot, user).0;
      HybridRouter.NewRouter(user, b.store, HybridRouter.Auto).auth.None?
      && HandleMessage(b, user, text, env).0.routers[user].total == 1
  {
    var b := Reset(bot, user).0;
    var newRouter := HybridRouter.NewRouter(user, b.store, HybridRouter.Auto);
    assert user !in b.routers;
    assert newRouter.total == 0;
  }
}

=== FILE: config.dfy ===
/** `config.py`: a JSON configuration addressed by dot-separated key
    paths. Reading and writing `config.json` is not part of this model. */
module Config {
  import Strings
  import opened Wrappers

  /** A decoded JSON value. */
  datatype Json =
    | JNull
    | JBool(b: bool)
    | JInt(i: int)
    | JStr(s: string)
    | JArr(items: seq<Json>)
    | JObj(fields: map<string, Json>)

  predicate NoDot(s: string) {
    forall i :: 0 <= i < |s| ==> s[i] != '.'
  }

  /** `key.split('.')`: always at least one segment, empty segments kept. */
  function Split(s: string): (parts: seq<string>)
    ensures |parts| >= 1
    ensures forall i :: 0 <= i < |parts| ==> NoDot(parts[i])
    decreases |s|
  {
    if |s| == 0 then [""]
    else
      var rest := Split(s[1..]);
      if s[0] == '.' then [""] + rest
      else [[s[0]] + rest[0]] + rest[1..]
  }

  /** Splitting loses nothing: joining the segments with '.' gives the key back. */
  lemma {:induction false} SplitJoin(s: string)
    ensures Strings.Join(Split(s), ".") == s
    decreases |s|
  {
    if |s| > 0 {
      SplitJoin(s[1..]);
      var rest := Split(s[1..]);
      if s[0] == '.' {
        assert Split(s) == [""] + rest;
        assert ([""] + rest)[1..] == rest;
      } else {
        var parts := [[s[0]] + rest[0]] + rest[1..];
        assert Split(s) == parts;
        if |rest| == 1 {
          assert parts == [[s[0]] + rest[0]];
        } else {
          assert parts[1..] == rest[1..];
          assert Strings.Join(rest, ".") == rest[0] + "." + Strings.Join(rest[1..], ".");
        }
      }
    }
  }

  /** A key without dots is a single segment. */
  lemma {:induction false} SplitNoDot(s: string)
    requires NoDot(s)
    ensures Split(s) == [s]
    decreases |s|
  {
    if |s| > 0 {
      SplitNoDot(s[1..]);
      assert [s[0]] + s[1..] == s;
    }
  }

  /** A dot-free first segment followed by '.' splits off in front. */
  lemma {:induction false} SplitPrefix(a: string, b: string)
    requires NoDot(a)
    ensures Split(a + "." + b) == [a] + Split(b)
    decreases |a|
  {
    if |a| == 0 {
      assert a + "." + b == "." + b;
      assert ("." + b)[1..] == b;
    } else {
      SplitPrefix(a[1..], b);
      assert (a + "." + b)[1..] == a[1..] + "." + b;
      assert [a[0]] + a[1..] == a;
    }
  }

  /** The walk of `Config.get` over already split segments: descend through
      objects; a missing segment, a `null` on the way, or a value that is
      not an object (where Python raises) all give `default`. */
  function GetPath(v: Json, parts: seq<string>, default: Json): (r: Json)
    ensures |parts| > 0 ==> r == default || r != JNull
    ensures |parts| > 0 && !v.JObj? ==> r == default
    ensures |parts| > 0 && v.JObj? && parts[0] !in v.fields ==> r == default
    ensures |parts| > 0 && v.JObj? && parts[0] in v.fields && v.fields[parts[0]] == JNull ==> r == default
    decreases |parts|
  {
    if |parts| == 0 then v
    else match v
      case JObj(m) =>
        if parts[0] in m && m[parts[0]] != JNull then GetPath(m[parts[0]], parts[1..], default)
        else default
      case _ => default
  }

  /** `x` is what the walk along `parts` reaches, through objects and
      without meeting `null` on the way or at the end. */
  predicate Holds(v: Json, parts: seq<string>, x: Json)
    decreases |parts|
  {
    if |parts| == 0 then v == x
    else v.JObj? && parts[0] in v.fields && v.fields[parts[0]] != JNull && Holds(v.fields[parts[0]], parts[1..], x)
  }

  /** The walk reads what the path holds: any value the path reaches is the
      result, and a result other than the default is reached by the path. */
  lemma {:induction false} GetPathReadsHeld(v: Json, parts: seq<string>, d: Json)
    ensures forall x :: Holds(v, parts, x) ==> GetPath(v, parts, d) == x
    ensures GetPath(v, parts, d) != d ==> Holds(v, parts, GetPath(v, parts, d))
    decreases |parts|
  {
    if |parts| > 0 && v.JObj? && parts[0] in v.fields && v.fields[parts[0]] != JNull {
      GetPathReadsHeld(v.fields[parts[0]], parts[1..], d);
    }
  }

  /** `Config.get(key, default)` */
  function Get(cfg: Json, key: string, default: Json): Json {
    GetPath(cfg, Split(key), default)
  }

  /** The walk of `Config.set` over already split segments: missing
      intermediate segments become empty objects and the last segment is
      assigned. An existing intermediate value that is not an object makes
      Python raise; the result is then `None` and nothing has changed. */
  function SetPath(v: Json, parts: seq<string>, x: Json): (r: Option<Json>)
    requires |parts| >= 1
    ensures r.Some? ==> r.value.JObj?
    ensures r.Some? ==> v.JObj? && r.value.fields.Keys == v.fields.Keys + {parts[0]}
    ensures !v.JObj? ==> r.None?
    ensures r.Some? <==> Walkable(v, parts)
    decreases |parts|
  {
    match v
    case JObj(m) =>
      if |parts| == 1 then Some(JObj(m[parts[0] := x]))
      else
        var child := if parts[0] in m then m[parts[0]] else JObj(map[]);
        match SetPath(child, parts[1..], x) {
          case None => None
          case Some(c) => Some(JObj(m[parts[0] := c]))
        }
    case _ => None
  }

  /** The assignment's walk meets no existing value that is not an object:
      the root and every existing value under the segments before the last
      are objects. */
  predicate Walkable(v: Json, parts: seq<string>)
    requires |parts| >= 1
    decreases |parts|
  {
    v.JObj? && (|parts| == 1 || parts[0] !in v.fields || Walkable(v.fields[parts[0]], parts[1..]))
  }

  /** `Config.set(key, value)`: the new configuration and whether the
      assignment happened. */
  function Set(cfg: Json, key: string, x: Json): (r: (Json, bool))
    ensures !r.1 ==> r.0 == cfg
    ensures r.1 ==> r.0.JObj? && cfg.JObj?
    ensures r.1 <==> Walkable(cfg, Split(key))
  {
    match SetPath(cfg, Split(key), x)
    case None => (cfg, false)
    case Some(c) => (c, true)
  }

  /** Below a freshly created object the walk never meets a non-object,
      so an assignment under a missing segment always succeeds. */
  lemma {:induction false} SetPathOnEmptySucceeds(parts: seq<string>, x: Json)
    requires |parts| >= 1
    ensures SetPath(JObj(map[]), parts, x).Some?
    decreases |parts|
  {
    if |parts| > 1 {
      SetPathOnEmptySucceeds(parts[1..], x);
    }
  }

  /** Round trip on segments: after a successful assignment of a non-null
      value, the same walk finds that value. */
  lemma {:induction false} GetAfterSetPath(v: Json, parts: seq<string>, x: Json, d: Json)
    requires |parts| >= 1 && x != JNull
    requires SetPath(v, parts, x).Some?
    ensures GetPath(SetPath(v, parts, x).value, parts, d) == x
    decreases |parts|
  {
    var m := v.fields;
    if |parts| > 1 {
      var child := if parts[0] in m then m[parts[0]] else JObj(map[]);
      GetAfterSetPath(child, parts[1..], x, d);
    }
  }

  /** Round trip on keys: `get(k)` after a successful `set(k, v)` with a
      non-null `v` returns `v`. */
  lemma GetAfterSet(cfg: Json, key: string, x: Json, d: Json)
    requires x != JNull
    requires Set(cfg, key, x).1
    ensures Get(Set(cfg, key, x).0, key, d) == x
  {
    GetAfterSetPath(cfg, Split(key), x, d);
  }

  /** Two segment paths part ways at some position both of them have. */
  predicate Diverges(p: seq<string>, q: seq<string>) {
    exists i :: 0 <= i < |p| && i < |q| && p[i] != q[i]
  }

  /** Framing: an assignment changes nothing on a path that parts ways
      with the assigned path. */
  lemma {:induction false} SetPathFrame(v: Json, parts: seq<string>, x: Json, p: seq<string>, d: Json)
    requires |parts| >= 1
    requires SetPath(v, parts, x).Some?
    requires Diverges(p, parts)
    ensures GetPath(SetPath(v, parts, x).value, p, d) == GetPath(v, p, d)
    decreases |parts|, 1
  {
    var i :| 0 <= i < |p| && i < |parts| && p[i] != parts[i];
    if p[0] != parts[0] {
      SetPathFrameHead(v, parts, x, p, d);
    } else {
      assert i > 0;
      assert Diverges(p[1..], parts[1..]) by {
        assert p[1..][i - 1] != parts[1..][i - 1];
      }
      SetPathFrameBelow(v, parts, x, p, d);
    }
  }

  /** A path that leaves the assigned one at the first segment reads the
      untouched sibling. */
  lemma SetPathFrameHead(v: Json, parts: seq<string>, x: Json, p: seq<string>, d: Json)
    requires |parts| >= 1 && |p| >= 1 && p[0] != parts[0]
    requires SetPath(v, parts, x).Some?
    ensures GetPath(SetPath(v, parts, x).value, p, d) == GetPath(v, p, d)
  {
    var m := v.fields;
    var r := SetPath(v, parts, x).value;
    assert p[0] in r.fields <==> p[0] in m;
    if p[0] in m {
      assert r.fields[p[0]] == m[p[0]];
    }
  }

  /** A path that shares the first segment and leaves the assigned one
      further down: the frame one level below decides. */
  lemma SetPathFrameBelow(v: Json, parts: seq<string>, x: Json, p: seq<string>, d: Json)
    requires |parts| >= 2 && |p| >= 2 && p[0] == parts[0]
    requires SetPath(v, parts, x).Some?
    requires Diverges(p[1..], parts[1..])
    ensures GetPath(SetPath(v, parts, x).value, p, d) == GetPath(v, p, d)
    decreases |parts|, 0
  {
    var m := v.fields;
    var child := if parts[0] in m then m[parts[0]] else JObj(map[]);
    if parts[0] !in m {
      SetPathOnEmptySucceeds(parts[1..], x);
    }
    var c := SetPath(child, parts[1..], x).value;
    assert SetPath(v, parts, x).value == JObj(m[parts[0] := c]);
    SetPathFrame(child, parts[1..], x, p[1..], d);
    if parts[0] !in m {
      assert GetPath(child, p[1..], d) == d by {
        assert p[1..][0] !in child.fields;
      }
    }
  }

  /** Framing on keys. */
  lemma SetFrame(cfg: Json, key: string, x: Json, other: string, d: Json)
    requires Set(cfg, key, x).1
    requires Diverges(Split(other), Split(key))
    ensures Get(Set(cfg, key, x).0, other, d) == Get(cfg, other, d)
  {
    SetPathFrame(cfg, Split(key), x, Split(other), d);
  }

  /** `is_feature_enabled(name)`: the value under `features.<name>`, `false`
      when there is none. */
  function IsFeatureEnabled(cfg: Json, feature: string): (r: Json)
    ensures cfg.JObj? && "features" !in cfg.fields ==> r == JBool(false)
  {
    FeaturesKeySplits(feature);
    Get(cfg, "features." + feature, JBool(false))
  }

  lemma FeaturesKeySplits(feature: string)
    ensures Split("features." + feature) == ["features"] + Split(feature)
  {
    assert NoDot("features");
    assert "features" + "." + feature == "features." + feature;
    SplitPrefix("features", feature);
  }

  /** A feature name without dots is looked up directly in `features`. */
  lemma FeatureLookup(cfg: Json, feature: string)
    requires NoDot(feature)
    requires cfg.JObj? && "features" in cfg.fields
    requires cfg.fields["features"].JObj? && feature in cfg.fields["features"].fields
    requires cfg.fields["features"].fields[feature] != JNull
    ensures IsFeatureEnabled(cfg, feature) == cfg.fields["features"].fields[feature]
  {
    FeaturesKeySplits(feature);
    SplitNoDot(feature);
    TwoSegmentPath(cfg, "features", feature, JBool(false));
  }

  /** The two-step walk finds a non-null value stored two objects deep. */
  lemma TwoSegmentPath(cfg: Json, a: string, b: string, d: Json)
    requires cfg.JObj? && a in cfg.fields
    requires cfg.fields[a].JObj? && b in cfg.fields[a].fields
    requires cfg.fields[a].fields[b] != JNull
    ensures GetPath(cfg, [a, b], d) == cfg.fields[a].fields[b]
  {
    var inner := cfg.fields[a];
    assert [a, b][1..] == [b];
    assert [b][1..] == [];
    assert GetPath(inner, [b], d) == GetPath(inner.fields[b], [], d);
    assert GetPath(cfg, [a, b], d) == GetPath(inner, [b], d);
  }

  /** The configuration written when no file exists. */
  const DefaultConfig: Json := JObj(map[
    "features" := JObj(map[
      "use_direct_api" := JBool(true),
      "browser_fallback" := JBool(true),
      "extract_tokens" := JBool(true),
      "streaming_responses" := JBool(true)]),
    "timeouts" := JObj(map[
      "api_connection" := JInt(30),
      "api_response" := JInt(60),
      "browser_startup" := JInt(60),
      "browser_response" := JInt(120)]),
    "retry" := JObj(map[
      "max_retries" := JInt(3),
      "retry_delay" := JInt(2)])])

  /** The minimal configuration used when loading or creating the file fails. */
  const FallbackConfig: Json := JObj(map[
    "features" := JObj(map[
      "use_direct_api" := JBool(true),
      "browser_fallback" := JBool(true)]),
    "timeouts" := JObj(map[
      "api_connection" := JInt(30),
      "api_response" := JInt(60)]),
    "retry" := JObj(map[
      "max_retries" := JInt(3)])])

  /** Reads the value stored under `<a>.<b>` for dot-free `a` and `b`. */
  lemma TwoSegmentGet(cfg: Json, key: string, a: string, b: string, d: Json)
    requires NoDot(a) && NoDot(b) && key == a + "." + b
    requires cfg.JObj? && a in cfg.fields
    requires cfg.fields[a].JObj? && b in cfg.fields[a].fields
    requires cfg.fields[a].fields[b] != JNull
    ensures Get(cfg, key, d) == cfg.fields[a].fields[b]
  {
    SplitPrefix(a, b);
    SplitNoDot(b);
    TwoSegmentPath(cfg, a, b, d);
  }

  /** Keys the rest of the program reads. */
  const ApiResponseTimeoutKey: string := "timeouts.api_response"
  const MaxRetriesKey: string := "retry.max_retries"
  const DirectApiFeature: string := "use_direct_api"
  const StreamingFeature: string := "streaming_responses"

  /** With no file, the API response timeout is 60 seconds. */
  lemma DefaultApiResponseTimeout(d: Json)
    ensures Get(DefaultConfig, ApiResponseTimeoutKey, d) == JInt(60)
  {
    assert NoDot("timeouts") && NoDot("api_response");
    assert ApiResponseTimeoutKey == "timeouts" + "." + "api_response";
    assert DefaultConfig.fields["timeouts"].fields["api_response"] == JInt(60);
    TwoSegmentGet(DefaultConfig, ApiResponseTimeoutKey, "timeouts", "api_response", d);
  }

  /** With no file, the retry limit is 3. */
  lemma DefaultMaxRetries(d: Json)
    ensures Get(DefaultConfig, MaxRetriesKey, d) == JInt(3)
  {
    assert NoDot("retry") && NoDot("max_retries");
    assert MaxRetriesKey == "retry" + "." + "max_retries";
    assert DefaultConfig.fields["retry"].fields["max_retries"] == JInt(3);
    TwoSegmentGet(DefaultConfig, MaxRetriesKey, "retry", "max_retries", d);
  }

  /** With no file, the direct API feature is enabled. */
  lemma DefaultDirectApiEnabled()
    ensures IsFeatureEnabled(DefaultConfig, DirectApiFeature) == JBool(true)
  {
    FeatureLookup(DefaultConfig, DirectApiFeature);
  }

  /** The minimal configuration agrees on the API response timeout. */
  lemma FallbackApiResponseTimeout(d: Json)
    ensures Get(FallbackConfig, ApiResponseTimeoutKey, d) == JInt(60)
  {
    assert NoDot("timeouts") && NoDot("api_response");
    assert ApiResponseTimeoutKey == "timeouts" + "." + "api_response";
    assert FallbackConfig.fields["timeouts"].fields["api_response"] == JInt(60);
    TwoSegmentGet(FallbackConfig, ApiResponseTimeoutKey, "timeouts", "api_response", d);
  }

  /** The minimal configuration agrees on the retry limit. */
  lemma FallbackMaxRetries(d: Json)
    ensures Get(FallbackConfig, MaxRetriesKey, d) == JInt(3)
  {
    assert NoDot("retry") && NoDot("max_retries");
    assert MaxRetriesKey == "retry" + "." + "max_retries";
    assert FallbackConfig.fields["retry"].fields["max_retries"] == JInt(3);
    TwoSegmentGet(FallbackConfig, MaxRetriesKey, "retry", "max_retries", d);
  }

  /** A dot-free feature missing from an existing `features` object reads
      as disabled. */
  lemma FeatureMissing(cfg: Json, feature: string)
    requires NoDot(feature)
    requires cfg.JObj? && "features" in cfg.fields
    requires cfg.fields["features"].JObj? && feature !in cfg.fields["features"].fields
    ensures IsFeatureEnabled(cfg, feature) == JBool(false)
  {
    FeaturesKeySplits(feature);
    SplitNoDot(feature);
    assert ["features", feature][1..] == [feature];
  }

  /** A feature the minimal configuration does not list reads as disabled. */
  lemma FallbackStreamingDisabled()
    ensures IsFeatureEnabled(FallbackConfig, StreamingFeature) == JBool(false)
  {
    FeatureMissing(FallbackConfig, StreamingFeature);
  }
}

=== FILE: direct_api_client.dfy ===
/** `api/direct_api_client.py`: the persistent-socket transport. Its state
    is a callback registry keyed by message id; this module models the
    registry's lifecycle, the cookie-file filter and the header builder.
    The socket is replaced by outcome values and decoded inbound traffic. */
module DirectApiClient {
  import opened Wrappers
  import opened Auth
  import opened Strings
  import opened Streaming

  /** One cookie of the cookies file; a missing field reads as "". */
  datatype CookieRecord = CookieRecord(domain: string, name: string, value: string)

  /** The cookies whose presence makes a cookies file usable. */
  const ImportantCookies: seq<string> := ["connect.sid", "ajs_user_id", "__stripe_mid", "amplitude_id_"]

  /** A cookie is kept when it belongs to replit.com or a subdomain and
      has a non-empty name and value. */
  predicate Kept(ck: CookieRecord) {
    (EndsWith(ck.domain, ".replit.com") || ck.domain == "replit.com") && ck.name != "" && ck.value != ""
  }

  /** The jar built by the filter loop: kept cookies in file order, a
      repeated name keeping its first position and taking its last value. */
  function FilterCookies(cs: seq<CookieRecord>): (jar: CookieJar)
    decreases |cs|
  {
    if |cs| == 0 then []
    else
      var last := cs[|cs| - 1];
      var jar0 := FilterCookies(cs[..|cs| - 1]);
      if Kept(last) then Put(jar0, last.name, last.value) else jar0
  }

  /** The filtered jar is a proper dict: no name twice. */
  lemma {:induction false} FilterCookiesUnique(cs: seq<CookieRecord>)
    ensures UniqueNames(FilterCookies(cs))
    decreases |cs|
  {
    if |cs| > 0 {
      var last := cs[|cs| - 1];
      FilterCookiesUnique(cs[..|cs| - 1]);
      if Kept(last) {
        PutKeepsUniqueNames(FilterCookies(cs[..|cs| - 1]), last.name, last.value);
      }
    }
  }

  /** The value the file gives `name` in the end: that of its last kept
      cookie, if any. */
  function LastKeptValue(cs: seq<CookieRecord>, name: string): Option<string>
    decreases |cs|
  {
    if |cs| == 0 then None
    else if Kept(cs[|cs| - 1]) && cs[|cs| - 1].name == name then Some(cs[|cs| - 1].value)
    else LastKeptValue(cs[..|cs| - 1], name)
  }

  /** The jar holds exactly the kept cookies: a name is present iff some
      kept cookie carries it, with the value of the last such cookie; all
      other cookies are dropped. */
  lemma {:induction false} FilterCookiesContents(cs: seq<CookieRecord>, name: string)
    ensures Lookup(FilterCookies(cs), name) == LastKeptValue(cs, name)
    decreases |cs|
  {
    if |cs| > 0 {
      FilterCookiesContents(cs[..|cs| - 1], name);
    }
  }

  /** The jar holds at least one of the important cookies. */
  predicate HasImportant(jar: CookieJar) {
    exists k :: k in ImportantCookies && Lookup(jar, k).Some?
  }

  /** `_load_auth_from_cookies_file()` given the decoded file (`None` when it
      is missing or unreadable) and the current second: the filtered jar
      stamped with the time, accepted only if an important cookie is in it. */
  function LoadAuthFromCookies(file: Option<seq<CookieRecord>>, now: int): (r: Option<AuthData>)
    ensures r.Some? <==> file.Some? && HasImportant(FilterCookies(file.value))
    ensures r.Some? ==> r.value == AuthData(Some(FilterCookies(file.value)), Some(now), map[])
  {
    if file.None? then None
    else
      var jar := FilterCookies(file.value);
      if HasImportant(jar) then Some(AuthData(Some(jar), Some(now), map[])) else None
  }

  /** The loaded credentials follow the file: a file is accepted exactly
      when one of the important names has a kept cookie, and each name then
      carries the value of its last kept cookie. */
  lemma LoadedCookiesFollowFile(file: Option<seq<CookieRecord>>, now: int)
    ensures LoadAuthFromCookies(file, now).Some? <==>
      file.Some? && exists k :: k in ImportantCookies && LastKeptValue(file.value, k).Some?
    ensures LoadAuthFromCookies(file, now).Some? ==>
      forall name :: Lookup(LoadAuthFromCookies(file, now).value.cookies.value, name) == LastKeptValue(file.value, name)
  {
    if file.Some? {
      forall name ensures Lookup(FilterCookies(file.value), name) == LastKeptValue(file.value, name) {
        FilterCookiesContents(file.value, name);
      }
    }
  }

  const CookieName: string := "Cookie"

  /** Headers sent on every connection. */
  const BaseHeaders: map<string, string> := map[
    "User-Agent" := "Mozilla/5.0 (Windows NT 10.0; Win64; x64) AppleWebKit/537.36 (KHTML, like Gecko) Chrome/120.0.0.0 Safari/537.36",
    "Origin" := "https://replit.com",
    "Pragma" := "no-cache",
    "Cache-Control" := "no-cache"]

  lemma BaseHeadersHaveNoCookie()
    ensures CookieName !in BaseHeaders
  {
  }

  /** `_prepare_headers()`: the fixed headers, plus `Cookie` whenever the
      (non-empty) auth data has a cookies entry, even an empty one. */
  function PrepareHeaders(auth: Option<AuthData>): (h: map<string, string>)
    ensures forall k :: k in BaseHeaders ==> k in h && h[k] == BaseHeaders[k]
    ensures CookieName in h <==> Present(auth) && auth.value.cookies.Some?
    ensures CookieName in h ==> h[CookieName] == CookieHeader(auth.value.cookies.value)
  {
    BaseHeadersHaveNoCookie();
    if Present(auth) && auth.value.cookies.Some? then
      BaseHeaders[CookieName := CookieHeader(auth.value.cookies.value)]
    else BaseHeaders
  }

  /** The `Cookie` header carries the jar: read back, it gives the
      credentials' cookies, in order. */
  lemma PrepareHeadersCarryJar(auth: Option<AuthData>)
    requires Present(auth) && auth.value.cookies.Some? ==> Plain(auth.value.cookies.value)
    ensures CookieName in PrepareHeaders(auth) ==> ParseCookieHeader(PrepareHeaders(auth)[CookieName]) == auth.value.cookies.value
  {
    if Present(auth) && auth.value.cookies.Some? {
      CookieHeaderRoundTrip(auth.value.cookies.value);
    }
  }

  /** The callbacks stored for one message id; `awaited` marks the wrapper
      `wait_for_response` installs to resolve its future. */
  datatype Entry = Entry(onUpdate: bool, onComplete: bool, awaited: bool)

  datatype Client = Client(
    auth: Option<AuthData>,
    hasSocket: bool,
    initialized: bool,
    established: bool,
    listening: bool,
    callbacks: map<string, Entry>)

  function NewClient(auth: Option<AuthData>): (c: Client)
    ensures !c.initialized && !c.hasSocket && c.callbacks == map[]
  {
    Client(auth, false, false, false, false, map[])
  }

  /** How opening the socket went: refused, opened but no
      `connection:established` within 15 s, or established. */
  datatype Transport = Refused | NotEstablished | Established

  /** Why a call raised. */
  datatype Failure = AuthUnavailable | ConnectFailed | SendFailed

  /** `close()`: socket gone, not initialized, the established flag cleared
      and the listener cancelled; the registry is kept. */
  function Close(c: Client): (r: Client)
    ensures !r.hasSocket && !r.initialized && !r.established && !r.listening
    ensures r.callbacks == c.callbacks && r.auth == c.auth
  {
    c.(hasSocket := false, initialized := false, established := false, listening := false)
  }

  /** `connect()`. Without auth data, the cookies file is loaded first and
      its rejection raises. A refused or unestablished socket closes the
      client and answers no; otherwise the client is initialized. */
  function Connect(c: Client, file: Option<seq<CookieRecord>>, now: int, t: Transport): (r: (Client, Result<bool, Failure>))
    ensures !Present(c.auth) && LoadAuthFromCookies(file, now).None? ==> r == (c, Failure(AuthUnavailable))
    ensures r.1 == Success(true) ==> r.0.initialized && r.0.hasSocket && r.0.listening
    ensures r.1 == Success(false) ==> !r.0.initialized && !r.0.hasSocket
    ensures r.1.Success? ==> Present(r.0.auth)
    ensures Present(c.auth) || LoadAuthFromCookies(file, now).Some? ==>
      r.1.Success? && (r.1.value <==> t == Established)
    ensures r.1.Success? ==> r.0.auth == (if Present(c.auth) then c.auth else LoadAuthFromCookies(file, now))
    ensures r.0.callbacks == c.callbacks
  {
    var loaded := if Present(c.auth) then c.auth else LoadAuthFromCookies(file, now);
    if !Present(loaded) then (c, Failure(AuthUnavailable))
    else
      var c1 := c.(auth := loaded);
      match t
      case Established =>
        (c1.(hasSocket := true, listening := true, established := true, initialized := true), Success(true))
      case _ => (Close(c1), Success(false))
  }

  /** Closing undoes connecting: with credentials in hand, a client that
      connects and then closes is the client closed straight away. */
  lemma ConnectThenClose(c: Client, file: Option<seq<CookieRecord>>, now: int, t: Transport)
    requires Present(c.auth)
    ensures Close(Connect(c, file, now, t).0) == Close(c)
  {
  }

  /** A decoded inbound message, by its `type`; a missing `messageId` reads as "". */
  datatype DirectMessage =
    | ConnectionEstablishedMsg
    | AgentStream(messageId: string, content: string)
    | AgentResponse(messageId: string, content: string)
    | OtherType

  /** What the listener sees: a message, or the end of the socket. */
  datatype Inbound = Message(msg: DirectMessage) | ListenerEnded

  /** The result of one step: the client, the callbacks fired, and the
      content handed to a waiting future, if any. */
  datatype StepResult = StepResult(client: Client, events: seq<Callback>, resolved: Option<(string, string)>)

  /** One step of `_process_messages`. A stream chunk for a registered id
      goes to `on_update`; a final response for a registered id with an
      `on_complete` (or a waiting future) is delivered and its entry
      deleted; unregistered ids are ignored. When the listener ends, the
      client is no longer initialized and the established flag is cleared. */
  function Step(c: Client, x: Inbound): (r: StepResult)
    ensures r.client.callbacks.Keys <= c.callbacks.Keys
    ensures !c.listening ==> r == StepResult(c, [], None)
    ensures x.ListenerEnded? && c.listening ==> !r.client.initialized && !r.client.established && !r.client.listening
    ensures x.Message? && x.msg.AgentStream? ==> r.client == c && r.resolved.None?
    ensures x == Message(ConnectionEstablishedMsg) && c.listening ==> r == StepResult(c.(established := true), [], None)
    ensures x.Message? && x.msg.AgentStream? && x.msg.messageId != "" && x.msg.messageId in c.callbacks
            && c.callbacks[x.msg.messageId].onUpdate && c.listening ==>
      r.events == [OnUpdate(x.msg.messageId, x.msg.content)]
    ensures x.Message? && (x.msg.AgentStream? || x.msg.AgentResponse?) && x.msg.messageId !in c.callbacks ==>
      r == StepResult(c, [], None)
    ensures x.Message? && x.msg.AgentResponse? && x.msg.messageId != "" && x.msg.messageId in c.callbacks && c.listening ==>
      var e := c.callbacks[x.msg.messageId];
      (e.onComplete || e.awaited) ==> r.client.callbacks == c.callbacks - {x.msg.messageId}
    ensures r.resolved.Some? ==>
      x.Message? && x.msg.AgentResponse? && r.resolved.value == (x.msg.messageId, x.msg.content) && x.msg.messageId !in r.client.callbacks
  {
    if !c.listening then StepResult(c, [], None)
    else match x
      case ListenerEnded =>
        StepResult(c.(initialized := false, established := false, listening := false), [], None)
      case Message(m) =>
        match m
        case ConnectionEstablishedMsg => StepResult(c.(established := true), [], None)
        case OtherType => StepResult(c, [], None)
        case AgentStream(id, chunk) =>
          if id != "" && id in c.callbacks && c.callbacks[id].onUpdate then
            StepResult(c, [OnUpdate(id, chunk)], None)
          else StepResult(c, [], None)
        case AgentResponse(id, content) =>
          if id != "" && id in c.callbacks && (c.callbacks[id].onComplete || c.callbacks[id].awaited) then
            var e := c.callbacks[id];
            var ev := if e.onComplete then [OnComplete(id, content)] else [];
            var res := if e.awaited then Some((id, content)) else None;
            StepResult(c.(callbacks := c.callbacks - {id}), ev, res)
          else StepResult(c, [], None)
  }

  /** `send_message(text, on_update, on_complete)` with a fresh id. It
      connects first when not initialized or without a socket, and raises
      if that fails. The entry is registered before sending and removed
      again when sending raises. */
  function SendMessage(c: Client, id: string, onUpdate: bool, onComplete: bool,
                       file: Option<seq<CookieRecord>>, now: int, t: Transport, sendOk: bool)
    : (r: (Client, Result<string, Failure>))
    requires id !in c.callbacks
    ensures r.1.Success? ==> r.1.value == id && r.0.callbacks == c.callbacks[id := Entry(onUpdate, onComplete, false)]
    ensures r.1.Failure? ==> r.0.callbacks == c.callbacks
    ensures (!c.initialized || !c.hasSocket) && Connect(c, file, now, t).1 != Success(true) ==> r.1.Failure?
    ensures r.1.Success? <==> sendOk && ((c.initialized && c.hasSocket) || Connect(c, file, now, t).1 == Success(true))
    ensures r.1.Success? ==> r.0.initialized && r.0.hasSocket && (!(c.initialized && c.hasSocket) ==> r.0.listening)
    ensures !(c.initialized && c.hasSocket) ==> r.0 == Connect(c, file, now, t).0.(callbacks := r.0.callbacks)
    ensures c.initialized && c.hasSocket ==> r.0 == c.(callbacks := r.0.callbacks)
  {
    var (c1, ok) :=
      if !c.initialized || !c.hasSocket then Connect(c, file, now, t) else (c, Success(true));
    if ok != Success(true) then (c1, Failure(if ok.Failure? then ok.error else ConnectFailed))
    else
      var c2 := c1.(callbacks := c1.callbacks[id := Entry(onUpdate, onComplete, false)]);
      if sendOk then (c2, Success(id))
      else (c2.(callbacks := c2.callbacks - {id}), Failure(SendFailed))
  }

  /** A registration lasts until its answer: after a successful send with
      an `on_complete` callback, the final response for the id hands its
      content to that callback and leaves the registry as it was before
      the send. */
  lemma AnswerEndsRegistration(c: Client, id: string, onUpdate: bool, file: Option<seq<CookieRecord>>,
                               now: int, t: Transport, content: string)
    requires id != "" && id !in c.callbacks
    requires var s := SendMessage(c, id, onUpdate, true, file, now, t, true); s.1.Success? && s.0.listening
    ensures var s := SendMessage(c, id, onUpdate, true, file, now, t, true).0;
      var st := Step(s, Message(AgentResponse(id, content)));
      st.client.callbacks == c.callbacks && st.events == [OnComplete(id, content)] && st.resolved.None?
  {
    var s := SendMessage(c, id, onUpdate, true, file, now, t, true).0;
    assert s.callbacks == c.callbacks[id := Entry(onUpdate, true, false)];
    assert s.callbacks - {id} == c.callbacks;
  }

  /** Delivers traffic until a final response resolves `id`'s future. */
  function Await(c: Client, id: string, xs: seq<Inbound>): (r: (Client, Option<string>, seq<Callback>))
    ensures r.0.callbacks.Keys <= c.callbacks.Keys
    decreases |xs|
  {
    if |xs| == 0 then (c, None, [])
    else
      var s := Step(c, xs[0]);
      if s.resolved.Some? && s.resolved.value.0 == id then (s.client, Some(s.resolved.value.1), s.events)
      else
        var rest := Await(s.client, id, xs[1..]);
        (rest.0, rest.1, s.events + rest.2)
  }

  /** The answer the traffic holds for `id`: the content of the first final
      response addressed to it, provided the listener is still running then. */
  function FirstAnswer(xs: seq<Inbound>, id: string): Option<string>
    decreases |xs|
  {
    if |xs| == 0 || xs[0].ListenerEnded? then None
    else if xs[0].msg.AgentResponse? && xs[0].msg.messageId == id then Some(xs[0].msg.content)
    else FirstAnswer(xs[1..], id)
  }

  /** While the awaited entry is registered and the listener runs, the wait
      resolves with exactly the first answer addressed to `id`. */
  lemma {:induction false} AwaitFindsFirstAnswer(c: Client, id: string, xs: seq<Inbound>)
    requires id != "" && id in c.callbacks && c.callbacks[id].awaited && c.listening
    ensures Await(c, id, xs).1 == FirstAnswer(xs, id)
    decreases |xs|
  {
    if |xs| > 0 && !xs[0].ListenerEnded? {
      var s := Step(c, xs[0]);
      if !(xs[0].msg.AgentResponse? && xs[0].msg.messageId == id) {
        assert s.resolved.None? || s.resolved.value.0 != id;
        assert id in s.client.callbacks && s.client.callbacks[id] == c.callbacks[id] by {
          if xs[0].msg.AgentResponse? {
            assert xs[0].msg.messageId != id;
          }
        }
        assert s.client.listening;
        AwaitFindsFirstAnswer(s.client, id, xs[1..]);
      }
    } else if |xs| > 0 {
      AwaitAfterEnd(Step(c, xs[0]).client, id, xs[1..]);
    }
  }

  /** Once the listener has ended, nothing more is delivered. */
  lemma {:induction false} AwaitAfterEnd(c: Client, id: string, xs: seq<Inbound>)
    requires !c.listening
    ensures Await(c, id, xs) == (c, None, [])
    decreases |xs|
  {
    if |xs| > 0 {
      AwaitAfterEnd(c, id, xs[1..]);
      assert Step(c, xs[0]) == StepResult(c, [], None);
      var none: seq<Callback> := [];
      assert none + none == none;
    }
  }

  /** `wait_for_response(message_id)` over the traffic that arrives before
      the timeout. An unknown id gives `None` at once. Otherwise the
      wrapper is installed, traffic is delivered until the answer arrives
      or the traffic runs out (a timeout), and on every exit the id's entry
      is removed. */
  function WaitForResponse(c: Client, id: string, xs: seq<Inbound>): (r: (Client, Option<string>, seq<Callback>))
    ensures id !in c.callbacks ==> r == (c, None, [])
    ensures id !in r.0.callbacks
    ensures r.0.callbacks.Keys <= c.callbacks.Keys
  {
    if id !in c.callbacks then (c, None, [])
    else
      var c1 := c.(callbacks := c.callbacks[id := c.callbacks[id].(awaited := true)]);
      var (c2, res, ev) := Await(c1, id, xs);
      (c2.(callbacks := c2.callbacks - {id}), res, ev)
  }

  /** A registered id whose listener is running gets exactly the first
      answer addressed to it, or `None` when the traffic holds none. */
  lemma WaitReturnsFirstAnswer(c: Client, id: string, xs: seq<Inbound>)
    requires id != "" && id in c.callbacks && c.listening
    ensures WaitForResponse(c, id, xs).1 == FirstAnswer(xs, id)
  {
    var c1 := c.(callbacks := c.callbacks[id := c.callbacks[id].(awaited := true)]);
    AwaitFindsFirstAnswer(c1, id, xs);
  }
}

=== FILE: hybrid_router.dfy ===
/** `router/hybrid_router.py`: the per-user router that chooses among the
    direct API, the WebSocket API and browser automation, escalating
    within one call and keeping a failure counter per strategy. Each
    transport is reduced to the outcome it reports, supplied as an input. */
module HybridRouter {
  import opened Wrappers
  import opened Auth
  import opened Strings
  import opened TokenStore

  datatype Method = DirectApi | WebSocketApi | BrowserAutomation | Auto

  /** Failure thresholds of the three strategies. */
  const MaxDirectFailures: nat := 3
  const MaxWebSocketFailures: nat := 3
  const MaxBrowserFailures: nat := 3

  /** The browser client reference: absent, or present and started or not. */
  datatype BrowserRef = NoBrowser | BrowserClient(initialized: bool)

  datatype Router = Router(
    userId: UserId,
    mode: Method,
    hasDirect: bool,
    hasWs: bool,
    browser: BrowserRef,
    lastMethod: Option<Method>,
    directFailures: nat,
    wsFailures: nat,
    browserFailures: nat,
    successful: nat,
    total: nat,
    auth: Option<AuthData>)

  /** The constructor: no clients, zero counters, and whatever credentials
      the store holds for the user. */
  function NewRouter(userId: UserId, store: Store, mode: Method): (r: Router)
    ensures r.auth == GetUserTokens(store, userId)
    ensures Accounted(r) && r.total == 0
    ensures !r.hasDirect && !r.hasWs && r.browser == NoBrowser
    ensures forall m :: m != Auto ==> Failures(r, m) == 0
  {
    Router(userId, mode, false, false, NoBrowser, None, 0, 0, 0, 0, 0, GetUserTokens(store, userId))
  }

  /** Position in the fixed priority order. */
  function Rank(m: Method): nat {
    match m
    case DirectApi => 0
    case WebSocketApi => 1
    case BrowserAutomation => 2
    case Auto => 3
  }

  function Failures(r: Router, m: Method): nat {
    match m
    case DirectApi => r.directFailures
    case WebSocketApi => r.wsFailures
    case BrowserAutomation => r.browserFailures
    case Auto => 0
  }

  function MaxFailures(m: Method): nat {
    match m
    case DirectApi => MaxDirectFailures
    case WebSocketApi => MaxWebSocketFailures
    case BrowserAutomation => MaxBrowserFailures
    case Auto => 0
  }

  /** A strategy whose counter is still below its threshold. */
  predicate Usable(r: Router, m: Method) {
    m != Auto && Failures(r, m) < MaxFailures(m)
  }

  /** A strategy preferred after any success: its client exists and its
      counter is below the threshold. */
  predicate Sticky(r: Router, m: Method) {
    r.successful > 0 && Usable(r, m)
    && ((m == DirectApi && r.hasDirect) || (m == WebSocketApi && r.hasWs))
  }

  /** `successful_api_calls` never exceeds `total_api_calls`. */
  predicate Accounted(r: Router) {
    r.successful <= r.total
  }

  function ClearCounters(r: Router): Router {
    r.(directFailures := 0, wsFailures := 0, browserFailures := 0)
  }

  /** `_determine_method`: a fixed method is returned as is; in AUTO mode a
      sticky strategy wins, then the first usable one in priority order,
      and when none is usable all counters are cleared and the direct API
      is chosen. Only that last case changes the router. */
  function DetermineMethod(r: Router): (res: (Router, Method))
    ensures res.1 != Auto
    ensures r.mode != Auto ==> res == (r, r.mode)
    ensures r.mode == Auto ==> Usable(res.0, res.1)
    ensures r.mode == Auto && Sticky(r, DirectApi) ==> res == (r, DirectApi)
    ensures r.mode == Auto && !Sticky(r, DirectApi) && Sticky(r, WebSocketApi) ==> res == (r, WebSocketApi)
    ensures r.mode == Auto && !Sticky(r, DirectApi) && !Sticky(r, WebSocketApi) && Usable(r, res.1) ==>
      res.0 == r && forall m :: Rank(m) < Rank(res.1) ==> !Usable(r, m)
    ensures res.0 != r <==> (r.mode == Auto && forall m :: m != Auto ==> !Usable(r, m))
    ensures res.0 != r ==> res == (ClearCounters(r), DirectApi)
  {
    if r.mode != Auto then (r, r.mode)
    else if r.hasDirect && r.successful > 0 && r.directFailures < MaxDirectFailures then
      assert Usable(r, DirectApi);
      (r, DirectApi)
    else if r.hasWs && r.successful > 0 && r.wsFailures < MaxWebSocketFailures then
      assert Usable(r, WebSocketApi);
      (r, WebSocketApi)
    else if r.directFailures < MaxDirectFailures then
      assert Usable(r, DirectApi);
      (r, DirectApi)
    else if r.wsFailures < MaxWebSocketFailures then
      assert Usable(r, WebSocketApi);
      (r, WebSocketApi)
    else if r.browserFailures < MaxBrowserFailures then
      assert Usable(r, BrowserAutomation);
      (r, BrowserAutomation)
    else
      assert forall m :: m != Auto ==> !Usable(r, m) by {
        forall m | m != Auto ensures !Usable(r, m) { }
      }
      (ClearCounters(r), DirectApi)
  }

  /** What a direct or WebSocket client reports for one prompt: it raises,
      returns no message id, or returns a response (None or "" are falsy). */
  datatype ApiOutcome = Raises(message: string) | NoMessageId | Responded(response: Option<string>)

  /** What the browser client's `send_message` does. */
  datatype BrowserOutcome = BrowserRaises(message: string) | BrowserReturns(response: Option<string>)

  /** Everything the transports and the clock contribute to one call. */
  datatype Env = Env(
    directConnects: bool,
    directSend: ApiOutcome,
    wsAlive: bool,
    wsConnects: bool,
    wsSend: ApiOutcome,
    browserStarts: bool,
    authAtStart: Option<AuthData>,
    browserSend: BrowserOutcome,
    authAfterSend: Option<AuthData>,
    now: int)

  /** Truthiness of an optional response. */
  predicate Answered(resp: Option<string>) {
    resp.Some? && resp.value != ""
  }

  /** `_init_direct_api`: an existing client counts as initialized; a failed
      connect counts a failure and drops the client. */
  function InitDirect(r: Router, connects: bool): (res: (Router, bool))
    ensures res.1 <==> r.hasDirect || connects
    ensures res.1 ==> res.0 == r.(hasDirect := true)
    ensures !res.1 ==> res.0 == r.(directFailures := r.directFailures + 1, hasDirect := false)
  {
    if r.hasDirect then (r, true)
    else if connects then (r.(hasDirect := true), true)
    else (r.(directFailures := r.directFailures + 1, hasDirect := false), false)
  }

  /** `_init_websocket_api`: a live client is reused; otherwise a fresh one
      connects, and a failed connect counts a failure and drops the client. */
  function InitWebSocket(r: Router, alive: bool, connects: bool): (res: (Router, bool))
    ensures res.1 <==> (r.hasWs && alive) || connects
    ensures res.1 ==> res.0 == r.(hasWs := true)
    ensures !res.1 ==> res.0 == r.(wsFailures := r.wsFailures + 1, hasWs := false)
  {
    if r.hasWs && alive then (r, true)
    else if connects then (r.(hasWs := true), true)
    else (r.(wsFailures := r.wsFailures + 1, hasWs := false), false)
  }

  /** Adopting credentials the browser extracted: a truthy dictionary
      replaces the router's and is stored for the user. */
  function AdoptAuth(r: Router, store: Store, extracted: Option<AuthData>, now: int): (res: (Router, Store))
    ensures Present(extracted) ==>
      (res.0 == r.(auth := extracted)
       && GetUserTokens(res.1, r.userId) == extracted
       && IsTokenValid(res.1, r.userId, now, DefaultMaxAge))
    ensures !Present(extracted) ==> res == (r, store)
    ensures res.1.tokens.Keys <= store.tokens.Keys + {r.userId}
    ensures forall u :: u != r.userId && u in store.tokens ==> u in res.1.tokens && res.1.tokens[u] == store.tokens[u]
  {
    if Present(extracted) then (r.(auth := extracted), StoreUserTokens(store, r.userId, extracted.value, now))
    else (r, store)
  }

  /** `_init_browser`: a started client is reused; otherwise a new client
      is started, on success adopting the credentials it extracts, on
      failure counting a failure (the unstarted client stays referenced). */
  function InitBrowser(r: Router, store: Store, env: Env): (res: (Router, Store, bool))
    ensures res.2 <==> r.browser == BrowserClient(true) || env.browserStarts
    ensures res.2 ==> res.0.browser == BrowserClient(true) && res.0.browserFailures == r.browserFailures
    ensures !res.2 ==> res.0 == r.(browser := BrowserClient(false), browserFailures := r.browserFailures + 1) && res.1 == store
    ensures res.0.successful == r.successful && res.0.total == r.total && res.0.userId == r.userId
    ensures res.0.directFailures == r.directFailures && res.0.wsFailures == r.wsFailures
    ensures res.1.tokens.Keys <= store.tokens.Keys + {r.userId}
    ensures forall u :: u != r.userId && u in store.tokens ==> u in res.1.tokens && res.1.tokens[u] == store.tokens[u]
  {
    if r.browser == BrowserClient(true) then (r, store, true)
    else if env.browserStarts then
      var (r1, s1) := AdoptAuth(r.(browser := BrowserClient(true)), store, env.authAtStart, env.now);
      (r1, s1, true)
    else (r.(browser := BrowserClient(false), browserFailures := r.browserFailures + 1), store, false)
  }

  /** An initialized direct client is reused: initializing again succeeds
      and changes nothing, whatever a connect would do. */
  lemma InitDirectReuses(r: Router, connects: bool, again: bool)
    requires InitDirect(r, connects).1
    ensures InitDirect(InitDirect(r, connects).0, again) == (InitDirect(r, connects).0, true)
  {
  }

  /** A live WebSocket client is reused in the same way. */
  lemma InitWebSocketReuses(r: Router, alive: bool, connects: bool, again: bool)
    requires InitWebSocket(r, alive, connects).1
    ensures InitWebSocket(InitWebSocket(r, alive, connects).0, true, again) == (InitWebSocket(r, alive, connects).0, true)
  {
  }

  /** A started browser is reused: initializing again succeeds without
      touching the router or the store, whatever a new start would do. */
  lemma InitBrowserReuses(r: Router, store: Store, env: Env, env2: Env)
    requires InitBrowser(r, store, env).2
    ensures var (r1, s1, _) := InitBrowser(r, store, env);
      InitBrowser(r1, s1, env2) == (r1, s1, true)
  {
  }

  /** The direct-API leg of `send_message`: `Some(reply)` when it answered. */
  function TryDirect(r: Router, env: Env): (res: (Router, Option<string>))
    ensures res.1.Some? <==> InitDirect(r, env.directConnects).1 && env.directSend.Responded? && Answered(env.directSend.response)
    ensures res.1.Some? ==>
      (res.1.value == env.directSend.response.value && res.1.value != ""
       && res.0.directFailures == 0 && res.0.successful == r.successful + 1)
    ensures res.1.None? ==> res.0.successful == r.successful
    ensures !InitDirect(r, env.directConnects).1 ==> res.0.directFailures == r.directFailures + 1 && !res.0.hasDirect
    ensures InitDirect(r, env.directConnects).1 && env.directSend.Raises? ==> res.0.directFailures == r.directFailures + 1
    ensures InitDirect(r, env.directConnects).1 && !env.directSend.Raises? && res.1.None? ==> res.0.directFailures == r.directFailures
    ensures res.0.wsFailures == r.wsFailures && res.0.browserFailures == r.browserFailures
    ensures res.0.hasWs == r.hasWs && res.0.browser == r.browser
    ensures res.0.total == r.total && res.0.userId == r.userId && res.0.lastMethod == r.lastMethod
  {
    var (r1, ok) := InitDirect(r, env.directConnects);
    if !ok then (r1, None)
    else match env.directSend
      case Raises(_) => (r1.(directFailures := r1.directFailures + 1), None)
      case NoMessageId => (r1, None)
      case Responded(resp) =>
        if Answered(resp) then (r1.(directFailures := 0, successful := r1.successful + 1), Some(resp.value))
        else (r1, None)
  }

  /** The WebSocket leg of `send_message`, on the same pattern. */
  function TryWebSocket(r: Router, env: Env): (res: (Router, Option<string>))
    ensures res.1.Some? <==> InitWebSocket(r, env.wsAlive, env.wsConnects).1 && env.wsSend.Responded? && Answered(env.wsSend.response)
    ensures res.1.Some? ==>
      (res.1.value == env.wsSend.response.value && res.1.value != ""
       && res.0.wsFailures == 0 && res.0.successful == r.successful + 1)
    ensures res.1.None? ==> res.0.successful == r.successful
    ensures !InitWebSocket(r, env.wsAlive, env.wsConnects).1 ==> res.0.wsFailures == r.wsFailures + 1 && !res.0.hasWs
    ensures InitWebSocket(r, env.wsAlive, env.wsConnects).1 && env.wsSend.Raises? ==> res.0.wsFailures == r.wsFailures + 1
    ensures InitWebSocket(r, env.wsAlive, env.wsConnects).1 && !env.wsSend.Raises? && res.1.None? ==> res.0.wsFailures == r.wsFailures
    ensures res.0.directFailures == r.directFailures && res.0.browserFailures == r.browserFailures
    ensures res.0.browser == r.browser
    ensures res.0.total == r.total && res.0.userId == r.userId && res.0.lastMethod == r.lastMethod
  {
    var (r1, ok) := InitWebSocket(r, env.wsAlive, env.wsConnects);
    if !ok then (r1, None)
    else match env.wsSend
      case Raises(_) => (r1.(wsFailures := r1.wsFailures + 1), None)
      case NoMessageId => (r1, None)
      case Responded(resp) =>
        if Answered(resp) then (r1.(wsFailures := 0, successful := r1.successful + 1), Some(resp.value))
        else (r1, None)
  }

  const ErrorPrefix := "Error: "
  const ErrorMarker := "Error:"
  const BrowserInitFailed := "Failed to initialize browser client"
  const BrowserFailedPrefix := "Browser automation failed: "
  const NoMethodReply := "Failed to get a response from Replit Agent through any method."

  /** `str()` of an optional response. */
  function Show(resp: Option<string>): string {
    if resp.Some? then resp.value else "None"
  }

  /** A browser reply that counts as an answer: non-empty and free of the
      error marker. */
  predicate BrowserAnswer(resp: Option<string>) {
    Answered(resp) && !Contains(resp.value, ErrorMarker)
  }

  /** The browser leg: the last resort. Every failure becomes a reply that
      starts with "Error: "; only a failure of the browser's own answer
      counts against it, and a success never counts as a successful call. */
  function TryBrowser(r: Router, store: Store, env: Env): (res: (Router, Store, string))
    ensures res.0.successful == r.successful && res.0.total == r.total && res.0.userId == r.userId
    ensures res.0.directFailures == r.directFailures && res.0.wsFailures == r.wsFailures
    ensures |res.2| > 0
    ensures !InitBrowser(r, store, env).2 ==> res.2 == ErrorPrefix + BrowserInitFailed && res.0.browserFailures == r.browserFailures + 1
    ensures InitBrowser(r, store, env).2 && env.browserSend.BrowserRaises? ==>
      res.2 == ErrorPrefix + env.browserSend.message && res.0.browserFailures == r.browserFailures
    ensures InitBrowser(r, store, env).2 && env.browserSend.BrowserReturns? && BrowserAnswer(env.browserSend.response) ==>
      res.2 == env.browserSend.response.value && res.0.browserFailures == 0
      && (Present(env.authAfterSend) ==> res.0.auth == env.authAfterSend && GetUserTokens(res.1, r.userId) == env.authAfterSend)
    ensures InitBrowser(r, store, env).2 && env.browserSend.BrowserReturns? && !BrowserAnswer(env.browserSend.response) ==>
      res.2 == ErrorPrefix + BrowserFailedPrefix + Show(env.browserSend.response)
      && res.0.browserFailures == r.browserFailures + 1
    ensures res.1.tokens.Keys <= store.tokens.Keys + {r.userId}
    ensures forall u :: u != r.userId && u in store.tokens ==> u in res.1.tokens && res.1.tokens[u] == store.tokens[u]
  {
    var (r1, s1, ok) := InitBrowser(r, store, env);
    if !ok then (r1, s1, ErrorPrefix + BrowserInitFailed)
    else match env.browserSend
      case BrowserRaises(msg) => (r1, s1, ErrorPrefix + msg)
      case BrowserReturns(resp) =>
        if BrowserAnswer(resp) then
          var (r2, s2) := AdoptAuth(r1.(browserFailures := 0), s1, env.authAfterSend, env.now);
          (r2, s2, resp.value)
        else (r1.(browserFailures := r1.browserFailures + 1), s1, ErrorPrefix + BrowserFailedPrefix + Show(resp))
  }

  /** The outcome of one `send_message`: the new router and store, the reply
      and the strategies tried, in order. */
  datatype SendResult = SendResult(router: Router, store: Store, reply: string, tried: seq<Method>)

  /** Strictly forward through the priority order. */
  predicate Forward(tried: seq<Method>) {
    forall i, j :: 0 <= i < j < |tried| ==> Rank(tried[i]) < Rank(tried[j])
  }

  /** Properties common to every leg of the escalation. */
  predicate Escalated(r: Router, store: Store, res: SendResult, first: Method) {
    && |res.tried| > 0
    && res.tried[0] == first
    && Forward(res.tried)
    && (forall i :: 0 <= i < |res.tried| ==> res.tried[i] != Auto)
    && res.router.lastMethod == Some(res.tried[|res.tried| - 1])
    && res.router.total == r.total
    && res.router.userId == r.userId
    && res.router.successful == r.successful + (if res.tried[|res.tried| - 1] == BrowserAutomation then 0 else 1)
    && |res.reply| > 0
    && res.store.tokens.Keys <= store.tokens.Keys + {r.userId}
    && (forall u :: u != r.userId && u in store.tokens ==> u in res.store.tokens && res.store.tokens[u] == store.tokens[u])
  }

  /** The failure counters of the three strategies. */
  datatype Counters = Counters(direct: nat, ws: nat, browser: nat)

  function CountersOf(r: Router): Counters {
    Counters(r.directFailures, r.wsFailures, r.browserFailures)
  }

  /** The direct API answers this call: a client exists or connects, and
      it returns a truthy response. */
  predicate DirectAnswers(r: Router, env: Env) {
    (r.hasDirect || env.directConnects) && env.directSend.Responded? && Answered(env.directSend.response)
  }

  /** The WebSocket API answers this call: a live client exists or a new
      one connects, and it returns a truthy response. */
  predicate WsAnswers(r: Router, env: Env) {
    ((r.hasWs && env.wsAlive) || env.wsConnects) && env.wsSend.Responded? && Answered(env.wsSend.response)
  }

  /** A browser client is available: already started, or it starts now. */
  predicate BrowserRuns(r: Router, env: Env) {
    r.browser == BrowserClient(true) || env.browserStarts
  }

  /** The direct counter once that strategy has been tried: cleared by an
      answer, raised by a failed connect or a raised send, else kept. */
  function DirectCount(r: Router, env: Env): nat {
    if DirectAnswers(r, env) then 0
    else if !(r.hasDirect || env.directConnects) || env.directSend.Raises? then r.directFailures + 1
    else r.directFailures
  }

  /** The WebSocket counter once that strategy has been tried, likewise. */
  function WsCount(r: Router, env: Env): nat {
    if WsAnswers(r, env) then 0
    else if !((r.hasWs && env.wsAlive) || env.wsConnects) || env.wsSend.Raises? then r.wsFailures + 1
    else r.wsFailures
  }

  /** The browser counter once it has been tried: raised when it cannot
      start or its reply is no answer, cleared by an answer, and kept when
      its send raises. */
  function BrowserCount(r: Router, env: Env): nat {
    if !BrowserRuns(r, env) then r.browserFailures + 1
    else match env.browserSend
      case BrowserRaises(_) => r.browserFailures
      case BrowserReturns(resp) => if BrowserAnswer(resp) then 0 else r.browserFailures + 1
  }

  /** The reply of the browser leg: its answer, or an error text naming
      what went wrong. */
  function BrowserReply(r: Router, env: Env): string {
    if !BrowserRuns(r, env) then ErrorPrefix + BrowserInitFailed
    else match env.browserSend
      case BrowserRaises(msg) => ErrorPrefix + msg
      case BrowserReturns(resp) =>
        if BrowserAnswer(resp) then resp.value else ErrorPrefix + BrowserFailedPrefix + Show(resp)
  }

  /** The observable result of one call: reply, strategies tried, counters. */
  datatype Outcome = Outcome(reply: string, tried: seq<Method>, counters: Counters)

  function OutcomeOf(res: SendResult): Outcome {
    Outcome(res.reply, res.tried, CountersOf(res.router))
  }

  /** What a call that starts at the browser must produce, read off the
      environment alone. */
  function EscalateFromBrowser(r: Router, env: Env): Outcome {
    Outcome(BrowserReply(r, env), [BrowserAutomation], CountersOf(r).(browser := BrowserCount(r, env)))
  }

  /** What a call that starts at the WebSocket API must produce: its answer,
      or the browser's outcome after it, its own counter updated either way. */
  function EscalateFromWebSocket(r: Router, env: Env): Outcome {
    if WsAnswers(r, env) then
      Outcome(env.wsSend.response.value, [WebSocketApi], CountersOf(r).(ws := 0))
    else
      var rest := EscalateFromBrowser(r, env);
      Outcome(rest.reply, [WebSocketApi] + rest.tried, rest.counters.(ws := WsCount(r, env)))
  }

  /** What a call that starts at the direct API must produce: its answer,
      or the WebSocket API's outcome after it, its own counter updated
      either way. */
  function EscalateFromDirect(r: Router, env: Env): Outcome {
    if DirectAnswers(r, env) then
      Outcome(env.directSend.response.value, [DirectApi], CountersOf(r).(direct := 0))
    else
      var rest := EscalateFromWebSocket(r, env);
      Outcome(rest.reply, [DirectApi] + rest.tried, rest.counters.(direct := DirectCount(r, env)))
  }

  /** The WebSocket outcome does not depend on the direct strategy's
      client or counter, except that its counters report that counter. */
  lemma WebSocketOutcomeIgnoresDirect(r: Router, r1: Router, env: Env)
    requires r1.hasWs == r.hasWs && r1.browser == r.browser
    requires r1.wsFailures == r.wsFailures && r1.browserFailures == r.browserFailures
    ensures var o, o1 := EscalateFromWebSocket(r, env), EscalateFromWebSocket(r1, env);
      o1 == o.(counters := o.counters.(direct := r1.directFailures))
  {
  }

  /** The outcome a call escalating from `first` must produce. */
  function Escalation(r: Router, env: Env, first: Method): Outcome {
    match first
    case DirectApi => EscalateFromDirect(r, env)
    case WebSocketApi => EscalateFromWebSocket(r, env)
    case _ => EscalateFromBrowser(r, env)
  }

  /** The browser leg alone: it is the only strategy tried, its reply is
      the call's reply, and only its own counter moves. */
  function FromBrowser(r: Router, store: Store, env: Env): (res: SendResult)
    ensures Escalated(r, store, res, BrowserAutomation)
    ensures OutcomeOf(res) == EscalateFromBrowser(r, env)
  {
    var (r1, s1, reply) := TryBrowser(r.(lastMethod := Some(BrowserAutomation)), store, env);
    SendResult(r1, s1, reply, [BrowserAutomation])
  }

  /** Escalation from the WebSocket API: its answer ends the call with the
      store untouched; otherwise the browser leg follows. */
  function FromWebSocket(r: Router, store: Store, env: Env): (res: SendResult)
    ensures Escalated(r, store, res, WebSocketApi)
    ensures OutcomeOf(res) == EscalateFromWebSocket(r, env)
    ensures WsAnswers(r, env) ==> res.store == store
  {
    var (r1, reply) := TryWebSocket(r.(lastMethod := Some(WebSocketApi)), env);
    if reply.Some? then SendResult(r1, store, reply.value, [WebSocketApi])
    else
      var rest := FromBrowser(r1, store, env);
      SendResult(rest.router, rest.store, rest.reply, [WebSocketApi] + rest.tried)
  }

  /** Escalation from the direct API: its answer ends the call with the
      store untouched; otherwise the WebSocket leg follows. */
  function FromDirect(r: Router, store: Store, env: Env): (res: SendResult)
    ensures Escalated(r, store, res, DirectApi)
    ensures OutcomeOf(res) == EscalateFromDirect(r, env)
    ensures DirectAnswers(r, env) ==> res.store == store
  {
    var (r1, reply) := TryDirect(r.(lastMethod := Some(DirectApi)), env);
    if reply.Some? then SendResult(r1, store, reply.value, [DirectApi])
    else
      var rest := FromWebSocket(r1, store, env);
      var res := SendResult(rest.router, rest.store, rest.reply, [DirectApi] + rest.tried);
      assert r1.directFailures == DirectCount(r, env);
      WebSocketOutcomeIgnoresDirect(r, r1, env);
      ForwardCons(DirectApi, rest.tried);
      res
  }

  /** A strategy ranked before the first of a forward sequence extends it. */
  lemma ForwardCons(m: Method, tried: seq<Method>)
    requires |tried| > 0 && Rank(m) < Rank(tried[0]) && Forward(tried)
    ensures Forward([m] + tried)
  {
    var t := [m] + tried;
    forall i, j | 0 <= i < j < |t| ensures Rank(t[i]) < Rank(t[j]) {
      if i > 0 { assert t[i] == tried[i - 1] && t[j] == tried[j - 1]; }
      else { assert t[j] == tried[j - 1]; }
    }
  }

  /** `send_message`: choose a strategy, count the call, and escalate
      forward from the chosen strategy until one answers or the browser
      leg produces the reply. Some strategy is always attempted, so the
      final "any method" reply of `send_message` cannot be produced. */
  function Send(r: Router, store: Store, env: Env): (res: SendResult)
    ensures res.router.total == r.total + 1
    ensures Escalated(r.(total := r.total + 1), store, res, DetermineMethod(r).1)
    ensures OutcomeOf(res) == Escalation(DetermineMethod(r).0, env, DetermineMethod(r).1)
  {
    var (r0, m) := DetermineMethod(r);
    var r1 := r0.(lastMethod := Some(m), total := r0.total + 1);
    EscalationIgnoresBookkeeping(r0, r1, env, m);
    Dispatch(r1, store, env, m)
  }

  /** What a call leaves in the router it went through, read off the
      reference escalation from the chosen strategy: the counters it
      prescribes, the last strategy tried as the last method, one more
      call, and one more success unless the browser leg had the last word. */
  predicate Continues(r: Router, env: Env, after: Router) {
    var o := Escalation(DetermineMethod(r).0, env, DetermineMethod(r).1);
    && |o.tried| > 0
    && CountersOf(after) == o.counters
    && after.lastMethod == Some(o.tried[|o.tried| - 1])
    && after.total == r.total + 1
    && after.successful == r.successful + (if o.tried[|o.tried| - 1] == BrowserAutomation then 0 else 1)
  }

  /** The router a call hands back continues the one it started from. */
  lemma SendContinues(r: Router, store: Store, env: Env)
    ensures Continues(r, env, Send(r, store, env).router)
  {
  }

  /** Escalation from the chosen strategy. With no strategy to start from,
      `send_message` answers that no method worked; the choice never leaves
      the router there. */
  function Dispatch(r: Router, store: Store, env: Env, m: Method): (res: SendResult)
    ensures m != Auto ==> Escalated(r, store, res, m) && OutcomeOf(res) == Escalation(r, env, m)
    ensures m == Auto ==> res == SendResult(r, store, NoMethodReply, [])
  {
    if m == DirectApi then FromDirect(r, store, env)
    else if m == WebSocketApi then FromWebSocket(r, store, env)
    else if m == BrowserAutomation then FromBrowser(r, store, env)
    else SendResult(r, store, NoMethodReply, [])
  }

  /** The escalation reads only the clients and the counters. */
  lemma EscalationIgnoresBookkeeping(r0: Router, r1: Router, env: Env, m: Method)
    requires r1.hasDirect == r0.hasDirect && r1.hasWs == r0.hasWs && r1.browser == r0.browser
    requires CountersOf(r1) == CountersOf(r0)
    ensures Escalation(r1, env, m) == Escalation(r0, env, m)
  {
  }

  /** Each call adds one to the total and at most one to the successes, so
      the success count never overtakes the total. */
  lemma SendKeepsAccounted(r: Router, store: Store, env: Env)
    requires Accounted(r)
    ensures Accounted(Send(r, store, env).router)
    ensures r.successful <= Send(r, store, env).router.successful <= r.successful + 1
  {
  }

  /** A run of calls under the given per-call environments. */
  function SendAll(r: Router, store: Store, envs: seq<Env>): (res: (Router, Store))
    decreases |envs|
  {
    if |envs| == 0 then (r, store)
    else
      var s := Send(r, store, envs[0]);
      SendAll(s.router, s.store, envs[1..])
  }

  /** Over any run the total grows by exactly the number of calls, and the
      accounting invariant holds throughout. */
  lemma {:induction false} SendAllAccounting(r: Router, store: Store, envs: seq<Env>)
    requires Accounted(r)
    ensures SendAll(r, store, envs).0.total == r.total + |envs|
    ensures Accounted(SendAll(r, store, envs).0)
    ensures SendAll(r, store, envs).0.userId == r.userId
    decreases |envs|
  {
    if |envs| > 0 {
      var s := Send(r, store, envs[0]);
      SendKeepsAccounted(r, store, envs[0]);
      SendAllAccounting(s.router, s.store, envs[1..]);
    }
  }

  /** In AUTO mode the chosen strategy's counter is below its threshold when
      it is attempted, whatever the counters were before. */
  lemma AutoAttemptsOnlyUsable(r: Router, store: Store, env: Env)
    requires r.mode == Auto
    ensures Usable(DetermineMethod(r).0, Send(r, store, env).tried[0])
  {
  }

  /** Statistics as `get_stats` reports them; the method name is the enum
      member's name. */
  datatype Stats = Stats(
    totalCalls: nat,
    successfulCalls: nat,
    successRate: nat,
    directFailures: nat,
    wsFailures: nat,
    browserFailures: nat,
    lastMethod: Option<string>,
    hasAuthData: bool,
    directActive: bool,
    wsActive: bool,
    browserActive: bool)

  function MethodName(m: Method): (name: string)
    ensures |name| > 0
    ensures name[0] == (if m.BrowserAutomation? then 'B' else if m.Auto? then 'A' else if m.DirectApi? then 'D' else 'W')
  {
    match m
    case DirectApi => "DIRECT_API"
    case WebSocketApi => "WEBSOCKET_API"
    case BrowserAutomation => "BROWSER_AUTOMATION"
    case Auto => "AUTO"
  }

  /** Different strategies report different names. */
  lemma MethodNamesDistinct(m1: Method, m2: Method)
    ensures MethodName(m1) == MethodName(m2) <==> m1 == m2
  {
    if MethodName(m1) == MethodName(m2) {
      assert MethodName(m1)[0] == MethodName(m2)[0];
    }
  }

  /** The success rate as a whole percentage, rounded down; 0 before any
      call. */
  function SuccessRate(successful: nat, total: nat): (rate: nat)
    ensures total == 0 ==> rate == 0
    ensures total > 0 ==> rate * total <= successful * 100 < (rate + 1) * total
    ensures successful <= total ==> rate <= 100
    ensures 0 < total == successful ==> rate == 100
  {
    if total == 0 then 0
    else
      var n := successful * 100;
      FloorDivBounds(n, total);
      FloorDivAtMost(n, total, 100, successful <= total, successful == total);
      n / total
  }

  /** The quotient rounded down lies within one divisor of the dividend. */
  lemma FloorDivBounds(n: nat, t: nat)
    requires t > 0
    ensures (n / t) * t <= n < (n / t + 1) * t
  {
    var q, m := n / t, n % t;
    assert n == q * t + m && 0 <= m < t;
    assert (q + 1) * t == q * t + t;
  }

  /** A dividend at most `k` times the divisor gives a quotient at most `k`,
      and exactly `k` times gives exactly `k`. */
  lemma FloorDivAtMost(n: nat, t: nat, k: nat, atMost: bool, exactly: bool)
    requires t > 0
    requires atMost ==> n <= k * t
    requires exactly ==> n == k * t
    ensures atMost ==> n / t <= k
    ensures exactly ==> n / t == k
  {
    var q := n / t;
    FloorDivBounds(n, t);
    assert k * t - q * t == (k - q) * t;
    NegativeTimesPositive(k - q, t);
    assert (q + 1) * t - k * t == (q + 1 - k) * t;
    NegativeTimesPositive(q + 1 - k, t);
  }

  /** Multiplying by a positive number keeps the sign of a non-positive
      number. */
  lemma {:induction false} NegativeTimesPositive(x: int, t: nat)
    requires t > 0
    ensures x <= 0 ==> x * t <= 0
    ensures x < 0 ==> x * t < 0
    decreases t
  {
    if t > 1 {
      NegativeTimesPositive(x, t - 1);
      assert x * t == x * (t - 1) + x;
    }
  }

  /** `get_stats` */
  function GetStats(r: Router): (s: Stats)
    ensures s.totalCalls == r.total && s.successfulCalls == r.successful
    ensures s.successRate == SuccessRate(r.successful, r.total)
    ensures s.directFailures == r.directFailures && s.wsFailures == r.wsFailures && s.browserFailures == r.browserFailures
    ensures r.lastMethod.Some? ==> s.lastMethod == Some(MethodName(r.lastMethod.value))
    ensures Accounted(r) ==> s.successRate <= 100
    ensures r.total > 0 && r.successful == r.total ==> s.successRate == 100
    ensures r.successful == 0 ==> s.successRate == 0
    ensures s.lastMethod.Some? <==> r.lastMethod.Some?
    ensures s.hasAuthData == Present(r.auth)
    ensures s.directActive == r.hasDirect && s.wsActive == r.hasWs && s.browserActive == r.browser.BrowserClient?
  {
    Stats(r.total, r.successful, SuccessRate(r.successful, r.total),
          r.directFailures, r.wsFailures, r.browserFailures,
          if r.lastMethod.Some? then Some(MethodName(r.lastMethod.value)) else None,
          Present(r.auth), r.hasDirect, r.hasWs, r.browser.BrowserClient?)
  }

  /** The statistics after a call report it: one more call, the last
      strategy tried as the last method, and the counters the escalation
      prescribes. */
  lemma StatsAfterSend(r: Router, store: Store, env: Env)
    ensures var res := Send(r, store, env);
      var s := GetStats(res.router);
      var o := Escalation(DetermineMethod(r).0, env, DetermineMethod(r).1);
      && s.totalCalls == GetStats(r).totalCalls + 1
      && s.lastMethod == Some(MethodName(res.tried[|res.tried| - 1]))
      && s.directFailures == o.counters.direct && s.wsFailures == o.counters.ws && s.browserFailures == o.counters.browser
  {
  }

  /** `close`: every client reference is dropped; counters, statistics and
      credentials are kept. */
  function Close(r: Router): (c: Router)
    ensures !c.hasDirect && !c.hasWs && c.browser == NoBrowser
    ensures forall m :: Failures(c, m) == Failures(r, m)
    ensures c.successful == r.successful && c.total == r.total && c.auth == r.auth
    ensures c.lastMethod == r.lastMethod && c.mode == r.mode && c.userId == r.userId
  {
    r.(hasDirect := false, hasWs := false, browser := NoBrowser)
  }

  /** After `close`, `get_stats` reports the same figures as before, with
      every client marked inactive. */
  lemma StatsAfterClose(r: Router)
    ensures GetStats(Close(r)) == GetStats(r).(directActive := false, wsActive := false, browserActive := false)
  {
  }

  /** An environment in which every transport fails at initialization. */
  const AllFail := Env(false, NoMessageId, false, false, NoMessageId, false, None, BrowserReturns(None), None, 0)

  /** One call in which everything fails tries all three strategies in
      order, counts one failure against each, answers with an error and
      counts no success. */
  lemma AllFailOnce(r: Router, store: Store)
    requires r.mode == Auto && !r.hasDirect && !r.hasWs && r.browser != BrowserClient(true)
    requires r.directFailures < MaxDirectFailures
    ensures var res := Send(r, store, AllFail);
      && res.tried == [DirectApi, WebSocketApi, BrowserAutomation]
      && res.router.directFailures == r.directFailures + 1
      && res.router.wsFailures == r.wsFailures + 1
      && res.router.browserFailures == r.browserFailures + 1
      && res.router.successful == r.successful
      && res.reply == ErrorPrefix + BrowserInitFailed
      && !res.router.hasDirect && !res.router.hasWs && res.router.browser == BrowserClient(false)
      && res.router.mode == Auto
  {
    var res := Send(r, store, AllFail);
    assert res.tried[0] == DirectApi;
    assert |res.tried| == 3 by {
      assert res.tried[|res.tried| - 1] == BrowserAutomation;
    }
  }

  /** `n` consecutive calls in which everything fails. */
  function Failing(n: nat): (envs: seq<Env>)
    ensures |envs| == n && forall i :: 0 <= i < n ==> envs[i] == AllFail
  {
    seq(n, _ => AllFail)
  }

  /** While the direct counter is below its threshold, each all-failing call
      adds one to every counter. */
  lemma {:induction false} FailingRaisesCounters(r: Router, store: Store, n: nat)
    requires r.mode == Auto && !r.hasDirect && !r.hasWs && r.browser != BrowserClient(true)
    requires r.directFailures + n <= MaxDirectFailures
    ensures var r1 := SendAll(r, store, Failing(n)).0;
      && r1.directFailures == r.directFailures + n
      && r1.wsFailures == r.wsFailures + n
      && r1.browserFailures == r.browserFailures + n
      && r1.mode == Auto && !r1.hasDirect && !r1.hasWs && r1.browser != BrowserClient(true)
    decreases n
  {
    if n > 0 {
      AllFailOnce(r, store);
      var s := Send(r, store, AllFail);
      assert Failing(n)[1..] == Failing(n - 1);
      FailingRaisesCounters(s.router, s.store, n - 1);
    }
  }

  /** On a router in AUTO mode that holds no clients and has not failed
      yet (a new router, say), three calls in which every strategy fails
      drive all counters to the threshold, and the choice for the fourth
      call clears them and starts again from the direct API: there is no
      permanent lockout. */
  lemma BreakerResetsOnFourthCall(r: Router, store: Store)
    requires r.mode == Auto && !r.hasDirect && !r.hasWs && r.browser == NoBrowser
    requires r.directFailures == 0 && r.wsFailures == 0 && r.browserFailures == 0
    ensures var r3 := SendAll(r, store, Failing(MaxDirectFailures)).0;
      && r3.directFailures == MaxDirectFailures && r3.wsFailures == MaxWebSocketFailures
      && r3.browserFailures == MaxBrowserFailures
      && DetermineMethod(r3) == (ClearCounters(r3), DirectApi)
  {
    FailingRaisesCounters(r, store, MaxDirectFailures);
  }

  /** A call on a router whose every strategy is exhausted starts over:
      it tries the direct API first, and its failure there is counted from
      zero. */
  lemma ExhaustedStartsOver(r: Router, store: Store)
    requires r.mode == Auto && !r.hasDirect && !r.hasWs && r.browser != BrowserClient(true)
    requires DetermineMethod(r).0 != r
    ensures Send(r, store, AllFail).tried[0] == DirectApi
    ensures Send(r, store, AllFail).router.directFailures == 1
  {
    var cleared := ClearCounters(r);
    assert DetermineMethod(cleared) == (cleared, DirectApi);
    var r1 := cleared.(lastMethod := Some(DirectApi), total := cleared.total + 1);
    assert Send(r, store, AllFail) == FromDirect(r1, store, AllFail);
    assert Send(cleared, store, AllFail) == FromDirect(r1, store, AllFail);
    AllFailOnce(cleared, store);
  }

  const Hello := "hello-response"

  /** The direct connect fails and the WebSocket client answers: the call
      returns that answer, the direct counter is 1, the WebSocket counter
      0; the next call sticks to the WebSocket strategy. */
  lemma DirectFailsWebSocketAnswers(userId: UserId, store: Store)
    ensures var env := Env(false, NoMessageId, false, true, Responded(Some(Hello)), false, None, BrowserReturns(None), None, 0);
      var res := Send(NewRouter(userId, store, Auto), store, env);
      && res.reply == Hello
      && res.tried == [DirectApi, WebSocketApi]
      && res.router.directFailures == 1 && res.router.wsFailures == 0
      && res.router.successful == 1 && res.router.total == 1
      && res.router.lastMethod == Some(WebSocketApi)
      && DetermineMethod(res.router).1 == WebSocketApi
  {
    var env := Env(false, NoMessageId, false, true, Responded(Some(Hello)), false, None, BrowserReturns(None), None, 0);
    var res := Send(NewRouter(userId, store, Auto), store, env);
    assert res.tried[0] == DirectApi;
    assert |res.tried| == 2 by {
      assert res.tried[|res.tried| - 1] == WebSocketApi;
    }
  }
}

=== FILE: legacy_agent_api.dfy ===
/** `replit_api.py`: the older single-socket agent client. A message queue
    keyed by nonce accumulates the streamed response of each sent prompt
    until a message flagged `done` completes it. */
module LegacyAgentApi {
  import opened Wrappers

  /** One queue row. */
  datatype QueueEntry = QueueEntry(response: string, complete: bool)

  /** `conversationId` "" stands for the unset (falsy) value. */
  datatype Api = Api(
    token: string,
    connected: bool,
    hasSocket: bool,
    listening: bool,
    conversationId: string,
    queue: map<string, QueueEntry>)

  /** `send_message` gives up after 60 s, polling every 0.1 s. */
  const TimeoutSeconds: nat := 60
  const TicksPerSecond: nat := 10
  const TimeoutTicks: nat := TimeoutSeconds * TicksPerSecond

  function NewApi(token: string): (a: Api)
    ensures !a.connected && a.conversationId == "" && a.queue == map[]
  {
    Api(token, false, false, false, "", map[])
  }

  /** `is_connected()` */
  predicate IsConnected(a: Api) {
    a.connected
  }

  /** `connect()` with `freshId` as the uuid it would generate. The
      conversation id is generated only while unset, so reconnects keep it;
      the answer is whether the socket socketOpens. */
  function Connect(a: Api, freshId: string, socketOpens: bool): (r: (Api, bool))
    ensures a.conversationId != "" ==> r.0.conversationId == a.conversationId
    ensures a.conversationId == "" ==> r.0.conversationId == freshId
    ensures r.1 == socketOpens && r.0.connected == socketOpens
    ensures r.0.queue == a.queue
  {
    var conv := if a.conversationId == "" then freshId else a.conversationId;
    if socketOpens then (a.(conversationId := conv, connected := true, hasSocket := true, listening := true), true)
    else (a.(conversationId := conv, connected := false), false)
  }

  /** Once set, the conversation id survives any sequence of reconnects. */
  lemma {:induction false} ConversationIdStable(a: Api, ids: seq<string>, outcomes: seq<bool>)
    requires a.conversationId != "" && |ids| == |outcomes|
    ensures ReconnectAll(a, ids, outcomes).conversationId == a.conversationId
    decreases |ids|
  {
    if |ids| > 0 {
      ConversationIdStable(Connect(a, ids[0], outcomes[0]).0, ids[1..], outcomes[1..]);
    }
  }

  /** Connecting repeatedly with the given uuids and outcomes. */
  function ReconnectAll(a: Api, ids: seq<string>, outcomes: seq<bool>): Api
    requires |ids| == |outcomes|
    decreases |ids|
  {
    if |ids| == 0 then a else ReconnectAll(Connect(a, ids[0], outcomes[0]).0, ids[1..], outcomes[1..])
  }

  /** A decoded inbound message: its `id` ("" when missing), its `content`
      field if any, and its `done` flag. */
  datatype AgentMessage = AgentMessage(id: string, content: Option<string>, done: bool)

  /** What the listener sees: a message, or the socket closing. */
  datatype Inbound = Message(msg: AgentMessage) | ListenerEnded

  /** `_process_message`: for a known id, the content (if any) is appended
      and `done` completes the row; other messages change nothing. The
      listener's end marks the client disconnected. */
  function Step(a: Api, x: Inbound): (r: Api)
    ensures r.queue.Keys == a.queue.Keys
    ensures !a.listening ==> r == a
    ensures x.Message? && (x.msg.id == "" || x.msg.id !in a.queue) ==> r == a
    ensures x.Message? && x.msg.id != "" && x.msg.id in a.queue && a.listening ==>
      r.queue[x.msg.id].response == a.queue[x.msg.id].response + x.msg.content.GetOr("")
      && r.queue[x.msg.id].complete == (a.queue[x.msg.id].complete || x.msg.done)
      && forall k :: k in a.queue && k != x.msg.id ==> r.queue[k] == a.queue[k]
    ensures x.ListenerEnded? && a.listening ==> !r.connected && !r.listening && r.queue == a.queue
  {
    if !a.listening then a
    else match x
      case ListenerEnded => a.(connected := false, listening := false)
      case Message(m) =>
        if m.id == "" || m.id !in a.queue then a
        else
          var e := a.queue[m.id];
          var e1 := if m.content.Some? then e.(response := e.response + m.content.value) else e;
          var e2 := if m.done then e1.(complete := true) else e1;
          a.(queue := a.queue[m.id := e2])
  }

  /** The listener over a stretch of traffic, in arrival order. */
  function Run(a: Api, xs: seq<Inbound>): (r: Api)
    ensures r.queue.Keys == a.queue.Keys
    decreases |xs|
  {
    if |xs| == 0 then a else Step(Run(a, xs[..|xs| - 1]), xs[|xs| - 1])
  }

  lemma {:induction false} RunAppend(a: Api, xs: seq<Inbound>, ys: seq<Inbound>)
    ensures Run(a, xs + ys) == Run(Run(a, xs), ys)
    decreases |ys|
  {
    if |ys| == 0 {
      assert xs + ys == xs;
    } else {
      var zs := xs + ys;
      assert zs[..|zs| - 1] == xs + ys[..|ys| - 1];
      assert zs[|zs| - 1] == ys[|ys| - 1];
      RunAppend(a, xs, ys[..|ys| - 1]);
    }
  }

  /** The content `id` receives from the traffic, in arrival order. */
  function Chunks(xs: seq<Inbound>, id: string): string
    decreases |xs|
  {
    if |xs| == 0 then ""
    else
      var x := xs[|xs| - 1];
      Chunks(xs[..|xs| - 1], id)
      + (if x.Message? && x.msg.id == id then x.msg.content.GetOr("") else "")
  }

  predicate NoEnd(xs: seq<Inbound>) {
    forall i :: 0 <= i < |xs| ==> xs[i].Message?
  }

  /** While the listener runs, a known id's response is its old content
      followed by every content addressed to it, in arrival order. */
  lemma {:induction false} RunAccumulates(a: Api, xs: seq<Inbound>, id: string)
    requires id != "" && id in a.queue && a.listening && NoEnd(xs)
    ensures Run(a, xs).listening
    ensures Run(a, xs).queue[id].response == a.queue[id].response + Chunks(xs, id)
    decreases |xs|
  {
    if |xs| > 0 {
      var init := xs[..|xs| - 1];
      assert NoEnd(init) by {
        forall i | 0 <= i < |init| ensures init[i].Message? { assert init[i] == xs[i]; }
      }
      RunAccumulates(a, init, id);
      assert xs[|xs| - 1].Message?;
    }
  }

  /** Some message addressed to `id` carries the `done` flag. */
  predicate Done(xs: seq<Inbound>, id: string) {
    exists i :: 0 <= i < |xs| && xs[i].Message? && xs[i].msg.id == id && xs[i].msg.done
  }

  /** While the listener runs, a known id's row is complete exactly when
      it already was or some message of the traffic flagged it done. */
  lemma {:induction false} RunCompletes(a: Api, xs: seq<Inbound>, id: string)
    requires id != "" && id in a.queue && a.listening && NoEnd(xs)
    ensures Run(a, xs).queue[id].complete == (a.queue[id].complete || Done(xs, id))
    decreases |xs|
  {
    if |xs| > 0 {
      var init := xs[..|xs| - 1];
      var x := xs[|xs| - 1];
      assert NoEnd(init) by {
        forall i | 0 <= i < |init| ensures init[i].Message? { assert init[i] == xs[i]; }
      }
      RunCompletes(a, init, id);
      RunAccumulates(a, init, id);
      assert x.Message?;
      if Done(init, id) {
        var i :| 0 <= i < |init| && init[i].Message? && init[i].msg.id == id && init[i].msg.done;
        assert xs[i] == init[i];
      }
      if x.msg.id == id && x.msg.done {
        assert Done(xs, id) by { assert xs[|xs| - 1] == x; }
      }
      if Done(xs, id) {
        var i :| 0 <= i < |xs| && xs[i].Message? && xs[i].msg.id == id && xs[i].msg.done;
        if i < |xs| - 1 {
          assert init[i] == xs[i];
        }
      }
    }
  }

  /** The inbound items of poll interval `t`. */
  function Batch(arrivals: seq<seq<Inbound>>, t: nat): seq<Inbound> {
    if t < |arrivals| then arrivals[t] else []
  }

  /** The traffic of poll intervals `lo` up to (not including) `hi`. */
  function Between(arrivals: seq<seq<Inbound>>, lo: nat, hi: nat): seq<Inbound>
    requires lo <= hi
    decreases hi - lo
  {
    if lo == hi then [] else Batch(arrivals, lo) + Between(arrivals, lo + 1, hi)
  }

  datatype SendError = NotConnected | SendFailed | Timeout

  /** The polling loop of `send_message` from tick `tick` on: a complete row
      returns its response; past 60 s it raises `TimeoutError`; otherwise the
      traffic of the next tick is processed. Also returns the tick it
      stopped at. */
  function WaitLoop(a: Api, id: string, tick: nat, arrivals: seq<seq<Inbound>>): (r: (Api, Result<string, SendError>, nat))
    requires id in a.queue && tick <= TimeoutTicks + 1
    ensures tick <= r.2 <= TimeoutTicks + 1
    ensures r.0 == Run(a, Between(arrivals, tick, r.2))
    ensures r.1.Success? ==> r.0.queue[id].complete && r.1.value == r.0.queue[id].response
    ensures r.1.Failure? ==> r.1.error == Timeout && r.2 > TimeoutTicks && !r.0.queue[id].complete
    decreases TimeoutTicks + 1 - tick
  {
    if a.queue[id].complete then (a, Success(a.queue[id].response), tick)
    else if tick > TimeoutTicks then (a, Failure(Timeout), tick)
    else
      var next := Run(a, Batch(arrivals, tick));
      var r := WaitLoop(next, id, tick + 1, arrivals);
      RunAppend(a, Batch(arrivals, tick), Between(arrivals, tick + 1, r.2));
      r
  }

  /** After the ticks from `lo` up to `t` the row for `id` exists and is
      not yet complete. */
  predicate Pending(a: Api, arrivals: seq<seq<Inbound>>, id: string, lo: nat, t: nat) {
    lo <= t && var s := Run(a, Between(arrivals, lo, t)); id in s.queue && !s.queue[id].complete
  }

  /** The loop stops at the first poll that finds the row complete: at every
      earlier poll it was still pending. */
  lemma {:induction false} WaitLoopPending(a: Api, id: string, tick: nat, arrivals: seq<seq<Inbound>>)
    requires id in a.queue && tick <= TimeoutTicks + 1
    ensures forall t :: tick <= t < WaitLoop(a, id, tick, arrivals).2 ==> Pending(a, arrivals, id, tick, t)
    decreases TimeoutTicks + 1 - tick
  {
    if !a.queue[id].complete && tick <= TimeoutTicks {
      var next := Run(a, Batch(arrivals, tick));
      var n := WaitLoop(a, id, tick, arrivals).2;
      assert n == WaitLoop(next, id, tick + 1, arrivals).2;
      WaitLoopPending(next, id, tick + 1, arrivals);
      forall t | tick <= t < n
        ensures Pending(a, arrivals, id, tick, t)
      {
        if t == tick {
          assert Between(arrivals, tick, tick) == [];
        } else {
          assert Pending(next, arrivals, id, tick + 1, t);
          assert Between(arrivals, tick, t) == Batch(arrivals, tick) + Between(arrivals, tick + 1, t);
          RunAppend(a, Batch(arrivals, tick), Between(arrivals, tick + 1, t));
        }
      }
    }
  }

  /** The queue with `nonce` registered: an empty, incomplete row. */
  function Registered(a: Api, nonce: string): (r: Api)
    ensures r.queue.Keys == a.queue.Keys + {nonce} && r.queue[nonce] == QueueEntry("", false)
    ensures forall k :: k in a.queue && k != nonce ==> r.queue[k] == a.queue[k]
  {
    a.(queue := a.queue[nonce := QueueEntry("", false)])
  }

  /** `send_message(text)` with `nonce` as the generated message id. It
      connects first when disconnected and raises if still disconnected;
      registers the id with an empty, incomplete row before sending; and
      then waits as `WaitLoop`. */
  function SendMessage(a: Api, nonce: string, freshId: string, socketOpens: bool, sendOk: bool,
                       arrivals: seq<seq<Inbound>>): (r: (Api, Result<string, SendError>))
    ensures !a.connected && !socketOpens ==> r.1 == Failure(NotConnected) && r.0.queue == a.queue
    ensures (a.connected || socketOpens) ==> nonce in r.0.queue
    ensures (a.connected || socketOpens) && !sendOk ==>
      r.1 == Failure(SendFailed) && r.0.queue == a.queue[nonce := QueueEntry("", false)]
    ensures r.1.Success? ==> nonce in r.0.queue && r.0.queue[nonce].complete && r.1.value == r.0.queue[nonce].response
  {
    var (a1, _) := if !a.connected then Connect(a, freshId, socketOpens) else (a, true);
    if !a1.connected then (a1, Failure(NotConnected))
    else
      var a2 := Registered(a1, nonce);
      if !sendOk then (a2, Failure(SendFailed))
      else
        var w := WaitLoop(a2, nonce, 0, arrivals);
        (w.0, w.1)
  }

  /** Once the call has a listening connection, whether it was already
      connected or has just connected, and with the listener up throughout,
      it answers with exactly the content streamed to the nonce up to the
      first tick whose traffic flags it done, and times out exactly when no
      such flag arrives within the 60 seconds. */
  lemma SendReturnsStreamedContent(a: Api, nonce: string, freshId: string, socketOpens: bool,
                                   arrivals: seq<seq<Inbound>>)
    requires (a.connected && a.listening) || (!a.connected && socketOpens)
    requires nonce != ""
    requires forall t :: 0 <= t < |arrivals| ==> NoEnd(arrivals[t])
    ensures var r := SendMessage(a, nonce, freshId, socketOpens, true, arrivals);
      var a1 := if a.connected then a else Connect(a, freshId, socketOpens).0;
      var n := WaitLoop(Registered(a1, nonce), nonce, 0, arrivals).2;
      && (r.1.Success? ==>
            r.1.value == Chunks(Between(arrivals, 0, n), nonce) && Done(Between(arrivals, 0, n), nonce))
      && (r.1.Failure? ==> r.1.error == Timeout && n == TimeoutTicks + 1 && !Done(Between(arrivals, 0, n), nonce))
      && forall t :: 0 <= t < n ==> !Done(Between(arrivals, 0, t), nonce)
  {
    var a1 := if a.connected then a else Connect(a, freshId, socketOpens).0;
    assert a1.connected && a1.listening;
    var a2 := Registered(a1, nonce);
    var w := WaitLoop(a2, nonce, 0, arrivals);
    BetweenNoEnd(arrivals, 0, w.2);
    RunAccumulates(a2, Between(arrivals, 0, w.2), nonce);
    RunCompletes(a2, Between(arrivals, 0, w.2), nonce);
    WaitLoopPending(a2, nonce, 0, arrivals);
    forall t | 0 <= t < w.2
      ensures !Done(Between(arrivals, 0, t), nonce)
    {
      assert Pending(a2, arrivals, nonce, 0, t);
      BetweenNoEnd(arrivals, 0, t);
      RunCompletes(a2, Between(arrivals, 0, t), nonce);
    }
  }

  lemma {:induction false} BetweenNoEnd(arrivals: seq<seq<Inbound>>, lo: nat, hi: nat)
    requires lo <= hi
    requires forall t :: 0 <= t < |arrivals| ==> NoEnd(arrivals[t])
    ensures NoEnd(Between(arrivals, lo, hi))
    decreases hi - lo
  {
    if lo < hi {
      BetweenNoEnd(arrivals, lo + 1, hi);
      var b: seq<Inbound> := Batch(arrivals, lo);
      var rest: seq<Inbound> := Between(arrivals, lo + 1, hi);
      assert NoEnd(b);
      forall i | 0 <= i < |b + rest| ensures (b + rest)[i].Message? {
        if i < |b| { assert (b + rest)[i] == b[i]; } else { assert (b + rest)[i] == rest[i - |b|]; }
      }
    }
  }

  /** `close()`: with a socket, the client is marked disconnected and its
      listener stops. */
  function Close(a: Api): (r: Api)
    ensures a.hasSocket ==> !IsConnected(r) && !r.listening
    ensures a.hasSocket ==> forall x :: Step(r, x) == r
    ensures !a.hasSocket ==> r == a
    ensures r.queue == a.queue && r.conversationId == a.conversationId
  {
    if a.hasSocket then a.(connected := false, listening := false) else a
  }
}

=== FILE: streaming.dfy ===
/** The callback contract every transport reports through: zero or more
    `on_update(chunk)` calls and `on_complete(content)` calls, recorded as
    events in the order they happen. */
module Streaming {

  datatype Callback = OnUpdate(id: string, chunk: string) | OnComplete(id: string, content: string)

  /** The chunks passed to `on_update` for `id`, in order. */
  function UpdatesFor(events: seq<Callback>, id: string): seq<string>
    decreases |events|
  {
    if |events| == 0 then []
    else
      var e := events[|events| - 1];
      UpdatesFor(events[..|events| - 1], id) + (if e.OnUpdate? && e.id == id then [e.chunk] else [])
  }

  /** `UpdatesFor` distributes over concatenation of event logs. */
  lemma {:induction false} UpdatesForAppend(a: seq<Callback>, b: seq<Callback>, id: string)
    ensures UpdatesFor(a + b, id) == UpdatesFor(a, id) + UpdatesFor(b, id)
    decreases |b|
  {
    if |b| == 0 {
      assert a + b == a;
    } else {
      var ab := a + b;
      assert ab[..|ab| - 1] == a + b[..|b| - 1];
      assert ab[|ab| - 1] == b[|b| - 1];
      UpdatesForAppend(a, b[..|b| - 1], id);
    }
  }

  /** A listener loop: `step` applied to every inbound item in arrival
      order, the callbacks of all steps concatenated. */
  function Listen<S, X>(step: (S, X) -> (S, seq<Callback>), s: S, xs: seq<X>): (S, seq<Callback>)
    decreases |xs|
  {
    if |xs| == 0 then (s, [])
    else
      var p := Listen(step, s, xs[..|xs| - 1]);
      var q := step(p.0, xs[|xs| - 1]);
      (q.0, p.1 + q.1)
  }

  /** Listening to two stretches of traffic one after the other is
      listening to their concatenation. */
  lemma {:induction false} ListenAppend<S, X>(step: (S, X) -> (S, seq<Callback>), s: S, xs: seq<X>, ys: seq<X>)
    ensures Listen(step, s, xs + ys).0 == Listen(step, Listen(step, s, xs).0, ys).0
    ensures Listen(step, s, xs + ys).1 == Listen(step, s, xs).1 + Listen(step, Listen(step, s, xs).0, ys).1
    decreases |ys|
  {
    if |ys| == 0 {
      assert xs + ys == xs;
    } else {
      var zs, init := xs + ys, ys[..|ys| - 1];
      assert zs[..|zs| - 1] == xs + init;
      assert zs[|zs| - 1] == ys[|ys| - 1];
      ListenAppend(step, s, xs, init);
    }
  }
}

=== FILE: strings.dfy ===
/** String helpers that the Python code gets from `str`: prefix and
    substring tests, `sep.join(...)`, and decimal rendering of integers. */
module Strings {

  /** `s.startswith(p)` */
  predicate StartsWith(s: string, p: string) {
    |p| <= |s| && s[..|p|] == p
  }

  /** `s.endswith(p)` */
  predicate EndsWith(s: string, p: string) {
    |p| <= |s| && s[|s| - |p|..] == p
  }

  /** `pat in s` for strings: some window of `s` equals `pat`. */
  predicate Contains(s: string, pat: string)
    decreases |s|
  {
    StartsWith(s, pat) || (|s| > 0 && Contains(s[1..], pat))
  }

  /** `pat` occurs in `s` starting at index `i`. */
  predicate MatchAt(s: string, pat: string, i: int) {
    0 <= i && i + |pat| <= |s| && s[i..i + |pat|] == pat
  }

  /** `Contains` agrees with the window-based reading of `pat in s`. */
  lemma {:induction false} ContainsMeansWindow(s: string, pat: string)
    ensures Contains(s, pat) <==> exists i :: MatchAt(s, pat, i)
    decreases |s|
  {
    if StartsWith(s, pat) {
      assert MatchAt(s, pat, 0);
    } else if |s| == 0 {
      assert |pat| > 0;
    } else {
      ContainsMeansWindow(s[1..], pat);
      if exists i :: MatchAt(s, pat, i) {
        var i :| MatchAt(s, pat, i);
        assert i != 0;
        assert s[1..][i - 1..i - 1 + |pat|] == s[i..i + |pat|];
        assert MatchAt(s[1..], pat, i - 1);
      }
      if Contains(s[1..], pat) {
        var j :| MatchAt(s[1..], pat, j);
        assert s[1..][j..j + |pat|] == s[j + 1..j + 1 + |pat|];
        assert MatchAt(s, pat, j + 1);
      }
    }
  }

  /** `sep.join(parts)` */
  function Join(parts: seq<string>, sep: string): (r: string)
    ensures |parts| == 0 ==> r == ""
    ensures |parts| == 1 ==> r == parts[0]
    decreases |parts|
  {
    if |parts| == 0 then ""
    else if |parts| == 1 then parts[0]
    else parts[0] + sep + Join(parts[1..], sep)
  }

  /** Appending one more part appends the separator and that part: the
      loop that builds a joined string from left to right. */
  lemma {:induction false} JoinSnoc(parts: seq<string>, last: string, sep: string)
    requires |parts| > 0
    ensures Join(parts + [last], sep) == Join(parts, sep) + sep + last
    decreases |parts|
  {
    if |parts| == 1 {
      assert (parts + [last])[1..] == [last];
    } else {
      assert (parts + [last])[1..] == parts[1..] + [last];
      JoinSnoc(parts[1..], last, sep);
    }
  }

  predicate IsDigit(c: char) {
    '0' <= c <= '9'
  }

  function DigitChar(d: nat): (c: char)
    requires d < 10
    ensures IsDigit(c)
  {
    "0123456789"[d]
  }

  function DigitValue(c: char): (d: nat)
    requires IsDigit(c)
    ensures d < 10
  {
    (c as int - '0' as int) as nat
  }

  /** `str(n)` for a non-negative integer. */
  function NatToString(n: nat): (s: string)
    ensures |s| > 0
    ensures forall i :: 0 <= i < |s| ==> IsDigit(s[i])
    ensures n > 0 ==> s[0] != '0'
    decreases n
  {
    if n < 10 then [DigitChar(n)]
    else NatToString(n / 10) + [DigitChar(n % 10)]
  }

  /** Reads a string of decimal digits back as a number. */
  function ParseNat(s: string): nat
    requires forall i :: 0 <= i < |s| ==> IsDigit(s[i])
    decreases |s|
  {
    if |s| == 0 then 0
    else ParseNat(s[..|s| - 1]) * 10 + DigitValue(s[|s| - 1])
  }

  /** Decimal rendering loses nothing: parsing it gives the number back. */
  lemma {:induction false} ParseNatToString(n: nat)
    ensures ParseNat(NatToString(n)) == n
    decreases n
  {
    var s := NatToString(n);
    if n < 10 {
      assert s[..|s| - 1] == [];
      assert DigitValue(DigitChar(n)) == n by {
        assert "0123456789"[n] as int - '0' as int == n;
      }
    } else {
      ParseNatToString(n / 10);
      assert s[..|s| - 1] == NatToString(n / 10);
      assert DigitValue(DigitChar(n % 10)) == n % 10 by {
        assert "0123456789"[n % 10] as int - '0' as int == n % 10;
      }
    }
  }

  /** The joined string ends with the last part. */
  lemma {:induction false} JoinEndsWithLast(parts: seq<string>, sep: string)
    requires |parts| > 0
    ensures EndsWith(Join(parts, sep), parts[|parts| - 1])
    decreases |parts|
  {
    if |parts| > 1 {
      JoinEndsWithLast(parts[1..], sep);
      var tail := Join(parts[1..], sep);
      var whole := parts[0] + sep + tail;
      var last := parts[|parts| - 1];
      assert whole[|whole| - |last|..] == tail[|tail| - |last|..];
    }
  }

  /** The joined string starts with the first part. */
  lemma JoinStartsWithFirst(parts: seq<string>, sep: string)
    requires |parts| > 0
    ensures StartsWith(Join(parts, sep), parts[0])
  {
    if |parts| > 1 {
      assert Join(parts, sep)[..|parts[0]|] == parts[0];
    }
  }

  /** All strings of a sequence, concatenated in order. */
  function Concat(parts: seq<string>): string
    decreases |parts|
  {
    if |parts| == 0 then "" else parts[0] + Concat(parts[1..])
  }

  /** Concatenation distributes over appending one more string. */
  lemma {:induction false} ConcatSnoc(parts: seq<string>, last: string)
    ensures Concat(parts + [last]) == Concat(parts) + last
    decreases |parts|
  {
    if |parts| == 0 {
      assert [last][1..] == [];
    } else {
      assert (parts + [last])[1..] == parts[1..] + [last];
      ConcatSnoc(parts[1..], last);
    }
  }

  /** The first position of `c` in `s`. */
  function IndexOf(s: string, c: char): (k: nat)
    requires c in s
    ensures k < |s| && s[k] == c
    decreases |s|
  {
    if s[0] == c then 0 else 1 + IndexOf(s[1..], c)
  }
}

=== FILE: text_format.dfy ===
/** The text helpers of `telegram_bot.py` and `utils.py`: truncation to the
    Telegram message size, the 4000-character chunk loop, uptime rendering
    and random nonces. */
module TextFormat {
  import opened Wrappers
  import opened Strings

  /** Messages are kept below Telegram's 4096-character limit. */
  const MaxMessageLength: nat := 4000

  /** The marker appended to truncated text. */
  const Ellipsis: string := "..."

  /** `format_response_for_telegram(text)` (identical in both files): empty
      or missing text gives "", text that fits is returned unchanged, longer
      text is cut to 3997 characters followed by "...". */
  function FormatForTelegram(text: Option<string>): (r: string)
    ensures |r| <= MaxMessageLength
    ensures text.None? || text.value == "" ==> r == ""
    ensures text.Some? && |text.value| <= MaxMessageLength ==> r == text.value
    ensures text.Some? && |text.value| > MaxMessageLength ==>
      |r| == MaxMessageLength
      && r[..MaxMessageLength - 3] == text.value[..MaxMessageLength - 3]
      && EndsWith(r, Ellipsis)
  {
    if text.None? || text.value == "" then ""
    else if |text.value| <= MaxMessageLength then text.value
    else text.value[..MaxMessageLength - 3] + Ellipsis
  }

  /** Formatting is idempotent: formatted text is already within limits. */
  lemma FormatIdempotent(text: Option<string>)
    ensures FormatForTelegram(Some(FormatForTelegram(text))) == FormatForTelegram(text)
  {
  }

  /** What formatting forgets: two texts that fit format alike only when
      they are equal; two long texts format alike exactly when their first
      3997 characters agree; and a text that fits looks like a truncated
      long one exactly when it is that text's 3997-character prefix
      followed by "...". */
  lemma TruncationKeepsPrefix(a: string, b: string)
    ensures FormatForTelegram(Some(a)) == FormatForTelegram(Some(b)) <==>
      if |a| > MaxMessageLength && |b| > MaxMessageLength then a[..MaxMessageLength - 3] == b[..MaxMessageLength - 3]
      else if |a| <= MaxMessageLength && |b| <= MaxMessageLength then a == b
      else if |a| <= MaxMessageLength then a == b[..MaxMessageLength - 3] + Ellipsis
      else b == a[..MaxMessageLength - 3] + Ellipsis
  {
    var fa := FormatForTelegram(Some(a));
    var fb := FormatForTelegram(Some(b));
    if |a| > MaxMessageLength && |b| > MaxMessageLength && fa == fb {
      assert fa[..MaxMessageLength - 3] == fb[..MaxMessageLength - 3];
    }
  }

  /** The fallback split of `process_message`: slices of 4000 characters
      starting at 0, 4000, 8000, ..., each sent when non-empty. */
  method SplitIntoChunks(text: string) returns (chunks: seq<string>)
    ensures Concat(chunks) == text
    ensures forall i :: 0 <= i < |chunks| ==> 0 < |chunks[i]| <= MaxMessageLength
    ensures forall i :: 0 <= i < |chunks| - 1 ==> |chunks[i]| == MaxMessageLength
    ensures |chunks| == (|text| + MaxMessageLength - 1) / MaxMessageLength
  {
    chunks := [];
    var start := 0;
    while start < |text|
      invariant 0 <= start <= |text| + MaxMessageLength - 1
      invariant start % MaxMessageLength == 0
      invariant start < |text| ==> Concat(chunks) == text[..start]
      invariant start >= |text| ==> Concat(chunks) == text
      invariant |chunks| == start / MaxMessageLength
      invariant forall i :: 0 <= i < |chunks| ==> 0 < |chunks[i]| <= MaxMessageLength
      invariant forall i :: 0 <= i < |chunks| ==> (start < |text| ==> |chunks[i]| == MaxMessageLength)
      invariant forall i :: 0 <= i < |chunks| - 1 ==> |chunks[i]| == MaxMessageLength
      decreases |text| - start
    {
      var stop := if start + MaxMessageLength <= |text| then start + MaxMessageLength else |text|;
      var chunk := text[start..stop];
      ConcatSnoc(chunks, chunk);
      assert text[..start] + chunk == text[..stop];
      if stop == |text| {
        assert text[..stop] == text;
      }
      chunks := chunks + [chunk];
      start := start + MaxMessageLength;
    }
  }

  /** `(days, hours, minutes, seconds)` as `timedelta(seconds=n)` splits a
      whole number of seconds: days rounded down, the rest in one day. */
  datatype Uptime = Uptime(days: int, hours: nat, minutes: nat, seconds: nat)

  function UptimeFields(n: int): (u: Uptime)
    ensures u.hours < 24 && u.minutes < 60 && u.seconds < 60
    ensures u.days * 86400 + u.hours * 3600 + u.minutes * 60 + u.seconds == n
    ensures n >= 0 ==> u.days >= 0
  {
    var rest := n % 86400;
    Uptime(n / 86400, rest / 3600, rest % 3600 / 60, rest % 60)
  }

  /** The fields are the unique such decomposition: any other split of `n`
      into days and in-range hours, minutes and seconds is this one. */
  lemma UptimeFieldsUnique(n: int, u: Uptime)
    requires u.hours < 24 && u.minutes < 60 && u.seconds < 60
    requires u.days * 86400 + u.hours * 3600 + u.minutes * 60 + u.seconds == n
    ensures u == UptimeFields(n)
  {
    var v := UptimeFields(n);
    var r := u.hours * 3600 + u.minutes * 60 + u.seconds;
    assert 0 <= r < 86400;
    assert u.days == n / 86400 && r == n % 86400 by {
      assert n == u.days * 86400 + r;
    }
    assert u.hours == r / 3600 && u.minutes * 60 + u.seconds == r % 3600;
    assert u.minutes == r % 3600 / 60 && u.seconds == r % 3600 % 60;
    assert r % 3600 % 60 == r % 60 by {
      assert r % 3600 == r - 3600 * (r / 3600);
      assert r - 3600 * (r / 3600) == 60 * (u.minutes) + u.seconds;
    }
  }

  /** The rendered parts of `format_uptime`: days, hours and minutes only
      when positive, then always the seconds. */
  function UptimeParts(u: Uptime): (parts: seq<string>)
    ensures |parts| >= 1
    ensures |parts| == 1 + (if u.days > 0 then 1 else 0) + (if u.hours > 0 then 1 else 0)
                         + (if u.minutes > 0 then 1 else 0)
    ensures parts[|parts| - 1] == NatToString(u.seconds) + "s"
    ensures u.days > 0 ==> parts[0] == NatToString(u.days) + "d"
    ensures u.hours > 0 ==> parts[if u.days > 0 then 1 else 0] == NatToString(u.hours) + "h"
    ensures u.minutes > 0 ==> parts[|parts| - 2] == NatToString(u.minutes) + "m"
  {
    (if u.days > 0 then [NatToString(u.days) + "d"] else [])
    + (if u.hours > 0 then [NatToString(u.hours) + "h"] else [])
    + (if u.minutes > 0 then [NatToString(u.minutes) + "m"] else [])
    + [NatToString(u.seconds) + "s"]
  }

  /** `format_uptime(seconds)` for a whole number of seconds. */
  function FormatUptime(n: int): string {
    Join(UptimeParts(UptimeFields(n)), " ")
  }

  /** The rendering always ends with the seconds part, and starts with the
      days part exactly when there is at least one whole day. */
  lemma FormatUptimeShape(n: int)
    ensures EndsWith(FormatUptime(n), NatToString(UptimeFields(n).seconds) + "s")
    ensures n >= 86400 ==> StartsWith(FormatUptime(n), NatToString(n / 86400) + "d")
    ensures 0 <= n < 60 ==> FormatUptime(n) == NatToString(UptimeFields(n).seconds) + "s"
  {
    var parts := UptimeParts(UptimeFields(n));
    JoinEndsWithLast(parts, " ");
    JoinStartsWithFirst(parts, " ");
  }

  /** `string.ascii_lowercase + string.digits` */
  const NonceAlphabet: string := "abcdefghijklmnopqrstuvwxyz0123456789"

  /** One `random.choice(alphabet)` per draw. */
  function Choose(alphabet: string, draws: seq<nat>): (r: string)
    requires |alphabet| > 0
    ensures |r| == |draws|
    ensures forall i :: 0 <= i < |r| ==> r[i] in alphabet
  {
    seq(|draws|, i requires 0 <= i < |draws| => alphabet[draws[i] % |alphabet|])
  }

  lemma ModSmall(k: nat, n: nat)
    requires k < n
    ensures k % n == k
  {
  }

  /** Every string over the alphabet can be drawn: choosing the index of
      each of its letters reproduces it. */
  lemma ChooseCovers(alphabet: string, s: string)
    requires |alphabet| > 0
    requires forall i :: 0 <= i < |s| ==> s[i] in alphabet
    ensures Choose(alphabet, seq(|s|, i requires 0 <= i < |s| => IndexOf(alphabet, s[i]))) == s
  {
    var draws := seq(|s|, i requires 0 <= i < |s| => IndexOf(alphabet, s[i]));
    var r := Choose(alphabet, draws);
    forall i | 0 <= i < |s|
      ensures r[i] == s[i]
    {
      var k := draws[i];
      assert k == IndexOf(alphabet, s[i]);
      assert k < |alphabet|;
      ModSmall(k, |alphabet|);
      assert r[i] == alphabet[k % |alphabet|];
    }
  }

  /** `generate_nonce(len(draws))`: position `i` takes the alphabet letter
      chosen by the `i`-th random draw. */
  function GenerateNonce(draws: seq<nat>): (r: string)
    ensures |r| == |draws|
    ensures forall i :: 0 <= i < |r| ==> r[i] in NonceAlphabet
  {
    Choose(NonceAlphabet, draws)
  }

  /** The length `generate_nonce()` uses when called without one. */
  const DefaultNonceLength: nat := 16

  /** A nonce made with the default length, as the message ids of the
      legacy agent client are: 16 characters over the alphabet. */
  lemma DefaultNonceShape(draws: seq<nat>)
    requires |draws| == DefaultNonceLength
    ensures |GenerateNonce(draws)| == 16
    ensures forall i :: 0 <= i < 16 ==> GenerateNonce(draws)[i] in NonceAlphabet
  {
  }

  /** Every string of lowercase letters and digits is some nonce. */
  lemma EveryAlphabetStringIsANonce(s: string)
    requires forall i :: 0 <= i < |s| ==> s[i] in NonceAlphabet
    ensures exists draws :: GenerateNonce(draws) == s
  {
    ChooseCovers(NonceAlphabet, s);
    var draws := seq(|s|, i requires 0 <= i < |s| => IndexOf(NonceAlphabet, s[i]));
    assert GenerateNonce(draws) == s;
  }
}

=== FILE: token_store.dfy ===
/** The per-user credential store of `auth/token_manager.py`, kept as its
    in-memory map userId -> (data, stored_at). Encryption and the file
    behind the map are not part of this model. */
module TokenStore {
  import opened Wrappers
  import opened Auth

  type UserId = string

  /** One user's record: the captured data and the second it was stored. */
  datatype Entry = Entry(data: AuthData, storedAt: int)

  datatype Store = Store(tokens: map<UserId, Entry>)

  /** Default maximum age of stored credentials: twelve hours. */
  const DefaultMaxAge: int := 43200

  /** What reading the tokens file produced. */
  datatype LoadSource = NoFile | Unreadable | Decoded(tokens: map<UserId, Entry>)

  /** Construction: start empty, then load. A missing file, or one that
      fails to decrypt or parse, leaves the map empty. */
  function Load(src: LoadSource): (s: Store)
    ensures !src.Decoded? ==> s.tokens == map[]
    ensures src.Decoded? ==> s.tokens == src.tokens
  {
    match src
    case Decoded(t) => Store(t)
    case _ => Store(map[])
  }

  /** `store_user_tokens(u, d)` at second `now`: the user's record is
      replaced wholesale; every other user's record is untouched. */
  function StoreUserTokens(s: Store, u: UserId, d: AuthData, now: int): (r: Store)
    ensures u in r.tokens && r.tokens[u].data == d && r.tokens[u].storedAt == now
    ensures r.tokens.Keys == s.tokens.Keys + {u}
    ensures forall v :: v in s.tokens && v != u ==> r.tokens[v] == s.tokens[v]
  {
    Store(s.tokens[u := Entry(d, now)])
  }

  /** `get_user_tokens(u)`: the stored data, or `None` for an unknown user. */
  function GetUserTokens(s: Store, u: UserId): (r: Option<AuthData>)
    ensures r.None? <==> u !in s.tokens
    ensures r.Some? ==> r.value == s.tokens[u].data
  {
    if u in s.tokens then Some(s.tokens[u].data) else None
  }

  /** `is_token_valid(u, max_age)` at second `now`: the user has a record
      younger than `maxAge`. */
  function IsTokenValid(s: Store, u: UserId, now: int, maxAge: int): (ok: bool)
    ensures ok <==> u in s.tokens && now - s.tokens[u].storedAt < maxAge
  {
    if u !in s.tokens then false
    else now - s.tokens[u].storedAt < maxAge
  }

  /** `delete_user_tokens(u)`: removes a present user's record and reports
      it; for an absent user it reports `false` and changes nothing. */
  function DeleteUserTokens(s: Store, u: UserId): (r: (Store, bool))
    ensures r.1 <==> u in s.tokens
    ensures r.0.tokens.Keys == s.tokens.Keys - {u}
    ensures forall v :: v in r.0.tokens ==> r.0.tokens[v] == s.tokens[v]
    ensures !r.1 ==> r.0 == s
  {
    if u in s.tokens then (Store(s.tokens - {u}), true) else (s, false)
  }

  /** Round trip: what is stored is what is read back. */
  lemma StoreThenGet(s: Store, u: UserId, d: AuthData, now: int)
    ensures GetUserTokens(StoreUserTokens(s, u, d, now), u) == Some(d)
  {
  }

  /** After a delete the user has no record, whether or not one existed. */
  lemma DeleteThenGet(s: Store, u: UserId)
    ensures GetUserTokens(DeleteUserTokens(s, u).0, u) == None
    ensures !IsTokenValid(DeleteUserTokens(s, u).0, u, 0, DefaultMaxAge)
  {
  }

  /** Freshly stored credentials are valid for exactly `maxAge` seconds:
      valid at `now + k` for `k < maxAge`, invalid from `now + maxAge` on. */
  lemma ValidityWindow(s: Store, u: UserId, d: AuthData, now: int, k: int, maxAge: int)
    ensures IsTokenValid(StoreUserTokens(s, u, d, now), u, now + k, maxAge) <==> k < maxAge
  {
  }

  /** Storing for one user does not change what another user reads. */
  lemma StoreIsolatesUsers(s: Store, u: UserId, v: UserId, d: AuthData, now: int)
    requires u != v
    ensures GetUserTokens(StoreUserTokens(s, u, d, now), v) == GetUserTokens(s, v)
  {
  }
}

=== FILE: websocket_client.dfy ===
/** `api/websocket_client.py`: the token-socket transport. A connection
    state machine with bounded exponential backoff, and a response table
    that accumulates streamed chunks per message id until a terminal
    message marks it complete. The socket itself is replaced by outcome
    values and by the sequence of already-decoded inbound messages. */
module WebSocketClient {
  import opened Wrappers
  import opened Auth
  import opened Strings
  import opened Streaming

  datatype ConnectionState =
    | Disconnected
    | Connecting
    | Connected
    | Handshaking
    | NoConnection
    | BackingOff
    | Error
    | Closed

  /** One row of the response table. */
  datatype PendingResponse = PendingResponse(content: string, complete: bool)

  /** Which callbacks were registered for a message id. */
  datatype Handlers = Handlers(onUpdate: bool, onComplete: bool)

  datatype Client = Client(
    auth: AuthData,
    state: ConnectionState,
    hasSocket: bool,
    listening: bool,
    clientId: string,
    sessionId: string,
    tokenCluster: string,
    responses: map<string, PendingResponse>,
    handlers: map<string, Handlers>,
    reconnectAttempts: nat)

  const InitialBackoff: nat := 1
  const MaxBackoff: nat := 30
  const MaxReconnectAttempts: nat := 5
  const DefaultTokenCluster: string := "picard"
  const DefaultWaitTimeout: nat := 60

  /** Polls of `wait_for_response` are 0.1 s apart: ticks per second. */
  const TicksPerSecond: nat := 10

  /** A fresh client: disconnected, empty tables, ids read from the auth data. */
  function NewClient(auth: Option<AuthData>): (c: Client)
    ensures c.state == Disconnected && !c.hasSocket && !c.listening
    ensures c.responses == map[] && c.handlers == map[] && c.reconnectAttempts == 0
  {
    var a := if auth.Some? then auth.value else AuthData(None, None, map[]);
    Client(a, Disconnected, false, false, Field(a, "client_id"), Field(a, "session_id"),
           DefaultTokenCluster, map[], map[], 0)
  }

  /** What scanning the auth data for connection parameters found; a
      `None` leaves the current value in place. */
  datatype Extracted = Extracted(clientId: Option<string>, sessionId: Option<string>, tokenCluster: Option<string>)

  /** What opening the socket did: refused, opened but the handshake send
      failed, or opened and handshaken. */
  datatype Transport = Refused | HandshakeFailed | Opened

  /** `is_connected()` */
  predicate IsConnected(c: Client) {
    c.state == Connected
  }

  /** `connect()`. Already connecting or connected: nothing happens and the
      answer is yes. Missing ids that cannot be extracted: ERROR. A transport
      failure: NO_CONNECTION. Success: CONNECTED with the attempt counter
      reset and the listener running. The tables are never touched. */
  function Connect(c: Client, ex: Extracted, t: Transport): (r: (Client, bool))
    ensures c.state == Connecting || c.state == Connected ==> r == (c, true)
    ensures r.1 <==> c.state == Connecting || c.state == Connected || r.0.state == Connected
    ensures c.state != Connecting && c.state != Connected ==>
      (r.1 ==> r.0.reconnectAttempts == 0 && r.0.listening && r.0.clientId != "" && r.0.sessionId != "")
      && (!r.1 ==> r.0.state == Error || r.0.state == NoConnection)
      && (r.0.state == Error <==> (c.clientId == "" || c.sessionId == "") && (r.0.clientId == "" || r.0.sessionId == ""))
    ensures !r.1 ==> r.0.listening == c.listening && r.0.reconnectAttempts == c.reconnectAttempts
    ensures r.0.responses == c.responses && r.0.handlers == c.handlers
  {
    if c.state == Connecting || c.state == Connected then (c, true)
    else
      var c1 := c.(state := Connecting);
      var needIds := c1.clientId == "" || c1.sessionId == "";
      var c2 := if needIds then c1.(clientId := ex.clientId.GetOr(c1.clientId),
                                    sessionId := ex.sessionId.GetOr(c1.sessionId),
                                    tokenCluster := ex.tokenCluster.GetOr(c1.tokenCluster))
                else c1;
      if needIds && (c2.clientId == "" || c2.sessionId == "") then (c2.(state := Error), false)
      else match t
        case Refused => (c2.(state := NoConnection), false)
        case HandshakeFailed => (c2.(state := NoConnection, hasSocket := true), false)
        case Opened =>
          (c2.(state := Connected, hasSocket := true, listening := true, reconnectAttempts := 0), true)
  }

  function Pow2(k: nat): (p: nat)
    ensures p >= 1
  {
    if k == 0 then 1 else 2 * Pow2(k - 1)
  }

  /** The delay before reconnection attempt `attempt`:
      `min(backoff_time * 2 ** (attempt - 1), max_backoff_time)`. */
  function Backoff(attempt: nat): (d: nat)
    requires attempt >= 1
    ensures InitialBackoff <= d <= MaxBackoff
  {
    var raw := InitialBackoff * Pow2(attempt - 1);
    if raw < MaxBackoff then raw else MaxBackoff
  }

  lemma {:induction false} Pow2Monotone(j: nat, k: nat)
    requires j <= k
    ensures Pow2(j) <= Pow2(k)
    decreases k
  {
    if j < k {
      Pow2Monotone(j, k - 1);
    }
  }

  /** A later attempt never waits less. */
  lemma BackoffMonotone(j: nat, k: nat)
    requires 1 <= j <= k
    ensures Backoff(j) <= Backoff(k)
  {
    Pow2Monotone(j - 1, k - 1);
  }

  /** With the defaults the delays of the five allowed attempts are 1, 2,
      4, 8 and 16 seconds, and the cap is reached from attempt 6 on. */
  lemma BackoffSchedule(k: nat)
    requires k >= 6
    ensures Backoff(1) == 1 && Backoff(2) == 2 && Backoff(3) == 4
    ensures Backoff(4) == 8 && Backoff(5) == 16
    ensures Backoff(k) == MaxBackoff
  {
    assert Pow2(4) == 16;
    assert Pow2(5) == 32;
    Pow2Monotone(5, k - 1);
  }

  /** What `reconnect()` did: the client afterwards, the answer, and the
      delay it slept before trying (none when it gave up). */
  datatype Reconnection = Reconnection(client: Client, ok: bool, delay: Option<nat>)

  /** `reconnect()`. At the attempt limit: ERROR, no attempt counted, no
      delay. Otherwise count the attempt, back off, and connect. */
  function Reconnect(c: Client, ex: Extracted, t: Transport): (r: Reconnection)
    ensures c.reconnectAttempts >= MaxReconnectAttempts ==>
      !r.ok && r.delay.None? && r.client == c.(state := Error)
    ensures c.reconnectAttempts < MaxReconnectAttempts ==>
      r.delay == Some(Backoff(c.reconnectAttempts + 1))
      && r.client.reconnectAttempts == (if r.ok then 0 else c.reconnectAttempts + 1)
      && (r.ok <==> r.client.state == Connected)
    ensures r.ok ==> r.client.listening
    ensures !r.ok ==> r.client.listening == c.listening
    ensures r.client.responses == c.responses && r.client.handlers == c.handlers
  {
    if c.reconnectAttempts >= MaxReconnectAttempts then Reconnection(c.(state := Error), false, None)
    else
      var attempt := c.reconnectAttempts + 1;
      var c1 := c.(reconnectAttempts := attempt, state := BackingOff);
      var (c2, ok) := Connect(c1, ex, t);
      Reconnection(c2, ok, Some(Backoff(attempt)))
  }

  /** Repeated failed reconnections stop after the limit: from any count,
      at most `MaxReconnectAttempts` further attempts are made before the
      client sits in ERROR. */
  lemma ReconnectGivesUp(c: Client, ex: Extracted, t: Transport)
    requires c.reconnectAttempts == MaxReconnectAttempts
    ensures Reconnect(c, ex, t).client.state == Error
    ensures Reconnect(c, ex, t).client.reconnectAttempts == MaxReconnectAttempts
  {
  }

  /** Connecting is idempotent: once a call has answered yes, a second call
      changes nothing and answers yes again, whatever the transport does. */
  lemma ConnectIdempotent(c: Client, ex: Extracted, t: Transport, ex2: Extracted, t2: Transport)
    requires Connect(c, ex, t).1
    ensures Connect(Connect(c, ex, t).0, ex2, t2) == Connect(c, ex, t)
  {
  }

  /** The delay the schedule prescribes for the call made with `a`
      attempts already counted: none once the limit is reached. */
  function ScheduledDelay(a: nat): Option<nat> {
    if a < MaxReconnectAttempts then Some(Backoff(a + 1)) else None
  }

  /** One reconnection against a server that refuses the socket never
      succeeds: below the limit it counts an attempt and sleeps the next
      delay, at the limit it gives up. */
  function RefusedReconnect(c: Client, ex: Extracted): (rc: Reconnection)
    ensures !rc.ok && !IsConnected(rc.client)
    ensures rc.client.reconnectAttempts ==
      (if c.reconnectAttempts < MaxReconnectAttempts then c.reconnectAttempts + 1 else c.reconnectAttempts)
    ensures rc.delay == ScheduledDelay(c.reconnectAttempts)
  {
    Reconnect(c, ex, Refused)
  }

  /** `n` reconnections in a row against a server that refuses every
      socket: the client afterwards and the delay of each call. */
  function RefusedRetries(c: Client, ex: Extracted, n: nat): (Client, seq<Option<nat>>)
    decreases n
  {
    if n == 0 then (c, [])
    else
      var rc := RefusedReconnect(c, ex);
      var rest := RefusedRetries(rc.client, ex, n - 1);
      (rest.0, [rc.delay] + rest.1)
  }

  /** The counter a refused reconnection leaves behind. */
  function NextAttempts(a: nat): nat {
    if a < MaxReconnectAttempts then a + 1 else a
  }

  /** The delays of `n` refused reconnections from counter `a`, computed
      from the counter alone. */
  function RefusedSchedule(a: nat, n: nat): (ds: seq<Option<nat>>)
    ensures |ds| == n
    decreases n
  {
    if n == 0 then [] else [ScheduledDelay(a)] + RefusedSchedule(NextAttempts(a), n - 1)
  }

  /** Against a server that refuses every socket, the delays depend on the
      counter only, and the counter climbs to the limit and stays there. */
  lemma {:induction false} RefusedRetriesCount(c: Client, ex: Extracted, n: nat)
    requires c.reconnectAttempts <= MaxReconnectAttempts
    ensures RefusedRetries(c, ex, n).1 == RefusedSchedule(c.reconnectAttempts, n)
    ensures RefusedRetries(c, ex, n).0.reconnectAttempts ==
      (if c.reconnectAttempts + n < MaxReconnectAttempts then c.reconnectAttempts + n else MaxReconnectAttempts)
    decreases n
  {
    if n > 0 {
      var rc := RefusedReconnect(c, ex);
      assert rc.client.reconnectAttempts == NextAttempts(c.reconnectAttempts);
      RefusedRetriesCount(rc.client, ex, n - 1);
      var rest := RefusedRetries(rc.client, ex, n - 1);
      assert RefusedRetries(c, ex, n) == (rest.0, [rc.delay] + rest.1);
    }
  }

  /** The `i`-th delay of the schedule from counter `a` is the one
      prescribed for the count reached by then. */
  lemma {:induction false} ScheduleAt(a: nat, n: nat, i: nat)
    requires a <= MaxReconnectAttempts && i < n
    ensures RefusedSchedule(a, n)[i] == ScheduledDelay(a + i)
    decreases i
  {
    if i > 0 {
      ScheduleAt(NextAttempts(a), n - 1, i - 1);
      if a >= MaxReconnectAttempts {
        assert ScheduledDelay(a + (i - 1)) == None == ScheduledDelay(a + i);
      }
    }
  }

  /** Against a server that refuses every socket, the delays follow the
      backoff schedule attempt after attempt, and every call beyond the
      limit gives up without sleeping. */
  lemma RefusedRetriesBackOff(c: Client, ex: Extracted, n: nat)
    requires c.reconnectAttempts <= MaxReconnectAttempts
    ensures |RefusedRetries(c, ex, n).1| == n
    ensures forall i :: 0 <= i < n ==> RefusedRetries(c, ex, n).1[i] == ScheduledDelay(c.reconnectAttempts + i)
  {
    RefusedRetriesCount(c, ex, n);
    forall i | 0 <= i < n
      ensures RefusedSchedule(c.reconnectAttempts, n)[i] == ScheduledDelay(c.reconnectAttempts + i)
    {
      ScheduleAt(c.reconnectAttempts, n, i);
    }
  }

  /** The schedule from a fresh counter. */
  lemma ScheduledDelays()
    ensures ScheduledDelay(0) == Some(1) && ScheduledDelay(1) == Some(2) && ScheduledDelay(2) == Some(4)
    ensures ScheduledDelay(3) == Some(8) && ScheduledDelay(4) == Some(16) && ScheduledDelay(5) == None
  {
    BackoffSchedule(6);
  }

  /** From a fresh counter, six refused reconnections sleep 1, 2, 4, 8
      and 16 seconds and then give up. */
  lemma RefusedFromZero(c: Client, ex: Extracted)
    requires c.reconnectAttempts == 0
    ensures RefusedRetries(c, ex, 6).1 == [Some(1), Some(2), Some(4), Some(8), Some(16), None]
  {
    RefusedRetriesCount(c, ex, 6);
    ScheduledDelays();
    ScheduleAt(0, 6, 0);
    ScheduleAt(0, 6, 1);
    ScheduleAt(0, 6, 2);
    ScheduleAt(0, 6, 3);
    ScheduleAt(0, 6, 4);
    ScheduleAt(0, 6, 5);
  }

  /** A decoded inbound message (`type` field, with missing fields read as ""). */
  datatype WsMessage =
    | AgentResponse(id: string, content: string)
    | AgentResponseComplete(id: string)
    | StateChange
    | OtherMessage

  /** What the listener sees: a message; an error other than a dropped
      connection, which ends it in ERROR; or the server closing the socket
      cleanly, which ends the `async for` over the socket without raising. */
  datatype Inbound = Message(msg: WsMessage) | ListenerFailed | ServerClosed

  /** One step of `_process_messages`. A chunk for a registered id is
      appended to its buffer (and passed to `on_update`); a completion for
      a registered id sets `complete` and passes the whole buffer to
      `on_complete`. Unregistered ids and other types change nothing. A
      listener failure ends listening in ERROR; a clean close ends it and
      leaves the state as it was. */
  function Step(c: Client, x: Inbound): (r: (Client, seq<Callback>))
    ensures r.0.responses.Keys == c.responses.Keys && r.0.handlers == c.handlers
    ensures x.Message? && x.msg.AgentResponse? && x.msg.id in c.responses && c.listening ==>
      r.0.responses[x.msg.id] == c.responses[x.msg.id].(content := c.responses[x.msg.id].content + x.msg.content)
    ensures x.Message? && x.msg.AgentResponseComplete? && x.msg.id in c.responses && c.listening ==>
      r.0.responses[x.msg.id] == c.responses[x.msg.id].(complete := true)
      && (x.msg.id in c.handlers && c.handlers[x.msg.id].onComplete ==>
            r.1 == [OnComplete(x.msg.id, c.responses[x.msg.id].content)])
    ensures x.Message? && (x.msg.StateChange? || x.msg.OtherMessage? || x.msg.id !in c.responses) ==> r == (c, [])
    ensures !c.listening ==> r == (c, [])
    ensures c.listening && x.Message? ==> r.0.listening
    ensures c.listening && x.ListenerFailed? ==> r.0 == c.(state := Error, listening := false) && r.1 == []
    ensures c.listening && x.ServerClosed? ==> r.0 == c.(listening := false) && r.1 == []
    ensures r.0.reconnectAttempts == c.reconnectAttempts && (r.0.listening ==> c.listening)
    ensures forall k :: k in c.responses && !(x.Message? && x.msg.AgentResponse? && x.msg.id == k) ==>
      r.0.responses[k].content == c.responses[k].content
  {
    if !c.listening then (c, [])
    else match x
      case ListenerFailed => (c.(state := Error, listening := false), [])
      case ServerClosed => (c.(listening := false), [])
      case Message(m) =>
        match m
        case AgentResponse(id, chunk) =>
          if id !in c.responses then (c, [])
          else
            var p := c.responses[id];
            var c1 := c.(responses := c.responses[id := p.(content := p.content + chunk)]);
            var ev := if id in c.handlers && c.handlers[id].onUpdate then [OnUpdate(id, chunk)] else [];
            (c1, ev)
        case AgentResponseComplete(id) =>
          if id !in c.responses then (c, [])
          else
            var p := c.responses[id];
            var c1 := c.(responses := c.responses[id := p.(complete := true)]);
            var ev := if id in c.handlers && c.handlers[id].onComplete then [OnComplete(id, p.content)] else [];
            (c1, ev)
        case _ => (c, [])
  }

  /** The listener over a sequence of inbound items, in arrival order. */
  function Run(c: Client, xs: seq<Inbound>): (r: (Client, seq<Callback>))
    ensures r.0.responses.Keys == c.responses.Keys && r.0.handlers == c.handlers
  {
    RunKeepsKeys(c, xs);
    Listen(Step, c, xs)
  }

  lemma {:induction false} RunKeepsKeys(c: Client, xs: seq<Inbound>)
    ensures Listen(Step, c, xs).0.responses.Keys == c.responses.Keys
    ensures Listen(Step, c, xs).0.handlers == c.handlers
    decreases |xs|
  {
    if |xs| > 0 {
      RunKeepsKeys(c, xs[..|xs| - 1]);
    }
  }

  /** Running two stretches of traffic one after the other is running
      their concatenation. */
  lemma RunAppend(c: Client, xs: seq<Inbound>, ys: seq<Inbound>)
    ensures Run(c, xs + ys).0 == Run(Run(c, xs).0, ys).0
    ensures Run(c, xs + ys).1 == Run(c, xs).1 + Run(Run(c, xs).0, ys).1
  {
    ListenAppend(Step, c, xs, ys);
  }

  /** The chunks of `id`'s agent responses, concatenated in arrival order. */
  function Chunks(xs: seq<Inbound>, id: string): string
    decreases |xs|
  {
    if |xs| == 0 then ""
    else
      var x := xs[|xs| - 1];
      Chunks(xs[..|xs| - 1], id)
      + (if x.Message? && x.msg.AgentResponse? && x.msg.id == id then x.msg.content else "")
  }

  /** Nothing in the traffic ends the listener. */
  predicate NoFailure(xs: seq<Inbound>) {
    forall i :: 0 <= i < |xs| ==> xs[i].Message?
  }

  /** The buffer is authoritative: while the listener runs, a registered
      id's buffer is its old content followed by every chunk addressed to
      it, in arrival order, and a registered id is never dropped. */
  lemma {:induction false} RunAccumulates(c: Client, xs: seq<Inbound>, id: string)
    requires id in c.responses && c.listening && NoFailure(xs)
    ensures Run(c, xs).0.listening
    ensures Run(c, xs).0.responses[id].content == c.responses[id].content + Chunks(xs, id)
    decreases |xs|
  {
    if |xs| > 0 {
      var init := xs[..|xs| - 1];
      assert NoFailure(init) by {
        forall i | 0 <= i < |init| ensures init[i].Message? { assert init[i] == xs[i]; }
      }
      RunAccumulates(c, init, id);
      var x := xs[|xs| - 1];
      assert x.Message?;
      var c1 := Run(c, init).0;
      assert Run(c, xs).0 == Step(c1, x).0;
      if x.msg.AgentResponse? && x.msg.id == id {
        assert Chunks(xs, id) == Chunks(init, id) + x.msg.content;
      } else {
        assert Chunks(xs, id) == Chunks(init, id) + "";
      }
    }
  }

  /** Streaming updates mirror the buffer: with an `on_update` handler and
      the listener up, the chunks handed to `on_update` for an id are, in
      order, exactly the chunks appended to its buffer. */
  lemma {:induction false} UpdatesMirrorBuffer(c: Client, xs: seq<Inbound>, id: string)
    requires id in c.responses && c.listening && NoFailure(xs)
    requires id in c.handlers && c.handlers[id].onUpdate
    ensures Concat(UpdatesFor(Run(c, xs).1, id)) == Chunks(xs, id)
    decreases |xs|
  {
    if |xs| == 0 {
      assert UpdatesFor([], id) == [];
    } else {
      var init := xs[..|xs| - 1];
      var x := xs[|xs| - 1];
      assert NoFailure(init) by {
        forall i | 0 <= i < |init| ensures init[i].Message? { assert init[i] == xs[i]; }
      }
      UpdatesMirrorBuffer(c, init, id);
      RunAccumulates(c, init, id);
      var (c1, e1) := Run(c, init);
      var (c2, e2) := Step(c1, x);
      assert Run(c, xs) == (c2, e1 + e2);
      UpdatesForAppend(e1, e2, id);
      if x.msg.AgentResponse? && x.msg.id == id {
        assert e2 == [OnUpdate(id, x.msg.content)];
        assert UpdatesFor(e2, id) == [x.msg.content] by {
          assert e2[..0] == [];
        }
        ConcatSnoc(UpdatesFor(e1, id), x.msg.content);
      } else {
        assert UpdatesFor(e2, id) == [] by {
          if |e2| > 0 {
            assert |e2| == 1 && e2[..0] == [];
            assert !(e2[0].OnUpdate? && e2[0].id == id);
          }
        }
        assert UpdatesFor(e1, id) + [] == UpdatesFor(e1, id);
      }
    }
  }

  /** Unregistered ids never appear in the table, whatever arrives. */
  lemma UnregisteredStayAbsent(c: Client, xs: seq<Inbound>, id: string)
    requires id !in c.responses
    ensures id !in Run(c, xs).0.responses
  {
  }

  /** Completion hands over everything streamed: after a run of traffic,
      the completion for a registered id with an `on_complete` handler
      passes its old buffer plus all chunks of the run. */
  lemma CompletionCarriesAllChunks(c: Client, xs: seq<Inbound>, id: string)
    requires id in c.responses && c.listening && NoFailure(xs)
    requires id in c.handlers && c.handlers[id].onComplete
    ensures var r := Run(c, xs + [Message(AgentResponseComplete(id))]);
      r.0.responses[id].complete
      && |r.1| > 0 && r.1[|r.1| - 1] == OnComplete(id, c.responses[id].content + Chunks(xs, id))
  {
    RunAccumulates(c, xs, id);
    RunAppend(c, xs, [Message(AgentResponseComplete(id))]);
    var mid := Run(c, xs).0;
    assert Run(mid, [Message(AgentResponseComplete(id))]).1
        == Step(mid, Message(AgentResponseComplete(id))).1;
  }

  /** `send_message(text, message_id, on_update, on_complete)` with the id
      already chosen. The row is registered (empty, incomplete) before
      anything else, handlers only if a callback is given; the answer is
      the id, or `None` when connecting or sending fails (the row stays). */
  function SendMessage(c: Client, id: string, onUpdate: bool, onComplete: bool,
                       ex: Extracted, t: Transport, sendOk: bool): (r: (Client, Option<string>))
    ensures r.0.responses == c.responses[id := PendingResponse("", false)]
    ensures (onUpdate || onComplete) ==> r.0.handlers == c.handlers[id := Handlers(onUpdate, onComplete)]
    ensures !(onUpdate || onComplete) ==> r.0.handlers == c.handlers
    ensures r.1.Some? ==> r.1.value == id && sendOk && (IsConnected(r.0) || c.state == Connecting)
    ensures r.1.None? ==> !sendOk || (!IsConnected(r.0) && r.0.state != Connecting)
    ensures c.state != Connected ==>
      var k := Connect(c, ex, t);
      (r.1.Some? <==> k.1 && sendOk) && r.0 == k.0.(responses := r.0.responses, handlers := r.0.handlers)
    ensures c.state == Connected ==>
      (r.1.Some? <==> sendOk) && r.0 == c.(responses := r.0.responses, handlers := r.0.handlers)
  {
    var c1 := c.(responses := c.responses[id := PendingResponse("", false)]);
    var c2 := if onUpdate || onComplete then c1.(handlers := c1.handlers[id := Handlers(onUpdate, onComplete)]) else c1;
    ConnectIgnoresTables(c, c2.responses, c2.handlers, ex, t);
    if c2.state != Connected then
      var (c3, ok) := Connect(c2, ex, t);
      if !ok then (c3, None)
      else if sendOk then (c3, Some(id)) else (c3, None)
    else if sendOk then (c2, Some(id)) else (c2, None)
  }

  /** `connect()` never looks at the response and handler tables. */
  lemma ConnectIgnoresTables(c: Client, responses: map<string, PendingResponse>, handlers: map<string, Handlers>,
                             ex: Extracted, t: Transport)
    ensures var k := Connect(c, ex, t);
      Connect(c.(responses := responses, handlers := handlers), ex, t) == (k.0.(responses := responses, handlers := handlers), k.1)
  {
  }

  /** What `send_message` registers is what the listener fills: whatever
      the send did, if the client listens afterwards, the row ends holding
      exactly the chunks addressed to the id, marked complete by the
      completion message. */
  lemma SentRowCollectsAnswer(c: Client, id: string, onUpdate: bool, onComplete: bool,
                              ex: Extracted, t: Transport, sendOk: bool, xs: seq<Inbound>)
    requires SendMessage(c, id, onUpdate, onComplete, ex, t, sendOk).0.listening && NoFailure(xs)
    ensures var s := SendMessage(c, id, onUpdate, onComplete, ex, t, sendOk).0;
      Run(s, xs + [Message(AgentResponseComplete(id))]).0.responses[id] == PendingResponse(Chunks(xs, id), true)
  {
    var s := SendMessage(c, id, onUpdate, onComplete, ex, t, sendOk).0;
    RunAccumulates(s, xs, id);
    RunAppend(s, xs, [Message(AgentResponseComplete(id))]);
    var mid := Run(s, xs).0;
    assert Run(mid, [Message(AgentResponseComplete(id))]).0 == Step(mid, Message(AgentResponseComplete(id))).0;
  }

  /** The inbound items that arrived during poll interval `t`. */
  function Batch(arrivals: seq<seq<Inbound>>, t: nat): seq<Inbound> {
    if t < |arrivals| then arrivals[t] else []
  }

  /** Everything that arrived during the first `n` poll intervals. */
  function Consumed(arrivals: seq<seq<Inbound>>, n: nat): seq<Inbound>
    decreases n
  {
    if n == 0 then [] else Consumed(arrivals, n - 1) + Batch(arrivals, n - 1)
  }

  /** After the first `n` poll intervals the connection is neither in
      ERROR nor CLOSED. */
  predicate StillOpen(c: Client, arrivals: seq<seq<Inbound>>, n: nat) {
    var r := Run(c, Consumed(arrivals, n)).0;
    r.state != Error && r.state != Closed
  }

  /** After the first `n` poll intervals the row for `id` exists and is
      not yet complete. */
  predicate StillPending(c: Client, arrivals: seq<seq<Inbound>>, id: string, n: nat) {
    var r := Run(c, Consumed(arrivals, n)).0;
    id in r.responses && !r.responses[id].complete
  }

  /** `wait_for_response(message_id, timeout)`. Polls every tick: a complete
      row returns its content; more than `timeout` seconds elapsed, or an
      ERROR/CLOSED state, returns `None`; otherwise it sleeps one tick. The
      listener runs concurrently, so at each poll the client is whatever the
      listener has made of the traffic of the ticks so far. `ticks` is how
      many ticks of traffic were consumed; the row is never removed. */
  method WaitForResponse(c: Client, id: string, timeout: nat, arrivals: seq<seq<Inbound>>)
    returns (c': Client, r: Option<string>, events: seq<Callback>, ticks: nat)
    ensures id !in c.responses ==> r.None? && c' == c && ticks == 0
    ensures (c', events) == Run(c, Consumed(arrivals, ticks))
    ensures c'.responses.Keys == c.responses.Keys
    ensures id in c.responses ==>
      forall t :: 0 <= t < ticks ==> StillPending(c, arrivals, id, t) && StillOpen(c, arrivals, t)
    ensures ticks <= timeout * TicksPerSecond + 1
    ensures r.Some? ==> id in c'.responses && c'.responses[id].complete && r.value == c'.responses[id].content
    ensures r.None? && id in c.responses ==>
      !c'.responses[id].complete
      && (ticks > timeout * TicksPerSecond || c'.state == Error || c'.state == Closed)
  {
    c' := c;
    events := [];
    ticks := 0;
    if id !in c.responses {
      return c, None, [], 0;
    }
    while !c'.responses[id].complete
      invariant (c', events) == Run(c, Consumed(arrivals, ticks))
      invariant id in c'.responses
      invariant ticks <= timeout * TicksPerSecond + 1
      invariant forall t :: 0 <= t < ticks ==> StillPending(c, arrivals, id, t) && StillOpen(c, arrivals, t)
      decreases timeout * TicksPerSecond + 1 - ticks
    {
      if ticks > timeout * TicksPerSecond {
        return c', None, events, ticks;
      }
      if c'.state == Error || c'.state == Closed {
        return c', None, events, ticks;
      }
      assert StillPending(c, arrivals, id, ticks);
      assert StillOpen(c, arrivals, ticks);
      ticks := ticks + 1;
      c', events := Run(c, Consumed(arrivals, ticks)).0, Run(c, Consumed(arrivals, ticks)).1;
    }
    r := Some(c'.responses[id].content);
  }

  /** `close()`: with a socket, the state becomes CLOSED and the listener is
      cancelled; without one nothing happens. The tables are kept. */
  function Close(c: Client): (r: Client)
    ensures c.hasSocket ==> r.state == Closed && !r.listening
    ensures !c.hasSocket ==> r == c
    ensures r.responses == c.responses && r.handlers == c.handlers
  {
    if c.hasSocket then c.(state := Closed, listening := false) else c
  }

  /** The listener saw the connection close: NO_CONNECTION, then
      `reconnect()` from inside the listener task. Since that task is still
      running, `connect()` starts no new one, and once `reconnect()` returns
      the task ends: whatever the outcome, nothing listens afterwards. */
  function ConnectionLost(c: Client, ex: Extracted, t: Transport): (r: Reconnection)
    requires c.listening
    ensures !r.client.listening
    ensures r.client.responses == c.responses && r.client.handlers == c.handlers
    ensures c.reconnectAttempts >= MaxReconnectAttempts ==> r.client.state == Error && !r.ok && r.delay.None?
    ensures c.reconnectAttempts < MaxReconnectAttempts ==>
      r.delay == Some(Backoff(c.reconnectAttempts + 1)) && (r.ok <==> IsConnected(r.client))
      && r.client.reconnectAttempts == (if r.ok then 0 else c.reconnectAttempts + 1)
  {
    var rc := Reconnect(c.(state := NoConnection), ex, t);
    rc.(client := rc.client.(listening := false))
  }

  /** A listening client has a zero attempt counter. The listener starts
      only with a successful `connect()`, which zeroes the counter, and only
      `reconnect()` raises it, from inside a listener that then ends. */
  predicate ListenerFresh(c: Client) {
    c.listening ==> c.reconnectAttempts == 0
  }

  /** Connecting, sending, closing and losing the connection keep
      `ListenerFresh`, and a new client has it. */
  lemma ListenerFreshKept(c: Client, ex: Extracted, t: Transport, auth: Option<AuthData>)
    requires ListenerFresh(c)
    ensures ListenerFresh(NewClient(auth))
    ensures ListenerFresh(Connect(c, ex, t).0)
    ensures ListenerFresh(Close(c))
    ensures c.listening ==> ListenerFresh(ConnectionLost(c, ex, t).client)
  {
  }

  /** Sending a message keeps `ListenerFresh`. */
  lemma ListenerFreshSend(c: Client, id: string, onUpdate: bool, onComplete: bool,
                          ex: Extracted, t: Transport, sendOk: bool)
    requires ListenerFresh(c)
    ensures ListenerFresh(SendMessage(c, id, onUpdate, onComplete, ex, t, sendOk).0)
  {
    ListenerFreshKept(c, ex, t, None);
  }

  /** The listener keeps `ListenerFresh` over any traffic. */
  lemma {:induction false} ListenerFreshRun(c: Client, xs: seq<Inbound>)
    requires ListenerFresh(c)
    ensures ListenerFresh(Run(c, xs).0)
    decreases |xs|
  {
    if |xs| > 0 {
      var init := xs[..|xs| - 1];
      ListenerFreshRun(c, init);
      assert ListenerFresh(Step(Run(c, init).0, xs[|xs| - 1]).0);
      assert xs == init + [xs[|xs| - 1]];
      RunAppend(c, init, [xs[|xs| - 1]]);
      var mid := Run(c, init).0;
      assert Run(mid, [xs[|xs| - 1]]).0 == Step(mid, xs[|xs| - 1]).0;
    }
  }

  /** Hence a lost connection is retried exactly once, after the first
      delay of 1 second: a failure leaves the counter at 1 and nothing
      listening, so no second `reconnect()` follows, and the attempt limit
      and the longer delays are never reached. */
  lemma LostConnectionRetriesOnce(c: Client, ex: Extracted, t: Transport)
    requires c.listening && ListenerFresh(c)
    ensures var r := ConnectionLost(c, ex, t);
      r.delay == Some(InitialBackoff) && !r.client.listening
      && r.client.reconnectAttempts == (if r.ok then 0 else 1)
  {
    BackoffSchedule(6);
  }

  /** `_get_headers()`: fixed browser-like headers, plus `Cookie` exactly
      when the auth data has a non-empty cookie jar. */
  function GetHeaders(c: Client): (h: map<string, string>)
    ensures forall k :: k in BaseHeaders ==> k in h && h[k] == BaseHeaders[k]
    ensures CookieName in h <==> c.auth.cookies.Some? && |c.auth.cookies.value| > 0
    ensures CookieName in h ==> h[CookieName] == CookieHeader(c.auth.cookies.value)
  {
    BaseHeadersHaveNoCookie();
    if c.auth.cookies.Some? && |c.auth.cookies.value| > 0 then
      BaseHeaders[CookieName := CookieHeader(c.auth.cookies.value)]
    else BaseHeaders
  }

  const CookieName: string := "Cookie"

  /** The headers sent on every connection. */
  const BaseHeaders: map<string, string> := map[
    "User-Agent" := "Mozilla/5.0 (Linux; Android 13; SM-A035F Build/TP1A.220624.014) AppleWebKit/537.36 (KHTML, like Gecko) Chrome/136.0.7103.60 Mobile Safari/537.36",
    "Origin" := "https://replit.com",
    "Referer" := "https://replit.com/"]

  lemma BaseHeadersHaveNoCookie()
    ensures CookieName !in BaseHeaders
  {
  }

  /** The `Cookie` header carries the jar: read back, it gives the client's
      cookies, in order. */
  lemma GetHeadersCarryJar(c: Client)
    requires c.auth.cookies.Some? ==> Plain(c.auth.cookies.value)
    ensures CookieName in GetHeaders(c) ==> ParseCookieHeader(GetHeaders(c)[CookieName]) == c.auth.cookies.value
  {
    if c.auth.cookies.Some? {
      CookieHeaderRoundTrip(c.auth.cookies.value);
    }
  }
}

=== FILE: wrappers.dfy ===
/** Optional values and results shared by every module of the model. */
module Wrappers {

  /** Python's `None` versus a present value. */
  datatype Option<+T> = None | Some(value: T) {

    /** The value, or `default` when there is none. */
    function GetOr(default: T): T {
      match this
      case Some(v) => v
      case None => default
    }
  }

  /** A value, or the error the Python code would have raised instead. */
  datatype Result<+R, +E> = Success(value: R) | Failure(error: E)
}
